=== FILE: README.md ===
# Threat-modelling request bot: a verified model of its core

This project models the supporting logic of a Slack bot that takes
threat-modelling requests, keeps them in a Slack List and caches them
while they are processed. Every part is a pure function over immutable
values. A remote call is replaced by its outcome: the response it resolved
with, or the error it threw. Clocks are replaced by a `now` parameter.

| file | module | models |
|---|---|---|
| `results.dfy` | `Results` | optional values and success/failure outcomes |
| `text.dfy` | `Text` | `trim`, `split`/`join` on one character, decimal rendering, ASCII case-insensitive substring test |
| `js_value.dfy` | `JsValue` | JavaScript values, truthiness, `a \|\| b`, property reads (own and inherited from `Object.prototype`), `String(v)` |
| `errors.dfy` | `Errors` | the error classes, `ErrorHandler.handle` and `ErrorHandler.formatForUser` |
| `retry.dfy` | `Retry` | `ErrorHandler.retry` over a sequence of attempt outcomes, and the `RetryConfigs` policies |
| `slack_api.dfy` | `SlackApi` | `SlackAPIService.call`: how a failure is classified and retried; the user list of `inviteToConversation` |
| `validation.dfy` | `Validation` | the user-id, channel-id and request validators, `safeValidate`, `sanitizeProjectName` |
| `rich_text.dfy` | `RichText` | `createRichText`, `richTextToPlainText`, `buildRichTextField` |
| `request_cache.dfy` | `RequestCache` | `ThreatModelingStore`, the in-memory request cache |
| `config.dfy` | `Config` | the environment check, `parseCsv`, `parsePort`, the configuration object |
| `list_constants.dfy` | `ListConstants` | the reason labels and the modal field identifiers |
| `lists.dfy` | `Lists` | `ListsManager`: the column-id registry, schema loading, row cells, updates, `setListId` |

The list manager imports two tables that its own constants file does not define:
- `LIST_COLUMNS` is the parameter `ListConfig.columns`, a sequence of (alias, {key, name}) entries in enumeration order.
- `REQUEST_TO_LIST_STATUS` is the parameter `ListConfig.statusCodes`.

`validateRequestId`, which the list manager also imports, is not part of this model. Its outcome is the parameter `requestIdCheck` of `Lists.AddRequest`.

These three parameters describe the manager as its authors meant it to run.
The code as it stands behaves differently:
- `src/constants/lists.js` exports neither table, so both names are `undefined`.
- `Object.entries(LIST_COLUMNS)` (src/lists.js:29) therefore throws a TypeError while `src/lists.js` loads, and no manager is ever built.
- `src/utils/validation.js` does not export `validateRequestId` (lines 162-170).
- Even if the module loaded, `addRequest` would throw a TypeError at its first line (src/lists.js:566), before its `try`.
- The model covers what the manager does once these names hold a table and a validator.

The manager's `columnIds` map and the eight `*ColumnId` properties it mirrors are both kept in `Lists.Manager`. `Lists.Valid` states that they agree.

## Model

| member | source | states |
|---|---|---|
| Text.Trim | src/config.js:21 | the result is a contiguous part of the input with only white space before and after it, and it has no white space at either end; an already trimmed string is returned as it is |
| Text.TrimPadded | src/config.js:21 | a trimmed text with any white space on both sides trims back to that text, so `Text.Trim`'s contract allows only one result |
| Text.SplitJoin | src/config.js:19 | splitting the comma-join of comma-free pieces on ',' gives back the pieces |
| Text.NatToStringValue | src/utils/validation.js:71 | the decimal text of an array index reads back as that index |
| Text.Contains | src/services/slackAPI.js:60 | true exactly when the pattern occurs at some position of the text |
| JsValue.Or | src/lists.js:104 | `a \|\| b` is `a` when `a` is truthy and `b` otherwise |
| JsValue.Lookup | src/lists.js:605 | a computed property read on a plain object gives the own value first; a name inherited from `Object.prototype` gives a truthy built-in; any other name gives undefined |
| Errors.Handle | src/utils/errorHandling.js:73-114 | the response always has success false; its code is the error's code when that is truthy and 'UNKNOWN_ERROR' otherwise; its message is the error's message |
| Errors.HandleCodes | src/utils/errorHandling.js:10-61 | each typed application error answers with its own class code; a validation error, which has no code, answers 'UNKNOWN_ERROR' |
| Errors.FormatForUser | src/utils/errorHandling.js:137-155 | configuration, Slack API, request-processing and storage errors each get their fixed sentence; every other error gets the generic one |
| Errors.FormatForUserDistinguishesKinds | src/utils/errorHandling.js:137-155 | two errors get the same sentence if and only if they are of the same kind |
| Retry.RetryFrom | src/utils/errorHandling.js:174-193 | from a given attempt on: every attempt before the last one failed with an error `shouldRetry` accepted; a success is the value of the last attempt; a failure is the last attempt's error, thrown because attempts ran out or `shouldRetry` declined it; the waits grow by the backoff factor |
| Retry.Retry | src/utils/errorHandling.js:163-196 | at most maxAttempts invocations; the first success is returned; an error is thrown on the last attempt or when `shouldRetry` declines it; the wait after failed attempt k is delay·backoff^(k-1); with maxAttempts below 1 nothing runs and the undefined last error is thrown |
| Retry.RetryReturnsFirstSuccess | src/utils/errorHandling.js:174-176 | if attempts 1..n-1 fail with retried errors and attempt n succeeds, retry makes exactly n invocations and returns the n-th value |
| Retry.RetryStopsOnDeclinedError | src/utils/errorHandling.js:180-182 | an error `shouldRetry` declines on the first attempt is thrown after one invocation and no wait |
| Retry.SlackApiSchedule | src/utils/errorHandling.js:203-206 | under the Slack API configuration there are at most three invocations, and the waits are a prefix of [1000, 2000] |
| Retry.StorageRetriesOnlyStorageErrorsOnce | src/utils/errorHandling.js:227-234 | under the storage configuration there are at most two invocations; a second one happens only after a storage error; the only wait is 500 |
| Retry.ShouldRetry | src/utils/errorHandling.js:207-245 | Slack API: retried exactly when the error is a SlackAPIError whose code is one of the eight transient codes, whatever the attempt; storage: exactly a StorageError on attempts 1 and below; network: always before attempt 3, and afterwards exactly for NETWORK_ERROR or TIMEOUT |
| Retry.NetworkRetriesEveryFailure | src/utils/errorHandling.js:236-245 | under the network configuration a failing run always makes all three invocations, whatever the error code |
| SlackApi.PlatformErrorCode | src/services/slackAPI.js:57-64 | a thrown error's code comes from `data.error` first, then a non-empty string `code`, then 'unknown_method' when the message contains it (ignoring ASCII case), and otherwise 'network_error' |
| SlackApi.Attempt | src/services/slackAPI.js:36-72 | a good response is returned unchanged; a missing or `ok: false` response becomes a Slack API error carrying `response.error` or 'unknown_error'; a thrown Slack API error is passed on unchanged; any other thrown error becomes a Slack API error with the platform code |
| SlackApi.Call | src/services/slackAPI.js:32-75 | at most three invocations with waits of at most [1000, 2000]; every invocation before the last failed with a transient code; a failure is the last invocation's error, a Slack API error, and has a non-transient code unless it came on the third attempt; a success is a good response from the last invocation |
| SlackApi.CallStopsOnPermanentFailure | src/utils/errorHandling.js:207-224 | a first invocation failing with a code outside the eight transient ones ends the call after one invocation with that error and no wait |
| SlackApi.CallRecoversFromTransientFailures | src/services/slackAPI.js:32-75 | two transient failures and then a good response give that response after three invocations |
| SlackApi.InventedCodesRetryPolicy | src/services/slackAPI.js:64 | a thrown error with no platform code is retried unless its message names an unknown method; a failed response with no error code ('unknown_error') ends the call after one invocation |
| SlackApi.InviteUsersParam | src/services/slackAPI.js:139 | a non-array is passed through unchanged; an array of strings becomes their comma-join |
| SlackApi.InviteUsersSplitsBack | src/services/slackAPI.js:139 | the joined user list splits back on ',' into the same user ids |
| Validation.ValidateUserId | src/utils/validation.js:21-31 | succeeds exactly on strings of 9 to 11 ASCII letters or digits, returning the value unchanged; otherwise the error names the field and says whether the value was not a non-empty string or not a user id |
| Validation.ValidateChannelId | src/utils/validation.js:39-49 | succeeds exactly on 'C' or 'c' followed by 8 to 10 ASCII letters or digits, returning the value unchanged; otherwise the field-naming error for the case |
| Validation.ValidateUserIdsFrom | src/utils/validation.js:69-82 | succeeds exactly when every element from the index on is a user id; otherwise it fails with the error for the first bad element, under the field name `fieldName[i]` |
| Validation.ValidateUserIdArray | src/utils/validation.js:60-85 | succeeds exactly on arrays of user ids that are non-empty unless empty is allowed; a non-array and a forbidden empty array get their own errors; otherwise the first bad element decides the error |
| Validation.ValidateRequestData | src/utils/validation.js:92-116 | succeeds exactly on objects with a non-empty project name, a valid requester id and, when team members are given, an array of valid ids; a failure is the requestData, projectName or requestedBy error, in that order, and otherwise exactly the team-member array's error (`teamMembers` or `teamMembers[i]`) |
| Validation.SafeValidate | src/utils/validation.js:127-142 | the validator's value when it succeeds, and null when it throws |
| Validation.SafeValidateUserId | src/utils/validation.js:127-142 | wrapped around the user-id check, a value survives exactly when it is a user id |
| Validation.ReplaceInvalid | src/utils/validation.js:156 | same length; every character outside `[a-z0-9-]` becomes '-' and the others are kept |
| Validation.CollapseHyphens | src/utils/validation.js:157 | the result has no "--", keeps the first character and the slug alphabet, and leaves a string without "--" as it is |
| Validation.CollapseHyphensPieces | src/utils/validation.js:157 | cut into characters and maximal hyphen runs, the result has the input's pieces in order with every run shortened to one hyphen |
| Validation.SpellPieces | src/utils/validation.js:157 | a string is spelled back by its pieces, so pieces determine the string |
| Validation.CollapseHyphensSpelled | src/utils/validation.js:157 | the result is the text of the input's pieces with every run of hyphens made a single hyphen |
| Validation.StripEdgeHyphens | src/utils/validation.js:158 | exactly one leading and one trailing hyphen go: "-" becomes empty, `-x-` becomes `x`, `-x` and `x-` become `x`; a string without edge hyphens is unchanged; on a string without "--" no edge hyphen remains, and the slug alphabet is kept |
| Validation.Take40 | src/utils/validation.js:159 | the prefix of length min(length, 40): the whole string when it is short enough, else its first 40 characters |
| Validation.SanitizeProjectName | src/utils/validation.js:149-160 | the result is never empty, uses only `[a-z0-9-]`, has no "--", does not start with '-', is at most 40 long, and is 'prosjekt' for an empty or non-string name |
| Validation.SanitizeFixesSlugs | src/utils/validation.js:149-160 | a valid fragment that does not end in '-' is returned unchanged |
| Validation.TrailingHyphenAfterCut | src/utils/validation.js:158-159 | 39 letters, a space and a letter sanitise to the 39 letters followed by '-' |
| Validation.SanitizeNotIdempotent | src/utils/validation.js:149-160 | on that name a second sanitising pass changes the result |
| Validation.SanitizeProjectNameTrimmed | src/utils/validation.js:149-160 | the corrected sanitiser: everything the original promises, and the result never ends in '-'; where the original's result does not end in '-' the two agree |
| Validation.DropTrailingHyphen | src/utils/validation.js:158-159 | dropping the trailing '-' from a valid fragment leaves a valid fragment ending in a letter or digit |
| Validation.SanitizeTrimmedIdempotent | src/utils/validation.js:149-160 | the corrected sanitiser is idempotent |
| RichText.CreateRichText | src/utils/slackRichText.js:1-16 | a single rich-text block |
| RichText.PlainText | src/utils/slackRichText.js:18-21 | anything that is not an array reads as the empty text |
| RichText.SkipsMalformedBlock | src/utils/slackRichText.js:25-26 | a falsy block, or one whose `elements` is not an array, adds nothing wherever it stands among the blocks |
| RichText.SkipsMalformedElement | src/utils/slackRichText.js:28-29 | a falsy element, or one whose `elements` is not an array, adds nothing wherever it stands in a block |
| RichText.SkipsNonStringNode | src/utils/slackRichText.js:31-34 | a falsy node, or one whose `text` is not a string, adds nothing wherever it stands in an element |
| RichText.PlainTextOfCreated | src/utils/slackRichText.js:1-40 | reading back a created value gives the text it was made from |
| RichText.BlocksTextAppend | src/utils/slackRichText.js:23-39 | the text of blocks a ++ b is the text of a followed by the text of b |
| RichText.PlainTextOfCreatedBlocks | src/utils/slackRichText.js:1-40 | blocks created from several texts read back as the texts concatenated |
| RichText.BuildRichTextField | src/utils/slackRichText.js:42-45 | a cell with exactly the keys column_id and rich_text, whose column is the one given and whose rich text reads back as the given text |
| RequestCache.Merge | src/store.js:31-42 | the merged record has the old keys plus every key updated with a defined value; defined updates win; every other key keeps its old value |
| RequestCache.MergeIdempotent | src/store.js:31-42 | merging the same updates twice is merging them once |
| RequestCache.MergeUndefinedIsIdentity | src/store.js:35-39 | updates that are all undefined leave the record as it is |
| RequestCache.UpdateCache | src/store.js:31-42 | the request gets a record, the old one (or an empty one) merged with the updates; no other request changes |
| RequestCache.CachedRecord | src/store.js:18-26 | the text fields default to "", the time to `now`, and teamMembers to [] when it is not an array; an undefined requester leaves the cached requester as it was; other existing keys are kept |
| RequestCache.CacheRequestData | src/store.js:14-29 | undefined or null data throws; otherwise the request's record is merged as `CachedRecord` says and no other request changes |
| RequestCache.GetCachedRequestData | src/store.js:45-48 | null for an id with no record, and the stored record otherwise |
| RequestCache.TrelloRecord | src/store.js:54-64 | the card URL (when defined) and its timestamp are merged in; every other key is kept |
| RequestCache.UpdateTrelloCardUrl | src/store.js:51-67 | false, with nothing changed, when the request has no record; otherwise true, the URL merged in and no other request changed |
| RequestCache.ClearRequestData | src/store.js:70-73 | the given request is removed and every other one is kept unchanged |
| RequestCache.Close | src/store.js:85-89 | afterwards no request has cached data |
| RequestCache.HealthCheck | src/store.js:75-83 | always reports healthy |
| RequestCache.CachedDataReadsBack | src/store.js:14-48 | data that was cached reads back as the old record with the defaulted fields merged in: every text field or its "", the time or `now`, the team members or [], and the requester when given |
| RequestCache.NoTrelloUrlAfterClear | src/store.js:51-73 | after a request is cleared, setting its card URL fails and changes nothing |
| RequestCache.CacheRequestDataIdempotent | src/store.js:14-42 | caching the same data again at the same time changes nothing |
| RequestCache.TrelloUrlSurvivesRecaching | src/store.js:14-67 | a card URL set on a request survives the request being cached again |
| Config.MissingFrom | src/config.js:10 | exactly the required names whose variable is unset or empty |
| Config.ParseCsv | src/config.js:17-23 | an unset or empty value gives no entries; every entry is non-empty, trimmed and comma-free |
| Config.ParseCsvOfPieces | src/config.js:17-23 | the comma-join of comma-free pieces parses as the pieces trimmed, with the empty ones dropped, in order |
| Config.ParseCsvSkipsBlankPiece | src/config.js:22 | an empty or white-space-only piece anywhere ("U1,,U2", "U1, ,U2", a trailing comma) leaves the parsed entries unchanged |
| Config.NonEmptyTrimmedOfPadded | src/config.js:20-22 | comma-free pieces, each an entry with white space around it, trim back to the entries in their order |
| Config.ParseCsvOfPadded | src/config.js:17-23 | the comma-join of entries, each with any white space around it, parses back to the same entries in the same order ("U1, U2" gives U1 then U2) |
| Config.ParseInt | src/config.js:26 | `Number.parseInt(value, 10)` is a number exactly when a digit follows the leading white space and an optional sign; an unset value is NaN; a negative result needs a leading '-' |
| Config.LeadingDigits | src/config.js:26 | the longest prefix of decimal digits |
| Config.ParsePort | src/config.js:25-28 | a positive parse is used as it is; NaN, zero or a negative parse gives the fallback; an unset value gives the fallback |
| Config.ParseIntOfDigits | src/config.js:26 | digits followed by anything that does not start with a digit parse as the digits' value, e.g. "8080abc" as 8080 |
| Config.ParsePortOfDecimal | src/config.js:25-28 | a positive port in decimal, with any non-digit suffix, is read as that port |
| Config.ParsePortRejectsNegative | src/config.js:25-28 | a negative number gives the fallback |
| Config.ParseSignedOfZeros | src/config.js:26 | an optional sign, one or more '0's and a suffix that does not start with a digit parse as zero |
| Config.ParsePortRejectsZero | src/config.js:25-28 | zero gives the fallback however it is written: leading white space, an optional sign, any number of '0's and a non-digit suffix |
| Config.ParsePortRejectsText | src/config.js:25-28 | every text whose first character after white space and an optional sign is not a digit parses as NaN and gives the fallback |
| Config.LoadConfig | src/config.js:3-41 | loading fails exactly when a required variable is unset, with a message listing the missing names; otherwise the port is positive, the admins are the parsed list, and the list id is the variable or null |
| ListConstants.FindReason | src/constants/lists.js:25 | finds a reason exactly when one has the value, and then the first such reason |
| ListConstants.GetThreatModelingReasonLabel | src/constants/lists.js:24-27 | 'standalone' and 'risk_assessment_part' get their labels; any other value is returned unchanged |
| ListConstants.ReasonLabelIdempotent | src/constants/lists.js:4-7 | no label is itself a reason value, so looking up a label returns it unchanged |
| ListConstants.ReasonLabelsIdentifyReasons | src/constants/lists.js:4-7 | reason values are pairwise distinct, each value finds its own label, and labels are pairwise distinct |
| ListConstants.ModalFieldsDistinct | src/constants/lists.js:10-16 | the modal field identifiers are pairwise distinct |
| Lists.PropertyMapInjective | src/lists.js:34-43 | no two aliases mirror into the same property |
| Lists.PropOfAlias | src/lists.js:99-109 | in a consistent manager, each alias's mirrored property holds the alias's id |
| Lists.ResetColumnIds | src/lists.js:82-97 | every alias and its mirror become null; the list and channel ids are kept |
| Lists.SetColumnId | src/lists.js:99-109 | an unknown alias changes nothing; a known one gets the id, or null for a falsy id; every other alias keeps its id; mirrors stay consistent |
| Lists.NewManager | src/lists.js:59-80 | a falsy client is a configuration error; a channel id given but invalid is that validation error; otherwise it succeeds with the initial list id (or null) and every column id null |
| Lists.AliasForSpec | src/lists.js:326-330 | a column key (or name) finds an alias exactly when a table entry has it, and then the last such entry |
| Lists.ResolveAlias | src/lists.js:326-333 | the column key is tried first and the display name second; a key that is not a defined key but names an `Object.prototype` property reads as a truthy built-in, so the name is not tried and the column is skipped; the result is never the empty alias |
| Lists.ResolveAliasInheritedKey | src/lists.js:326-333 | a column whose key is `constructor`, when no definition has that key, is skipped even when its display name is a defined one |
| Lists.ColumnAlias | src/lists.js:326-333 | a falsy column never resolves; a schema column with neither key nor name is skipped; otherwise the alias from key, then name |
| Lists.ColumnIdOf | src/lists.js:331-332 | a schema column gives its id or null; an item field gives its column_id, else its id, else null |
| Lists.ApplyColumns | src/lists.js:325-334 | applying columns keeps the mirrors consistent and leaves the list id, the channel and the alias set unchanged |
| Lists.LastColumnForSpec | src/lists.js:325-334 | finds the last column that resolves to an alias, or reports that none does |
| Lists.ApplyColumnsResolves | src/lists.js:325-334 | after applying columns, an alias holds the id of the last column resolving to it, or its old id when none does |
| Lists.ApplyColumnsResolvesAll | src/lists.js:325-334 | the same, for all eight aliases at once |
| Lists.Rebuild | src/lists.js:323-334 | after the reset and the mapping, each alias holds the id of the last column resolving to it, or null |
| Lists.RegisterColumnIds | src/lists.js:318-338 | a non-array or empty schema returns false and changes nothing; otherwise it returns true and the registry is rebuilt from the schema |
| Lists.RegisterColumnIdsFromItem | src/lists.js:340-358 | a falsy item, or one whose fields are not an array, returns false and changes nothing; otherwise it returns true and the registry is rebuilt from the fields, even when there are none |
| Lists.RegisterForgetsStaleIds | src/lists.js:318-338 | an alias no schema column resolves to ends null, whatever it held before |
| Lists.RegisterIgnoresPriorState | src/lists.js:318-338 | the column ids after registration depend only on the schema |
| Lists.RegisterIdempotent | src/lists.js:318-338 | registering the same schema twice is registering it once |
| Lists.FetchedSchema | src/lists.js:383-398 | the schema is null after a failed call; otherwise it is the metadata's schema when that is truthy, and null when not, so it is always null or truthy |
| Lists.FetchedItems | src/lists.js:383-398 | the items are [] after a failed call; otherwise they are the response's items when truthy, and [] when not |
| Lists.LoadListSchema | src/lists.js:360-398 | list metadata is used when present, else the first item's fields, else it fails with the schema-unavailable error; on success the mirrors are consistent and the list id is kept |
| Lists.LoadListSchemaNeedsResponse | src/lists.js:383-398 | when the remote call fails, loading fails with the schema-unavailable error |
| Lists.SchemaPreferredToItems | src/lists.js:364-367 | when the metadata has a schema, the items do not matter |
| Lists.InitializeList | src/lists.js:122-140 | with no list id it returns null and changes nothing; otherwise it succeeds exactly when loading the schema does, and returns the list id |
| Lists.CreateNewList | src/lists.js:278-304 | a failed call propagates; a response without list_id is a request-processing error; on success the new list id is truthy and stored; a non-empty schema rebuilds the registry, and otherwise the column ids are kept |
| Lists.Slot | src/lists.js:512-563 | a cell is produced only for a configured column, and it names that column; the project, request-id, status, urgency and type cells are always produced when configured |
| Lists.BuildRequestFields | src/lists.js:512-563 | one cell per slot that produces one, in the fixed slot order (project, request id, status, urgency, requester, type, assignees, admin message); each cell is its slot's cell and names that slot's configured column, so no cell names an unconfigured column; no configured column means no cells |
| Lists.CellFor | src/lists.js:512-563 | a cell found for a column is one of the row's cells and names that column |
| Lists.CellForSomes | src/lists.js:512-563 | looking a column up in the row is looking it up in the eight ordered slots |
| Lists.ReadBackSlot | src/lists.js:512-563 | when the configured columns are distinct, the row's cell for a column is that column's slot |
| Lists.ReadBackProjectCell | src/lists.js:515-517 | the project cell reads back as the project name |
| Lists.ReadBackRequestIdCell | src/lists.js:519-521 | the request-id cell reads back as the request id |
| Lists.ReadBackStatusCell | src/lists.js:523-528 | the status cell always holds the pending code |
| Lists.ReadBackUrgencyCell | src/lists.js:530-535 | the urgency cell holds the given urgency, or 'unknown' |
| Lists.ReadBackRequesterCell | src/lists.js:537-542 | the requester cell exists only when a requester is given, and then holds that user |
| Lists.ReadBackTypeCell | src/lists.js:544-549 | the type cell holds the given type, or 'other' |
| Lists.ReadBackAssigneeCell | src/lists.js:551-556 | the assignee cell exists only for a non-empty array of users, and then holds them |
| Lists.ReadBackAdminMessageCell | src/lists.js:558-560 | the admin-message cell exists only when a timestamp is given, and then reads back as it |
| Lists.AddRequest | src/lists.js:565-602 | a failed request-id check or invalid data is rethrown; no list id is a configuration error; Slack API and request-processing errors propagate; any other error is wrapped as a request-processing error; success is exactly a truthy item id, which is returned; no other error type escapes |
| Lists.AddRequestThroughCall | src/lists.js:565-602 | through the real call: a failed call surfaces its Slack API error unchanged, and success is exactly a truthy item id in the good response |
| Lists.MapStatusForList | src/lists.js:604-606 | a status whose table lookup is truthy maps to that value, and any other status to the pending code; the lookup sees inherited `Object.prototype` names |
| Lists.MapStatusForListTotal | src/lists.js:604-606 | when the pending code is set, every status maps to a truthy value; it is a code from the table unless the status names an `Object.prototype` property the table does not own, such as `toString`, which maps to that inherited built-in |
| Lists.UpdateRequestStatus | src/lists.js:608-633 | with no list id or status column it returns false and makes no call; otherwise it makes the call with the mapped status in the status column, and returns whether the call succeeded |
| Lists.UpdateAssignedUsers | src/lists.js:635-659 | with no list id or assignee column it returns false and makes no call; otherwise it makes the call with the users (or [] for a non-array), and returns whether the call succeeded |
| Lists.UpdateStatusSendsTableCode | src/lists.js:608-633 | on a configured list with a pending code, the update sends one select cell for the row holding a truthy code, one of the table's codes for any status that is not an inherited name, and reports exactly whether the call succeeded |
| Lists.GetListItems | src/lists.js:661-679 | with no list id it gives [] and makes no call; otherwise it asks for the list's items and gives them, or [] when the call fails or returns none |
| Lists.ApplyLegacyResolves | src/lists.js:697-701 | after the legacy keys are applied in order, an alias holds the value of the last truthy key naming it, or its old id |
| Lists.LegacyIdSkips | src/lists.js:685-701 | keys that name other aliases do not affect an alias |
| Lists.SetListId | src/lists.js:681-705 | the list id is replaced; with no column object nothing else changes; with one, each alias gets the value of its last truthy legacy key or keeps its id, and the mirrors stay consistent |
| Lists.SetListIdPrefersProjectName | src/lists.js:685-701 | `projectName` wins over `project`; either one wins over the old project column id |

## Left out

- Logging, ISO timestamps (a `now` parameter instead) and the `setTimeout` sleeps. `Retry.Retry` records each wait's length instead of sleeping.
- Floating point: numbers are integers, and NaN is `None` in `Config.ParseInt`. Backoff factors are reals, so 1.5 is exact.
- Unicode case mapping: lower-casing and the case-insensitive test fold only ASCII letters. This is what the source's regular expressions do.
- Thrown values that are not objects. A foreign error is modelled as a map of its properties.
- Prototype properties: reads of fixed names (`data.urgency`, `column.key`, ...) see only own properties, since none of those names is inherited. The two computed reads, the alias tables and the status table, go through `JsValue.Lookup`, which does see the `Object.prototype` names.
- Validation.SanitizeProjectName: `toLowerCase` is modelled on ASCII only. Some non-ASCII letters lower-case to ASCII in the source: U+212A KELVIN SIGN becomes 'k' and U+0130 becomes "i" followed by U+0307. So `sanitizeProjectName("\u212A")` is "k" in the source but "prosjekt" in the model, and "\u0130" gives "i" in the source but "prosjekt" in the model. Other non-ASCII characters are replaced by '-' in both.
- RequestCache.Store: the cache is keyed by value. The source's `Map` compares object keys by identity, and it hands out the stored record by reference, so a caller can change it in place. Request ids are strings, for which the two agree.
- Property order: `Object.entries` is taken to enumerate `LIST_COLUMNS` in the given sequence order. Integer-like keys, which JavaScript lists first, are not modelled.
- `validateRequestId`, `LIST_COLUMNS` and `REQUEST_TO_LIST_STATUS` are not part of this model. They are parameters, as described above.
- `Lists.AddRequest`: the remote call is its outcome. A success with a null response is treated as a response with no item, which the code would fail on with a TypeError. `SlackAPIService.call` never returns such a response.
- `Lists.GetListItems`: the same treatment of a null response.
- `Lists.InitializeList`: when no list exists, the source posts a "create list" message (`sendCreateListMessage`). That message is left out, since it is UI.
- `Lists.CreateNewList`: the dummy item `createDummyItem` adds, and its deletion, are left out. The source swallows their errors, so they do not change the result.
- `Lists.SetListId`: an array given as the column object acts as no column object at all. This is what the source does, because an array has none of the legacy keys as own properties.
- `Lists.LoadListSchema`: the fallback to the first item needs `items` to be a non-empty array. A non-array object with a positive `length` property, which the source would also index, is not modelled.
- `Lists.Slot`: the user ids in a cell are passed through as given. The source does not check them here.
- `getColumnStateForLog`, `connect`, `shareListAccess`, `sendCreateListMessage` and `handleCreateListButton` are remote or logging operations.
- `SlackAPIService` wrappers other than `call` and the user list of `inviteToConversation` are left out. They are one-line forwards to `call`.
- The command and action handlers, modals, message templates, the Trello service and application bootstrap are left out. The factory in src/factories/applicationFactory.js:27-33 passes five arguments to a constructor that takes four (src/lists.js:59); `Lists.NewManager` models the constructor as declared.
- The required-variable check runs at module load and throws; `Config.LoadConfig` returns that error as a failure.
- `Errors.FormatForUser`: the sentences are transcribed as the source file stores them, double-encoded, so each begins with mis-decoded emoji bytes.

## Findings

| source | as written | input that shows it | evidently intended | confidence | as-written member | corrected member |
|---|---|---|---|---|---|---|
| src/utils/validation.js:149-160 | edge hyphens are stripped before the cut to 40 characters, so the cut can expose a new trailing '-' | 39 × 'a', then " b": the result is 39 × 'a' followed by '-' | a channel-name fragment that does not end in '-', so a second pass changes nothing | medium, not executed | Validation.TrailingHyphenAfterCut | Validation.SanitizeProjectNameTrimmed |

=== FILE: config.dfy ===
/**
  The configuration read from the environment at start-up: the check for the
  required variables, the comma-separated admin list and the port number.
  The environment is a parameter: a map from variable name to value, where
  an absent name reads as `undefined`.
*/
module Config {
  import opened Results
  import opened Text
  import opened JsValue
  import opened Errors

  type Env = map<string, string>

  /** `process.env[key]`. */
  function EnvValue(env: Env, key: string): (r: Option<string>)
    ensures r.Some? <==> key in env
  {
    if key in env then Some(env[key]) else None
  }

  /** A variable counts as set when its value is truthy, that is, a non-empty string. */
  predicate IsSet(env: Env, key: string)
  {
    key in env && env[key] != ""
  }

  const REQUIRED_ENV_VARS: seq<string> := ["SLACK_BOT_TOKEN", "SIGNING_SECRET", "SOCKET_MODE_TOKEN", "ADMIN_CHANNEL_ID"]

  predicate AllRequiredSet(env: Env)
  {
    IsSet(env, "SLACK_BOT_TOKEN") && IsSet(env, "SIGNING_SECRET") && IsSet(env, "SOCKET_MODE_TOKEN")
    && IsSet(env, "ADMIN_CHANNEL_ID")
  }

  /** `REQUIRED_ENV_VARS.filter((key) => !process.env[key])`, for any list of names. */
  function MissingFrom(env: Env, keys: seq<string>): (r: seq<string>)
    ensures forall k :: k in r <==> k in keys && !IsSet(env, k)
    ensures |r| <= |keys|
  {
    if keys == [] then []
    else (if IsSet(env, keys[0]) then [] else [keys[0]]) + MissingFrom(env, keys[1..])
  }

  /** `xs.join(sep)` with a separator of any length, for the error message. */
  function JoinWith(xs: seq<string>, sep: string): string
  {
    if xs == [] then "" else if |xs| == 1 then xs[0] else xs[0] + sep + JoinWith(xs[1..], sep)
  }

  /** An entry `parseCsv` can produce: non-empty, trimmed, without a comma. */
  predicate IsCsvEntry(x: string)
  {
    x != "" && IsTrimmed(x) && ',' !in x
  }

  /** `parseCsv(value)`: the trimmed, non-empty pieces between commas; nothing for an unset value. */
  function ParseCsv(value: Option<string>): (r: seq<string>)
    ensures forall i :: 0 <= i < |r| ==> IsCsvEntry(r[i])
    ensures value.None? || value.value == "" ==> r == []
  {
    if value.None? || value.value == "" then [] else NonEmptyTrimmed(Split(value.value, ','))
  }

  predicate CommaFree(pieces: seq<string>)
  {
    forall i :: 0 <= i < |pieces| ==> ',' !in pieces[i]
  }

  /** `.map((entry) => entry.trim()).filter(Boolean)`, on comma-free pieces. */
  function NonEmptyTrimmed(pieces: seq<string>): (r: seq<string>)
    requires CommaFree(pieces)
    ensures forall i :: 0 <= i < |r| ==> IsCsvEntry(r[i])
    ensures |r| <= |pieces|
  {
    if pieces == [] then []
    else
      var t := Trim(pieces[0]);
      TrimmedIsPart(pieces[0]);
      assert t != "" ==> IsCsvEntry(t);
      var rest := NonEmptyTrimmed(pieces[1..]);
      if t == "" then rest else [t] + rest
  }

  /** Each entry with white space of its own before and after it. */
  function Padded(before: seq<string>, xs: seq<string>, after: seq<string>): (r: seq<string>)
    requires |before| == |xs| == |after|
    requires forall i :: 0 <= i < |xs| ==> IsCsvEntry(xs[i]) && AllSpace(before[i]) && AllSpace(after[i])
    ensures |r| == |xs|
    ensures forall i :: 0 <= i < |r| ==> r[i] == before[i] + xs[i] + after[i] && ',' !in r[i]
  {
    var r := seq(|xs|, i requires 0 <= i < |xs| => before[i] + xs[i] + after[i]);
    assert forall i :: 0 <= i < |r| ==> ',' !in r[i] by {
      forall i | 0 <= i < |r| ensures ',' !in r[i] {
        assert IsCsvEntry(xs[i]);
        NoCommaAround(before[i], xs[i], after[i]);
      }
    }
    r
  }

  /** White space is not a comma, so padding adds none. */
  lemma NoCommaAround(before: string, x: string, after: string)
    requires ',' !in x && AllSpace(before) && AllSpace(after)
    ensures ',' !in before + x + after
  {
  }

  /** Entries padded with white space are trimmed back to the entries, in order. */
  lemma {:induction false} NonEmptyTrimmedOfPadded(before: seq<string>, xs: seq<string>, after: seq<string>)
    requires |before| == |xs| == |after|
    requires forall i :: 0 <= i < |xs| ==> IsCsvEntry(xs[i]) && AllSpace(before[i]) && AllSpace(after[i])
    ensures NonEmptyTrimmed(Padded(before, xs, after)) == xs
  {
    if xs != [] {
      var p := Padded(before, xs, after);
      var q := Padded(before[1..], xs[1..], after[1..]);
      assert p[1..] == q by {
        assert forall i :: 0 <= i < |q| ==> q[i] == p[1..][i];
      }
      NonEmptyTrimmedOfPadded(before[1..], xs[1..], after[1..]);
      assert p[0] == before[0] + xs[0] + after[0];
      TrimPadded(before[0], xs[0], after[0]);
      assert NonEmptyTrimmed(p) == [xs[0]] + NonEmptyTrimmed(p[1..]);
      assert xs == [xs[0]] + xs[1..];
    }
  }

  /** Trimming keeps a contiguous part of the text, so it adds no comma. */
  lemma TrimmedIsPart(s: string)
    ensures ',' !in s ==> ',' !in Trim(s)
  {
    var t := TrimStart(s);
    var r := TrimEnd(t);
    assert Trim(s) == r;
    if ',' in r {
      var i :| 0 <= i < |r| && r[i] == ',';
      assert t[i] == ',';
      assert s[|s| - |t| + i] == ',';
    }
  }

  /**
    Admin ids written with commas, each with any white space around it,
    read back as the same ids in the same order: "U1, U2" gives U1 then U2.
  */
  lemma ParseCsvOfPadded(before: seq<string>, xs: seq<string>, after: seq<string>)
    requires |before| == |xs| == |after|
    requires forall i :: 0 <= i < |xs| ==> IsCsvEntry(xs[i]) && AllSpace(before[i]) && AllSpace(after[i])
    ensures ParseCsv(Some(Join(Padded(before, xs, after), ','))) == xs
  {
    if xs != [] {
      var p := Padded(before, xs, after);
      SplitJoin(p, ',');
      assert |Join(p, ',')| >= |p[0]| >= |xs[0]| > 0;
      NonEmptyTrimmedOfPadded(before, xs, after);
    }
  }

  lemma {:induction false} NonEmptyTrimmedAppend(a: seq<string>, b: seq<string>)
    requires CommaFree(a) && CommaFree(b)
    ensures NonEmptyTrimmed(a + b) == NonEmptyTrimmed(a) + NonEmptyTrimmed(b)
  {
    if a == [] {
      assert a + b == b;
    } else {
      assert (a + b)[1..] == a[1..] + b;
      NonEmptyTrimmedAppend(a[1..], b);
    }
  }

  /** Parsing the comma-join of comma-free pieces trims each piece and drops the blank ones. */
  lemma ParseCsvOfPieces(pieces: seq<string>)
    requires CommaFree(pieces)
    ensures ParseCsv(Some(Join(pieces, ','))) == NonEmptyTrimmed(pieces)
  {
    if pieces != [] {
      SplitJoin(pieces, ',');
      if Join(pieces, ',') == "" {
        assert pieces == [""];
        assert Trim("") == "";
      }
    }
  }

  /** White space alone trims to nothing and is dropped. */
  lemma BlankPieceDropped(blank: string)
    requires AllSpace(blank)
    ensures ',' !in blank
    ensures NonEmptyTrimmed([blank]) == []
  {
    NoCommaAround(blank, "", "");
    assert blank + "" + "" == blank;
    TrimPadded(blank, "", "");
  }

  /** A blank piece after comma-free pieces adds no entry. */
  lemma BlankPieceAddsNothing(a: seq<string>, blank: string)
    requires CommaFree(a) && AllSpace(blank)
    ensures CommaFree(a + [blank])
    ensures NonEmptyTrimmed(a + [blank]) == NonEmptyTrimmed(a)
  {
    BlankPieceDropped(blank);
    NonEmptyTrimmedAppend(a, [blank]);
    assert NonEmptyTrimmed(a + [blank]) == NonEmptyTrimmed(a) + [];
  }

  /** Pieces with the same entries keep the same entries when more pieces follow. */
  lemma SameEntriesThen(x: seq<string>, a: seq<string>, b: seq<string>)
    requires CommaFree(x) && CommaFree(a) && CommaFree(b)
    requires NonEmptyTrimmed(x) == NonEmptyTrimmed(a)
    ensures CommaFree(x + b) && CommaFree(a + b)
    ensures NonEmptyTrimmed(x + b) == NonEmptyTrimmed(a + b)
  {
    NonEmptyTrimmedAppend(x, b);
    NonEmptyTrimmedAppend(a, b);
  }

  /**
    `.filter(Boolean)`: an empty or white-space-only piece anywhere among
    the pieces, as in "U1,,U2", "U1, ,U2" or a trailing comma, changes nothing.
  */
  lemma ParseCsvSkipsBlankPiece(a: seq<string>, blank: string, b: seq<string>)
    requires CommaFree(a) && CommaFree(b)
    requires AllSpace(blank)
    ensures ParseCsv(Some(Join(a + [blank] + b, ','))) == ParseCsv(Some(Join(a + b, ',')))
  {
    BlankPieceAddsNothing(a, blank);
    SameEntriesThen(a + [blank], a, b);
    ParseCsvOfPieces(a + [blank] + b);
    ParseCsvOfPieces(a + b);
  }

  /** The longest prefix of decimal digits. */
  function LeadingDigits(s: string): (r: string)
    ensures |r| <= |s| && r == s[..|r|]
    ensures forall i :: 0 <= i < |r| ==> IsDigit(r[i])
    ensures |r| == |s| || !IsDigit(s[|r|])
  {
    if s == [] || !IsDigit(s[0]) then [] else [s[0]] + LeadingDigits(s[1..])
  }

  /** Digits followed by anything that does not start with a digit: the digits are the prefix. */
  lemma {:induction false} LeadingDigitsOf(d: string, rest: string)
    requires forall i :: 0 <= i < |d| ==> IsDigit(d[i])
    requires rest == [] || !IsDigit(rest[0])
    ensures LeadingDigits(d + rest) == d
  {
    if d == [] {
      assert d + rest == rest;
    } else {
      assert (d + rest)[1..] == d[1..] + rest;
      LeadingDigitsOf(d[1..], rest);
      assert [d[0]] + d[1..] == d;
    }
  }

  /**
    `Number.parseInt(value, 10)`: white space skipped, an optional sign, then
    the longest run of digits; `None` stands for `NaN`, which is what an unset
    value (the string "undefined") and text without leading digits give.
  */
  function ParseInt(value: Option<string>): (r: Option<int>)
    ensures value.None? ==> r.None?
    ensures value.Some? ==>
              (r.Some? <==> var u := Unsigned(TrimStart(value.value)); u != [] && IsDigit(u[0]))
    ensures r.Some? && r.value < 0 ==> value.Some? && TrimStart(value.value) != [] && TrimStart(value.value)[0] == '-'
  {
    if value.None? then None else ParseSigned(TrimStart(value.value))
  }

  /** The sign-and-digits part of `parseInt`, after leading white space is gone. */
  function ParseSigned(t: string): Option<int>
  {
    var negative := t != [] && t[0] == '-';
    var digits := LeadingDigits(Unsigned(t));
    if digits == [] then None
    else
      var magnitude: int := DigitsValue(digits);
      Some(if negative then -magnitude else magnitude)
  }

  const DEFAULT_PORT: int := 3000

  /** `parsePort(value, fallback = 3000)`: the parsed number when it is a positive integer, otherwise the fallback. */
  function ParsePort(value: Option<string>, fallback: int): (r: int)
    ensures r > 0 || r == fallback
    ensures ParseInt(value).Some? && ParseInt(value).value > 0 ==> r == ParseInt(value).value
    ensures !(ParseInt(value).Some? && ParseInt(value).value > 0) ==> r == fallback
    ensures value.None? ==> r == fallback
  {
    var parsed := ParseInt(value);
    if parsed.Some? && parsed.value > 0 then parsed.value else fallback
  }

  /** Digits followed by anything that does not start with a digit parse as the digits' value. */
  lemma ParseIntOfDigits(d: string, suffix: string)
    requires d != [] && forall i :: 0 <= i < |d| ==> IsDigit(d[i])
    requires suffix == [] || !IsDigit(suffix[0])
    ensures ParseInt(Some(d + suffix)) == Some(DigitsValue(d))
  {
    var s := d + suffix;
    assert s[0] == d[0];
    assert !IsSpace(s[0]);
    assert TrimStart(s) == s;
    assert !(s[0] == '-' || s[0] == '+');
    LeadingDigitsOf(d, suffix);
    assert ParseSigned(s) == Some(DigitsValue(d));
  }

  /** A positive port in decimal, followed by anything that is not a digit, is read as that port. */
  lemma ParsePortOfDecimal(p: nat, suffix: string, fallback: int)
    requires p > 0
    requires suffix == [] || !IsDigit(suffix[0])
    ensures ParsePort(Some(NatToString(p) + suffix), fallback) == p
  {
    ParseIntOfDigits(NatToString(p), suffix);
    NatToStringValue(p);
  }

  /** A minus sign followed by digits parses as the negated value of the digits. */
  lemma ParseSignedOfNegative(d: string)
    requires d != [] && forall i :: 0 <= i < |d| ==> IsDigit(d[i])
    ensures ParseSigned("-" + d) == Some(-(DigitsValue(d) as int))
  {
    var t := "-" + d;
    assert t[0] == '-' && t[1..] == d;
    assert Unsigned(t) == d;
    LeadingDigitsOf(d, []);
    assert d + [] == d;
    assert LeadingDigits(Unsigned(t)) == d;
  }

  /** A negative number is not a port: the fallback is used. */
  lemma ParsePortRejectsNegative(p: nat, fallback: int)
    ensures ParsePort(Some("-" + NatToString(p)), fallback) == fallback
  {
    var s := "-" + NatToString(p);
    assert !IsSpace(s[0]);
    assert TrimStart(s) == s;
    ParseSignedOfNegative(NatToString(p));
  }

  /** The text after leading white space and an optional sign, where `parseInt` looks for digits. */
  function Unsigned(t: string): string
  {
    if t != [] && (t[0] == '-' || t[0] == '+') then t[1..] else t
  }

  /** A string of the digit '0' only. */
  predicate AllZeros(z: string)
  {
    forall i :: 0 <= i < |z| ==> z[i] == '0'
  }

  lemma {:induction false} ZerosValue(z: string)
    requires AllZeros(z)
    ensures DigitsValue(z) == 0
  {
    if z != [] {
      ZerosValue(z[..|z| - 1]);
    }
  }

  /** An optional sign, '0's and a suffix without a leading digit parse as zero. */
  lemma ParseSignedOfZeros(sign: string, zeros: string, suffix: string)
    requires sign == "" || sign == "+" || sign == "-"
    requires zeros != [] && AllZeros(zeros)
    requires suffix == [] || !IsDigit(suffix[0])
    ensures ParseSigned(sign + zeros + suffix) == Some(0)
  {
    var t := sign + zeros + suffix;
    assert Unsigned(t) == zeros + suffix by {
      if sign == "" {
        assert t == zeros + suffix;
        assert t[0] == zeros[0] == '0';
      } else {
        assert t[1..] == zeros + suffix;
      }
    }
    LeadingDigitsOf(zeros, suffix);
    ZerosValue(zeros);
  }

  /**
    Zero is not a port, however it is written: white space, an optional
    sign, one or more '0's and any suffix that does not start with a digit
    give the fallback.
  */
  lemma ParsePortRejectsZero(ws: string, sign: string, zeros: string, suffix: string, fallback: int)
    requires forall i :: 0 <= i < |ws| ==> IsSpace(ws[i])
    requires sign == "" || sign == "+" || sign == "-"
    requires zeros != [] && AllZeros(zeros)
    requires suffix == [] || !IsDigit(suffix[0])
    ensures ParsePort(Some(ws + sign + zeros + suffix), fallback) == fallback
  {
    var rest := sign + zeros + suffix;
    assert ws + sign + zeros + suffix == ws + rest;
    assert rest[0] == '-' || rest[0] == '+' || rest[0] == '0';
    TrimStartSkipsSpace(ws, rest);
    ParseSignedOfZeros(sign, zeros, suffix);
    assert ParseInt(Some(ws + rest)) == Some(0);
  }

  /** No digit where `parseInt` looks for one: the parse is NaN. */
  lemma ParseSignedNoDigits(t: string)
    requires Unsigned(t) == [] || !IsDigit(Unsigned(t)[0])
    ensures ParseSigned(t) == None
  {
    var u := Unsigned(t);
    assert LeadingDigits(u) == [];
  }

  /**
    Text whose first character after white space and an optional sign is
    not a digit parses as NaN, so it gives the fallback.
  */
  lemma ParsePortRejectsText(s: string, fallback: int)
    requires var u := Unsigned(TrimStart(s)); u == [] || !IsDigit(u[0])
    ensures ParseInt(Some(s)).None?
    ensures ParsePort(Some(s), fallback) == fallback
  {
    ParseSignedNoDigits(TrimStart(s));
  }

  datatype SlackAppConfig = SlackAppConfig(token: string, signingSecret: string, appToken: string, socketMode: bool)

  datatype AppConfig = AppConfig(
    port: int,
    adminChannelId: string,
    adminUserIds: seq<string>,
    orderListId: Js,
    slackApp: SlackAppConfig)

  /**
    The module-level code of the configuration file: it throws when a required
    variable is unset, and otherwise assembles the configuration.
  */
  function LoadConfig(env: Env): (r: Result<AppConfig, Error>)
    ensures r.Success? <==> AllRequiredSet(env)
    ensures r.Failure? ==>
              r.error == Foreign(map["message" := Str("Missing required environment variables: "
                                                       + JoinWith(MissingFrom(env, REQUIRED_ENV_VARS), ", "))])
    ensures r.Success? ==>
              && r.value.port > 0
              && r.value.adminChannelId == env["ADMIN_CHANNEL_ID"]
              && r.value.adminUserIds == ParseCsv(EnvValue(env, "ADMIN_USER_IDS"))
              && (IsSet(env, "ORDER_LIST_ID") ==> r.value.orderListId == Str(env["ORDER_LIST_ID"]))
              && (!IsSet(env, "ORDER_LIST_ID") ==> r.value.orderListId == Null)
              && r.value.slackApp == SlackAppConfig(env["SLACK_BOT_TOKEN"], env["SIGNING_SECRET"], env["SOCKET_MODE_TOKEN"], true)
  {
    var missing := MissingFrom(env, REQUIRED_ENV_VARS);
    if |missing| > 0 then
      assert missing[0] in missing;
      Failure(Foreign(map["message" := Str("Missing required environment variables: " + JoinWith(missing, ", "))]))
    else
      assert "SLACK_BOT_TOKEN" in REQUIRED_ENV_VARS && "SIGNING_SECRET" in REQUIRED_ENV_VARS;
      assert "SOCKET_MODE_TOKEN" in REQUIRED_ENV_VARS && "ADMIN_CHANNEL_ID" in REQUIRED_ENV_VARS;
      Success(AppConfig(
        ParsePort(EnvValue(env, "PORT"), DEFAULT_PORT),
        env["ADMIN_CHANNEL_ID"],
        ParseCsv(EnvValue(env, "ADMIN_USER_IDS")),
        if IsSet(env, "ORDER_LIST_ID") then Str(env["ORDER_LIST_ID"]) else Null,
        SlackAppConfig(env["SLACK_BOT_TOKEN"], env["SIGNING_SECRET"], env["SOCKET_MODE_TOKEN"], true)))
  }
}

=== FILE: errors.dfy ===
/**
  The error taxonomy of the bot and the two ways an error is turned into
  output: the standard error response of `ErrorHandler.handle` and the
  user-facing sentence of `ErrorHandler.formatForUser`.
*/
module Errors {
  import opened JsValue

  /**
    Everything the code can throw. The first five are the typed classes
    (`AppError` and its four subclasses), `Validation` is `ValidationError`
    (a plain `Error` subclass without a `code`), and `Foreign` is any other
    thrown object, described by its own properties (`message`, `code`,
    `data`, `name`, ...), such as an error from the platform client.
  */
  datatype Error =
    | AppBase(message: string, code: Js)
    | SlackApi(message: string, apiMethod: Js, slackError: Js)
    | Configuration(message: string)
    | RequestProcessing(message: string, requestId: Js, operation: Js)
    | Storage(message: string, operation: Js, key: Js)
    | Validation(message: string, field: Js, value: Js)
    | Foreign(fields: map<string, Js>)

  /** The error's `code` property: each `AppError` subclass fixes its own. */
  function Code(e: Error): Js
  {
    match e
    case AppBase(_, code) => code
    case SlackApi(_, _, _) => Str("SLACK_API_ERROR")
    case Configuration(_) => Str("CONFIGURATION_ERROR")
    case RequestProcessing(_, _, _) => Str("REQUEST_PROCESSING_ERROR")
    case Storage(_, _, _) => Str("STORAGE_ERROR")
    case Validation(_, _, _) => Undefined
    case Foreign(_) => Get(Obj(e.fields), "code")
  }

  /** The error's `name` property: the class name for the typed errors. */
  function Name(e: Error): Js
  {
    match e
    case AppBase(_, _) => Str("AppError")
    case SlackApi(_, _, _) => Str("SlackAPIError")
    case Configuration(_) => Str("ConfigurationError")
    case RequestProcessing(_, _, _) => Str("RequestProcessingError")
    case Storage(_, _, _) => Str("StorageError")
    case Validation(_, _, _) => Str("ValidationError")
    case Foreign(_) => Get(Obj(e.fields), "name")
  }

  /** The error's `message` property. */
  function Message(e: Error): Js
  {
    if e.Foreign? then Get(Obj(e.fields), "message") else Str(e.message)
  }

  /** The error's `data` property; only foreign errors carry one. */
  function Data(e: Error): Js
  {
    if e.Foreign? then Get(Obj(e.fields), "data") else Undefined
  }

  /** The response object `handle` returns (its timestamp is left out). */
  datatype ErrorResponse = ErrorResponse(success: bool, code: Js, message: Js)

  const UNKNOWN_ERROR: Js := Str("UNKNOWN_ERROR")

  /** `ErrorHandler.handle`: log (left out) and answer with a failed response. */
  function Handle(e: Error): (r: ErrorResponse)
    ensures !r.success
    ensures Truthy(r.code)
    ensures Truthy(Code(e)) ==> r.code == Code(e)
    ensures !Truthy(Code(e)) ==> r.code == UNKNOWN_ERROR
    ensures r.message == Message(e)
  {
    ErrorResponse(false, Or(Code(e), UNKNOWN_ERROR), Message(e))
  }

  /** Every typed application error answers with its class code; a validation error has none. */
  lemma HandleCodes(message: string, v: Js)
    ensures Handle(Configuration(message)).code == Str("CONFIGURATION_ERROR")
    ensures Handle(SlackApi(message, v, v)).code == Str("SLACK_API_ERROR")
    ensures Handle(RequestProcessing(message, v, v)).code == Str("REQUEST_PROCESSING_ERROR")
    ensures Handle(Storage(message, v, v)).code == Str("STORAGE_ERROR")
    ensures Handle(Validation(message, v, v)).code == UNKNOWN_ERROR
  {
  }

  /*
    The user-facing sentences. The source file stores them double-encoded
    (UTF-8 bytes read as Windows-1252), so the leading emoji and the
    Norwegian letters appear as the character sequences transcribed here.
  */
  const CONFIGURATION_MESSAGE: string :=
    "\U{E2}\U{161}\U{2122}\U{EF}\U{B8} Det oppstod en konfigurasjonsfeil. Kontakt support."
  const SLACK_API_MESSAGE: string :=
    "\U{F0}\U{178}\U{201C}\U{A1} Kommunikasjonsfeil med Slack. Pr\U{C3}\U{B8}v igjen om litt."
  const REQUEST_PROCESSING_MESSAGE: string :=
    "\U{F0}\U{178}\U{201C}\U{2039} Kunne ikke behandle foresp\U{C3}\U{B8}rselen. Pr\U{C3}\U{B8}v igjen eller kontakt support."
  const STORAGE_MESSAGE: string :=
    "\U{F0}\U{178}\U{2019}\U{BE} Kunne ikke lagre data. Pr\U{C3}\U{B8}v igjen om litt."
  const GENERIC_MESSAGE: string :=
    "\U{E2}\U{152} Det oppstod en uventet feil. Kontakt support hvis problemet vedvarer."

  /** The five kinds of error `formatForUser` tells apart. */
  datatype UserFacingKind = ConfigurationKind | SlackApiKind | RequestProcessingKind | StorageKind | OtherKind

  function KindOf(e: Error): UserFacingKind
  {
    match e
    case Configuration(_) => ConfigurationKind
    case SlackApi(_, _, _) => SlackApiKind
    case RequestProcessing(_, _, _) => RequestProcessingKind
    case Storage(_, _, _) => StorageKind
    case _ => OtherKind
  }

  /** `ErrorHandler.formatForUser`: one fixed sentence per error class, a generic one otherwise. */
  function FormatForUser(e: Error): (r: string)
    ensures e.Configuration? ==> r == CONFIGURATION_MESSAGE
    ensures e.SlackApi? ==> r == SLACK_API_MESSAGE
    ensures e.RequestProcessing? ==> r == REQUEST_PROCESSING_MESSAGE
    ensures e.Storage? ==> r == STORAGE_MESSAGE
    ensures e.AppBase? || e.Validation? || e.Foreign? ==> r == GENERIC_MESSAGE
  {
    if e.Configuration? then CONFIGURATION_MESSAGE
    else if e.SlackApi? then SLACK_API_MESSAGE
    else if e.RequestProcessing? then REQUEST_PROCESSING_MESSAGE
    else if e.Storage? then STORAGE_MESSAGE
    else GENERIC_MESSAGE
  }

  /** The sentence identifies the kind of error exactly: two errors read the same iff they are of one kind. */
  lemma FormatForUserDistinguishesKinds(e1: Error, e2: Error)
    ensures FormatForUser(e1) == FormatForUser(e2) <==> KindOf(e1) == KindOf(e2)
  {
    var ms := [CONFIGURATION_MESSAGE, SLACK_API_MESSAGE, REQUEST_PROCESSING_MESSAGE, STORAGE_MESSAGE, GENERIC_MESSAGE];
    assert forall i, j :: 0 <= i < j < 5 ==> ms[i][..4] != ms[j][..4] || |ms[i]| != |ms[j]|;
  }
}

=== FILE: js_value.dfy ===
/**
  JavaScript values as the code under study sees them: the primitive kinds it
  tests with `typeof`, arrays it tests with `Array.isArray`, plain objects,
  and the built-in values a plain object inherits from `Object.prototype`.
  Numbers are integers here (floating point and NaN are outside the model).
*/
module JsValue {
  import opened Text

  datatype Js =
    | Undefined
    | Null
    | Bool(b: bool)
    | Num(n: int)
    | Str(s: string)
    | Arr(items: seq<Js>)
    | Obj(fields: map<string, Js>)
      /** A built-in of the engine, by name: an `Object.prototype` method, or `Object.prototype` itself. */
    | Builtin(name: string)

  /** JavaScript truthiness: `undefined`, `null`, `false`, `0` and `""` are falsy. */
  predicate Truthy(v: Js)
  {
    match v
    case Undefined => false
    case Null => false
    case Bool(b) => b
    case Num(n) => n != 0
    case Str(s) => s != ""
    case _ => true
  }

  /** The expression `a || b`. */
  function Or(a: Js, b: Js): (r: Js)
    ensures Truthy(a) ==> r == a
    ensures !Truthy(a) ==> r == b
  {
    if Truthy(a) then a else b
  }

  /**
    Property read `v.k`. Only objects carry named properties in this model;
    reading from any other value yields `undefined`. The code only reads
    properties of values it has already checked to be truthy (or through
    `?.`), so the TypeError a read from `null` would raise never arises.
    Every name read this way is a fixed one outside `Object.prototype`, so
    only own properties matter; a computed name is read with `Lookup`.
  */
  function Get(v: Js, k: string): (r: Js)
    ensures !v.Obj? ==> r == Undefined
  {
    if v.Obj? && k in v.fields then v.fields[k] else Undefined
  }

  /** The test `!x || typeof x !== 'string'` negated: a non-empty string. */
  predicate IsNonEmptyString(v: Js)
  {
    v.Str? && v.s != ""
  }

  /**
    `String(v)`: the text a value turns into when used as a property key or
    joined into a message. Arrays join their elements with ',' (with `null`
    and `undefined` elements rendered empty); plain objects render as
    `[object Object]`.
  */
  function JsString(v: Js): string
  {
    match v
    case Undefined => "undefined"
    case Null => "null"
    case Bool(b) => if b then "true" else "false"
    case Num(n) => IntToString(n)
    case Str(s) => s
    case Arr(xs) =>
      Join(seq(|xs|, i requires 0 <= i < |xs| =>
        if xs[i].Undefined? || xs[i].Null? then "" else JsString(xs[i])), ',')
    case Obj(_) => "[object Object]"
    case Builtin(name) =>
      if name == PROTOTYPE_NAME then "[object Object]" else "function " + name + "() { [native code] }"
  }

  /** The names every plain object inherits from `Object.prototype`. */
  const OBJECT_PROTOTYPE_NAMES: set<string> := {
    "constructor", "hasOwnProperty", "isPrototypeOf", "propertyIsEnumerable", "toLocaleString",
    "toString", "valueOf", "__defineGetter__", "__defineSetter__", "__lookupGetter__",
    "__lookupSetter__", "__proto__"
  }

  const PROTOTYPE_NAME: string := "Object.prototype"

  /** The value an inherited name reads as: the method, or for `__proto__` the prototype object. */
  function InheritedValue(k: string): Js
  {
    if k == "__proto__" then Builtin(PROTOTYPE_NAME) else Builtin(k)
  }

  /**
    Property read `o[k]` on a plain object created by a literal or by
    assignment, whose own properties are `fields`: an own property first,
    then one inherited from `Object.prototype`, else `undefined`. Assigning
    to `__proto__` never creates an own property, so `__proto__` always
    reads the prototype.
  */
  function Lookup(fields: map<string, Js>, k: string): (r: Js)
    ensures k in fields && k != "__proto__" ==> r == fields[k]
    ensures k in OBJECT_PROTOTYPE_NAMES && (k !in fields || k == "__proto__") ==> Truthy(r) && r.Builtin?
    ensures k !in fields && k !in OBJECT_PROTOTYPE_NAMES ==> r == Undefined
  {
    if k in fields && k != "__proto__" then fields[k]
    else if k in OBJECT_PROTOTYPE_NAMES then InheritedValue(k)
    else Undefined
  }
}

=== FILE: list_constants.dfy ===
/** The threat-modelling reasons offered in the request form, and the form's field identifiers. */
module ListConstants {
  import opened Results
  import opened JsValue

  datatype Reason = Reason(value: string, labelText: string)

  const STANDALONE_LABEL: string := "Enkeltst\U{E5}ende trusselmodellering"
  const RISK_ASSESSMENT_LABEL: string := "Del av en risikovurdering av system"

  const THREAT_MODELING_REASONS: seq<Reason> := [
    Reason("standalone", STANDALONE_LABEL),
    Reason("risk_assessment_part", RISK_ASSESSMENT_LABEL)
  ]

  /** The identifiers of the modal's input blocks, in the order the form shows them. */
  const MODAL_FIELDS: seq<string> :=
    ["project_name", "team_name", "system_description", "threat_modeling_reason", "preferred_timeframe"]

  /** `reasons.find(r => r.value === value)`: the first reason with that value. */
  function FindReason(reasons: seq<Reason>, value: Js): (r: Option<Reason>)
    ensures r.Some? <==> exists i :: 0 <= i < |reasons| && value == Str(reasons[i].value)
    ensures r.Some? ==> exists i :: 0 <= i < |reasons| && r.value == reasons[i] && value == Str(reasons[i].value)
                                    && forall j :: 0 <= j < i ==> value != Str(reasons[j].value)
  {
    if reasons == [] then None
    else if value == Str(reasons[0].value) then Some(reasons[0])
    else
      var r := FindReason(reasons[1..], value);
      assert forall i :: 1 <= i < |reasons| ==> reasons[i] == reasons[1..][i - 1];
      r
  }

  /** `getThreatModelingReasonLabel(value)`: the label of a known reason; any other value is returned as given. */
  function GetThreatModelingReasonLabel(value: Js): (r: Js)
    ensures value == Str("standalone") ==> r == Str(STANDALONE_LABEL)
    ensures value == Str("risk_assessment_part") ==> r == Str(RISK_ASSESSMENT_LABEL)
    ensures value != Str("standalone") && value != Str("risk_assessment_part") ==> r == value
  {
    var found := FindReason(THREAT_MODELING_REASONS, value);
    assert "standalone" != "risk_assessment_part" by {
      assert |"standalone"| != |"risk_assessment_part"|;
    }
    assert THREAT_MODELING_REASONS[1].value == "risk_assessment_part";
    if found.Some? then Str(found.value.labelText) else value
  }

  /** A label is never itself a reason value, so asking for the label of a label changes nothing. */
  lemma ReasonLabelIdempotent(value: Js)
    ensures GetThreatModelingReasonLabel(GetThreatModelingReasonLabel(value)) == GetThreatModelingReasonLabel(value)
  {
    assert STANDALONE_LABEL != "standalone" && STANDALONE_LABEL != "risk_assessment_part" by {
      assert |STANDALONE_LABEL| != |"standalone"| && |STANDALONE_LABEL| != |"risk_assessment_part"|;
    }
    assert RISK_ASSESSMENT_LABEL != "standalone" && RISK_ASSESSMENT_LABEL != "risk_assessment_part" by {
      assert |RISK_ASSESSMENT_LABEL| != |"standalone"| && |RISK_ASSESSMENT_LABEL| != |"risk_assessment_part"|;
    }
  }

  /** Distinct reasons get distinct labels, so a label identifies the reason it came from. */
  lemma ReasonLabelsIdentifyReasons(i: nat, j: nat)
    requires i < |THREAT_MODELING_REASONS| && j < |THREAT_MODELING_REASONS|
    ensures THREAT_MODELING_REASONS[i].value == THREAT_MODELING_REASONS[j].value <==> i == j
    ensures GetThreatModelingReasonLabel(Str(THREAT_MODELING_REASONS[i].value)) == Str(THREAT_MODELING_REASONS[i].labelText)
    ensures THREAT_MODELING_REASONS[i].labelText == THREAT_MODELING_REASONS[j].labelText <==> i == j
  {
    assert |STANDALONE_LABEL| != |RISK_ASSESSMENT_LABEL|;
    assert |"standalone"| != |"risk_assessment_part"|;
  }

  /** The form's field identifiers are pairwise distinct. */
  lemma ModalFieldsDistinct(i: nat, j: nat)
    requires i < |MODAL_FIELDS| && j < |MODAL_FIELDS|
    ensures MODAL_FIELDS[i] == MODAL_FIELDS[j] <==> i == j
  {
    assert MODAL_FIELDS[0][0] == 'p' && MODAL_FIELDS[1][0] == 't' && MODAL_FIELDS[2][0] == 's';
    assert MODAL_FIELDS[3][0] == 't' && MODAL_FIELDS[4][0] == 'p';
    assert |MODAL_FIELDS[0]| != |MODAL_FIELDS[4]| && |MODAL_FIELDS[1]| != |MODAL_FIELDS[3]|;
  }
}

=== FILE: lists.dfy ===
/**
  `SlackListsManager`: the registry that maps the eight semantic column
  aliases of the request list to the list's opaque column ids, the cells
  written for a new request row, and the guards and error paths around the
  remote list operations.

  The manager's state is an immutable `Manager` value and every method is a
  function from the old state to the new one. Each remote call is replaced
  by its outcome, a parameter: the response it resolved with or the error
  it threw. The two tables the code imports but does not define here, the
  column table (`LIST_COLUMNS`) and the status table
  (`REQUEST_TO_LIST_STATUS`), form the parameter `ListConfig`.
*/
module Lists {
  import opened Results
  import opened JsValue
  import opened Errors
  import opened RichText
  import Validation
  import opened Retry
  import SlackApi

  // ----- configuration -----

  /** The `{key, name}` of one column definition, as property keys. */
  datatype ColumnDef = ColumnDef(key: string, name: string)

  /**
    `LIST_COLUMNS` as its entries in enumeration order (alias, definition),
    and `REQUEST_TO_LIST_STATUS` as a map from request status to list code.
  */
  datatype ListConfig = ListConfig(columns: seq<(string, ColumnDef)>, statusCodes: map<string, Js>)

  /** The property `setColumnId` mirrors each alias into. */
  const COLUMN_PROPERTY_MAP: map<string, string> := map[
    "projectName" := "projectColumnId",
    "requestId" := "requestIdColumnId",
    "status" := "statusColumnId",
    "urgency" := "urgencyColumnId",
    "assignedTo" := "assignedToColumnId",
    "requestedBy" := "requestedByColumnId",
    "threatModelingType" := "threatModelingTypeColumnId",
    "adminMessageTs" := "adminMessageTsColumnId"
  ]

  /** No two aliases share a mirror property. */
  lemma PropertyMapInjective()
    ensures forall a, b :: a in COLUMN_PROPERTY_MAP && b in COLUMN_PROPERTY_MAP && a != b ==>
              COLUMN_PROPERTY_MAP[a] != COLUMN_PROPERTY_MAP[b]
  {
    var m := COLUMN_PROPERTY_MAP;
    assert m.Keys == {"projectName", "requestId", "status", "urgency", "assignedTo", "requestedBy",
                      "threatModelingType", "adminMessageTs"};
    assert |m["projectName"]| == 15 && m["projectName"][0] == 'p';
    assert |m["urgency"]| == 15 && m["urgency"][0] == 'u';
    assert |m["requestId"]| == 17 && |m["status"]| == 14 && |m["assignedTo"]| == 18;
    assert |m["requestedBy"]| == 19 && |m["threatModelingType"]| == 26 && |m["adminMessageTs"]| == 22;
  }

  // ----- state -----

  /**
    The manager's fields: the list id, the notification channel, the alias
    map `columnIds` and the mirror properties (`projectColumnId`, ...),
    kept as a map from property name to value.
  */
  datatype Manager = Manager(listId: Js, notificationChannelId: Js, columnIds: map<string, Js>, props: map<string, Js>)

  /** A stored column id is `null` or truthy: `setColumnId` stores `id || null`. */
  predicate IsStoredId(v: Js)
  {
    v == Null || Truthy(v)
  }

  /**
    The registry invariant: the alias map has exactly the eight aliases,
    each stored id is normalised, and each alias agrees with its mirror
    property.
  */
  predicate Valid(m: Manager)
  {
    && m.columnIds.Keys == COLUMN_PROPERTY_MAP.Keys
    && forall a :: a in COLUMN_PROPERTY_MAP ==>
         && IsStoredId(m.columnIds[a])
         && COLUMN_PROPERTY_MAP[a] in m.props
         && m.props[COLUMN_PROPERTY_MAP[a]] == m.columnIds[a]
  }

  /** `this[property]`: a mirror property, `undefined` before it is first set. */
  function Prop(m: Manager, property: string): Js
  {
    if property in m.props then m.props[property] else Undefined
  }

  /** Under the invariant the mirror property of an alias reads as its id. */
  lemma PropOfAlias(m: Manager, a: string)
    requires Valid(m) && a in COLUMN_PROPERTY_MAP
    ensures Prop(m, COLUMN_PROPERTY_MAP[a]) == m.columnIds[a]
  {
  }

  /** `resetColumnIds()`: every alias and every mirror property back to `null`. */
  function ResetColumnIds(m: Manager): (r: Manager)
    ensures Valid(r)
    ensures forall a :: a in COLUMN_PROPERTY_MAP ==> r.columnIds[a] == Null
    ensures r.listId == m.listId && r.notificationChannelId == m.notificationChannelId
  {
    var nulls := map p | p in COLUMN_PROPERTY_MAP.Values :: Null;
    var r := m.(columnIds := map a | a in COLUMN_PROPERTY_MAP :: Null, props := m.props + nulls);
    assert forall a :: a in COLUMN_PROPERTY_MAP ==> COLUMN_PROPERTY_MAP[a] in nulls;
    r
  }

  /**
    `setColumnId(alias, id)`: an alias the map does not hold is ignored;
    otherwise `id || null` is stored under the alias and its mirror property.
  */
  function SetColumnId(m: Manager, alias: string, id: Js): (r: Manager)
    ensures alias !in m.columnIds ==> r == m
    ensures r.listId == m.listId && r.notificationChannelId == m.notificationChannelId
    ensures r.columnIds.Keys == m.columnIds.Keys
    ensures alias in m.columnIds ==> r.columnIds[alias] == Or(id, Null)
    ensures forall b :: b in m.columnIds && b != alias ==> r.columnIds[b] == m.columnIds[b]
    ensures Valid(m) ==> Valid(r)
  {
    if alias !in m.columnIds then m
    else
      var v := Or(id, Null);
      var m1 := m.(columnIds := m.columnIds[alias := v]);
      if alias in COLUMN_PROPERTY_MAP then
        PropertyMapInjective();
        m1.(props := m1.props[COLUMN_PROPERTY_MAP[alias] := v])
      else m1
  }

  /**
    `new SlackListsManager(client, notificationChannelId, initialListId)`: a
    client is required and a channel id, when given, must be valid; the
    registry starts empty.
  */
  function NewManager(client: Js, notificationChannelId: Js, initialListId: Js): (r: Result<Manager, Error>)
    ensures !Truthy(client) ==> r == Failure(Configuration("Slack client is required"))
    ensures Truthy(client) && Truthy(notificationChannelId)
            && Validation.ValidateChannelId(notificationChannelId, "notificationChannelId").Failure? ==>
              r == Failure(Validation.ValidateChannelId(notificationChannelId, "notificationChannelId").error)
    ensures r.Success? <==>
              Truthy(client)
              && (Truthy(notificationChannelId) ==>
                    notificationChannelId.Str? && Validation.IsChannelIdText(notificationChannelId.s))
    ensures r.Success? ==>
              && Valid(r.value)
              && r.value.listId == Or(initialListId, Null)
              && r.value.notificationChannelId == notificationChannelId
              && forall a :: a in COLUMN_PROPERTY_MAP ==> r.value.columnIds[a] == Null
  {
    if !Truthy(client) then Failure(Configuration("Slack client is required"))
    else
      var check := if Truthy(notificationChannelId)
                   then Validation.ValidateChannelId(notificationChannelId, "notificationChannelId")
                   else Success(notificationChannelId);
      if check.Failure? then Failure(check.error)
      else Success(ResetColumnIds(Manager(Or(initialListId, Null), notificationChannelId, map[], map[])))
  }

  // ----- alias resolution -----

  function DefField(d: ColumnDef, byKey: bool): string
  {
    if byKey then d.key else d.name
  }

  /**
    `COLUMN_ALIAS_BY_KEY[k]` (or `..._BY_NAME[k]`): the tables are filled in
    enumeration order, so the last definition with that key wins.
  */
  function AliasFor(columns: seq<(string, ColumnDef)>, byKey: bool, k: string): Option<string>
  {
    if columns == [] then None
    else
      var last := columns[|columns| - 1];
      if DefField(last.1, byKey) == k then Some(last.0)
      else AliasFor(columns[..|columns| - 1], byKey, k)
  }

  /** An alias is found exactly when some definition has that key (or name), and it is the alias of the last such one. */
  lemma {:induction false} AliasForSpec(columns: seq<(string, ColumnDef)>, byKey: bool, k: string)
    ensures var r := AliasFor(columns, byKey, k);
            r.None? <==> forall i :: 0 <= i < |columns| ==> DefField(columns[i].1, byKey) != k
    ensures var r := AliasFor(columns, byKey, k);
            r.Some? ==> exists i :: 0 <= i < |columns| && DefField(columns[i].1, byKey) == k
                                    && r.value == columns[i].0
                                    && forall j :: i < j < |columns| ==> DefField(columns[j].1, byKey) != k
  {
    if columns != [] {
      var init := columns[..|columns| - 1];
      AliasForSpec(init, byKey, k);
      assert forall i :: 0 <= i < |init| ==> init[i] == columns[i];
      if DefField(columns[|columns| - 1].1, byKey) != k && AliasFor(init, byKey, k).Some? {
        var i :| 0 <= i < |init| && DefField(init[i].1, byKey) == k && AliasFor(init, byKey, k).value == init[i].0
                 && forall j :: i < j < |init| ==> DefField(init[j].1, byKey) != k;
        assert DefField(columns[i].1, byKey) == k && AliasFor(columns, byKey, k).value == columns[i].0;
      }
    }
  }

  /** A table entry that counts: present and a non-empty (truthy) alias. */
  predicate IsAliasHit(r: Option<string>)
  {
    r.Some? && r.value != ""
  }

  /**
    The own entry of an alias table for `k`. The tables are plain objects
    filled by assignment, and assigning to `__proto__` creates no entry.
  */
  function TableAlias(columns: seq<(string, ColumnDef)>, byKey: bool, k: string): Option<string>
  {
    if k == "__proto__" then None else AliasFor(columns, byKey, k)
  }

  /**
    `COLUMN_ALIAS_BY_KEY[column.key] || COLUMN_ALIAS_BY_NAME[column.name]`,
    kept only when it is an alias `setColumnId` accepts. The key is tried
    first, then the display name. A key with no own entry that names an
    `Object.prototype` property reads as a truthy built-in: the name is then
    never tried, and `setColumnId` ignores the built-in, so the column is
    skipped.
  */
  function ResolveAlias(cfg: ListConfig, column: Js): (r: Option<string>)
    ensures var key := JsString(Get(column, "key"));
            IsAliasHit(TableAlias(cfg.columns, true, key)) ==> r == TableAlias(cfg.columns, true, key)
    ensures var key := JsString(Get(column, "key"));
            TableAlias(cfg.columns, true, key).None? && key in OBJECT_PROTOTYPE_NAMES ==> r.None?
    ensures var key := JsString(Get(column, "key"));
            var name := JsString(Get(column, "name"));
            !IsAliasHit(TableAlias(cfg.columns, true, key))
            && !(TableAlias(cfg.columns, true, key).None? && key in OBJECT_PROTOTYPE_NAMES) ==>
              r == (if IsAliasHit(TableAlias(cfg.columns, false, name)) then TableAlias(cfg.columns, false, name) else None)
    ensures r.Some? ==> r.value != ""
  {
    var key := JsString(Get(column, "key"));
    var byKey := TableAlias(cfg.columns, true, key);
    if IsAliasHit(byKey) then byKey
    else if byKey.None? && key in OBJECT_PROTOTYPE_NAMES then None
    else
      var byName := TableAlias(cfg.columns, false, JsString(Get(column, "name")));
      if IsAliasHit(byName) then byName else None
  }

  /**
    A column whose key is `constructor`, when no definition has that key, is
    skipped even when its display name is a defined one.
  */
  lemma ResolveAliasInheritedKey(cfg: ListConfig, name: Js, id: Js)
    requires forall i :: 0 <= i < |cfg.columns| ==> cfg.columns[i].1.key != "constructor"
    ensures ResolveAlias(cfg, Obj(map["key" := Str("constructor"), "name" := name, "id" := id])).None?
  {
    var column := Obj(map["key" := Str("constructor"), "name" := name, "id" := id]);
    assert JsString(Get(column, "key")) == "constructor";
    AliasForSpec(cfg.columns, true, "constructor");
  }

  /** Where a column description comes from: the list schema, or the fields of a list item. */
  datatype Origin = FromSchema | FromItem

  /**
    The alias a column description updates. A schema column is skipped when
    it is falsy or has neither key nor name; an item field only when falsy.
  */
  function ColumnAlias(cfg: ListConfig, origin: Origin, column: Js): (r: Option<string>)
    ensures !Truthy(column) ==> r.None?
    ensures origin.FromSchema? && !Truthy(Get(column, "key")) && !Truthy(Get(column, "name")) ==> r.None?
    ensures Truthy(column) && (origin.FromItem? || Truthy(Get(column, "key")) || Truthy(Get(column, "name"))) ==>
              r == ResolveAlias(cfg, column)
  {
    if !Truthy(column) then None
    else if origin.FromSchema? && !Truthy(Get(column, "key")) && !Truthy(Get(column, "name")) then None
    else ResolveAlias(cfg, column)
  }

  /** The id a column description carries: `column.id || null`, or `field.column_id || field.id || null`. */
  function ColumnIdOf(origin: Origin, column: Js): (r: Js)
    ensures IsStoredId(r)
    ensures origin.FromSchema? ==> r == (if Truthy(Get(column, "id")) then Get(column, "id") else Null)
    ensures origin.FromItem? && Truthy(Get(column, "column_id")) ==> r == Get(column, "column_id")
    ensures origin.FromItem? && !Truthy(Get(column, "column_id")) ==>
              r == (if Truthy(Get(column, "id")) then Get(column, "id") else Null)
  {
    match origin
    case FromSchema => Or(Get(column, "id"), Null)
    case FromItem => Or(Or(Get(column, "column_id"), Get(column, "id")), Null)
  }

  /** One step of the `forEach` over the columns. */
  function ApplyColumn(cfg: ListConfig, origin: Origin, m: Manager, column: Js): Manager
  {
    match ColumnAlias(cfg, origin, column)
    case None => m
    case Some(a) => SetColumnId(m, a, ColumnIdOf(origin, column))
  }

  /** The `forEach` over all columns, in order. */
  function ApplyColumns(cfg: ListConfig, origin: Origin, m: Manager, columns: seq<Js>): (r: Manager)
    ensures Valid(m) ==> Valid(r)
    ensures r.listId == m.listId && r.notificationChannelId == m.notificationChannelId
    ensures r.columnIds.Keys == m.columnIds.Keys
  {
    if columns == [] then m
    else ApplyColumn(cfg, origin, ApplyColumns(cfg, origin, m, columns[..|columns| - 1]), columns[|columns| - 1])
  }

  /** The position of the last column that resolves to alias `a`, if any. */
  function LastColumnFor(cfg: ListConfig, origin: Origin, columns: seq<Js>, a: string): (r: Option<nat>)
    ensures r.Some? ==> r.value < |columns|
  {
    if columns == [] then None
    else if ColumnAlias(cfg, origin, columns[|columns| - 1]) == Some(a) then Some(|columns| - 1)
    else LastColumnFor(cfg, origin, columns[..|columns| - 1], a)
  }

  /** `LastColumnFor` finds a column resolving to `a` exactly when there is one, and no later column does. */
  lemma {:induction false} LastColumnForSpec(cfg: ListConfig, origin: Origin, columns: seq<Js>, a: string)
    ensures var r := LastColumnFor(cfg, origin, columns, a);
            r.None? <==> forall i :: 0 <= i < |columns| ==> ColumnAlias(cfg, origin, columns[i]) != Some(a)
    ensures var r := LastColumnFor(cfg, origin, columns, a);
            r.Some? ==> ColumnAlias(cfg, origin, columns[r.value]) == Some(a)
                        && forall j :: r.value < j < |columns| ==> ColumnAlias(cfg, origin, columns[j]) != Some(a)
  {
    if columns != [] {
      var init := columns[..|columns| - 1];
      LastColumnForSpec(cfg, origin, init, a);
      assert forall i :: 0 <= i < |init| ==> init[i] == columns[i];
    }
  }

  /** The id alias `a` ends with after the columns are applied to a map that held `before`. */
  function ResolvedId(cfg: ListConfig, origin: Origin, columns: seq<Js>, a: string, before: Js): Js
  {
    match LastColumnFor(cfg, origin, columns, a)
    case None => before
    case Some(i) => ColumnIdOf(origin, columns[i])
  }

  /** Applying the columns leaves each alias with the id of the last column resolving to it. */
  lemma {:induction false} ApplyColumnsResolves(cfg: ListConfig, origin: Origin, m: Manager, columns: seq<Js>, a: string)
    requires Valid(m) && a in COLUMN_PROPERTY_MAP
    ensures ApplyColumns(cfg, origin, m, columns).columnIds[a] == ResolvedId(cfg, origin, columns, a, m.columnIds[a])
  {
    if columns != [] {
      var init := columns[..|columns| - 1];
      var last := columns[|columns| - 1];
      ApplyColumnsResolves(cfg, origin, m, init, a);
      var mid := ApplyColumns(cfg, origin, m, init);
      if ColumnAlias(cfg, origin, last) != Some(a) {
        assert LastColumnFor(cfg, origin, columns, a) == LastColumnFor(cfg, origin, init, a);
        assert init == columns[..|columns| - 1];
      } else {
        assert ColumnIdOf(origin, last) == Or(ColumnIdOf(origin, last), Null);
      }
    }
  }

  lemma ApplyColumnsResolvesAll(cfg: ListConfig, origin: Origin, m: Manager, columns: seq<Js>)
    requires Valid(m)
    ensures forall a :: a in COLUMN_PROPERTY_MAP ==>
              ApplyColumns(cfg, origin, m, columns).columnIds[a] == ResolvedId(cfg, origin, columns, a, m.columnIds[a])
  {
    forall a | a in COLUMN_PROPERTY_MAP
      ensures ApplyColumns(cfg, origin, m, columns).columnIds[a] == ResolvedId(cfg, origin, columns, a, m.columnIds[a])
    {
      ApplyColumnsResolves(cfg, origin, m, columns, a);
    }
  }

  /** A non-empty array. */
  predicate IsNonEmptyArray(v: Js)
  {
    v.Arr? && |v.items| > 0
  }

  /** The registry rebuilt from scratch out of a sequence of column descriptions. */
  function Rebuild(cfg: ListConfig, origin: Origin, m: Manager, columns: seq<Js>): (r: Manager)
    ensures Valid(r) && r.columnIds.Keys == COLUMN_PROPERTY_MAP.Keys
    ensures r.listId == m.listId && r.notificationChannelId == m.notificationChannelId
    ensures forall a :: a in COLUMN_PROPERTY_MAP ==> r.columnIds[a] == ResolvedId(cfg, origin, columns, a, Null)
  {
    var blank := ResetColumnIds(m);
    ApplyColumnsResolvesAll(cfg, origin, blank, columns);
    ApplyColumns(cfg, origin, blank, columns)
  }

  /**
    `registerColumnIds(schema = [])`: false, with nothing changed, unless the
    schema is a non-empty array; otherwise the registry is reset and rebuilt
    from the schema columns.
  */
  function RegisterColumnIds(cfg: ListConfig, m: Manager, schema: Js): (r: (bool, Manager))
    ensures !IsNonEmptyArray(schema) ==> r == (false, m)
    ensures IsNonEmptyArray(schema) ==> r == (true, Rebuild(cfg, FromSchema, m, schema.items))
  {
    if !IsNonEmptyArray(schema) then (false, m)
    else (true, Rebuild(cfg, FromSchema, m, schema.items))
  }

  /** An item `registerColumnIdsFromItem` can read: truthy, with an array of fields. */
  predicate IsUsableItem(item: Js)
  {
    Truthy(item) && Get(item, "fields").Arr?
  }

  /**
    `registerColumnIdsFromItem(item)`: false, with nothing changed, unless
    the item has an array of fields; otherwise the registry is reset and
    rebuilt from those fields.
  */
  function RegisterColumnIdsFromItem(cfg: ListConfig, m: Manager, item: Js): (r: (bool, Manager))
    ensures !IsUsableItem(item) ==> r == (false, m)
    ensures IsUsableItem(item) ==> r == (true, Rebuild(cfg, FromItem, m, Get(item, "fields").items))
  {
    if !IsUsableItem(item) then (false, m)
    else (true, Rebuild(cfg, FromItem, m, Get(item, "fields").items))
  }

  /** Registration forgets the old ids: after it, an alias no column resolves to is `null`. */
  lemma RegisterForgetsStaleIds(cfg: ListConfig, m: Manager, schema: Js, a: string)
    requires IsNonEmptyArray(schema) && a in COLUMN_PROPERTY_MAP
    requires forall i :: 0 <= i < |schema.items| ==> ColumnAlias(cfg, FromSchema, schema.items[i]) != Some(a)
    ensures RegisterColumnIds(cfg, m, schema).1.columnIds[a] == Null
  {
    LastColumnForSpec(cfg, FromSchema, schema.items, a);
  }

  /** The registry a schema produces does not depend on the registry it replaces. */
  lemma RegisterIgnoresPriorState(cfg: ListConfig, m1: Manager, m2: Manager, schema: Js)
    requires IsNonEmptyArray(schema)
    ensures RegisterColumnIds(cfg, m1, schema).1.columnIds == RegisterColumnIds(cfg, m2, schema).1.columnIds
  {
    var r1 := RegisterColumnIds(cfg, m1, schema).1;
    var r2 := RegisterColumnIds(cfg, m2, schema).1;
    assert r1.columnIds.Keys == COLUMN_PROPERTY_MAP.Keys == r2.columnIds.Keys;
  }

  /** Registering the same schema twice is registering it once. */
  lemma RegisterIdempotent(cfg: ListConfig, m: Manager, schema: Js)
    requires IsNonEmptyArray(schema)
    ensures var once := RegisterColumnIds(cfg, m, schema).1;
            RegisterColumnIds(cfg, once, schema).1.columnIds == once.columnIds
  {
    RegisterIgnoresPriorState(cfg, m, RegisterColumnIds(cfg, m, schema).1, schema);
  }

  // ----- loading the schema of an existing list -----

  /** The error `loadListSchema` throws when neither the metadata nor an item gives the columns. */
  const SCHEMA_UNAVAILABLE: Error :=
    Foreign(map["message" := Str("Cannot load column IDs from list. Ensure list has metadata or recreate it.")])

  /** `fetchSchemaViaItemsList()`: the schema (`null` when absent) of the items-list response; a failed call gives none. */
  function FetchedSchema(response: Result<Js, Error>): (r: Js)
    ensures response.Failure? ==> r == Null
    ensures r == Null || Truthy(r)
    ensures response.Success? && Truthy(Get(Get(response.value, "list_metadata"), "schema")) ==>
              r == Get(Get(response.value, "list_metadata"), "schema")
  {
    if response.Failure? then Null else Or(Get(Get(response.value, "list_metadata"), "schema"), Null)
  }

  /** The items of the items-list response (`[]` when absent); a failed call gives none. */
  function FetchedItems(response: Result<Js, Error>): (r: Js)
    ensures response.Failure? ==> r == Arr([])
    ensures r == Arr([]) || Truthy(r)
    ensures response.Success? && Truthy(Get(response.value, "items")) ==> r == Get(response.value, "items")
  {
    if response.Failure? then Arr([]) else Or(Get(response.value, "items"), Arr([]))
  }

  /**
    `loadListSchema()`: the columns come from the list metadata when it holds
    a non-empty schema, else from the first item when it has fields, else
    loading fails.
  */
  function LoadListSchema(cfg: ListConfig, m: Manager, response: Result<Js, Error>): (r: Result<Manager, Error>)
    ensures var schema := FetchedSchema(response);
            IsNonEmptyArray(schema) ==> r == Success(Rebuild(cfg, FromSchema, m, schema.items))
    ensures var schema := FetchedSchema(response);
            var items := FetchedItems(response);
            !IsNonEmptyArray(schema) && IsNonEmptyArray(items) && IsUsableItem(items.items[0]) ==>
              r == Success(Rebuild(cfg, FromItem, m, Get(items.items[0], "fields").items))
    ensures var schema := FetchedSchema(response);
            var items := FetchedItems(response);
            !IsNonEmptyArray(schema) && !(IsNonEmptyArray(items) && IsUsableItem(items.items[0])) ==>
              r == Failure(SCHEMA_UNAVAILABLE)
    ensures r.Success? ==> Valid(r.value) && r.value.listId == m.listId
  {
    var schema := FetchedSchema(response);
    var items := FetchedItems(response);
    var fromSchema := RegisterColumnIds(cfg, m, schema);
    if Truthy(schema) && fromSchema.0 then Success(fromSchema.1)
    else if IsNonEmptyArray(items) && RegisterColumnIdsFromItem(cfg, m, items.items[0]).0 then
      Success(RegisterColumnIdsFromItem(cfg, m, items.items[0]).1)
    else Failure(SCHEMA_UNAVAILABLE)
  }

  /** A failed items-list call leaves nothing to load the columns from. */
  lemma LoadListSchemaNeedsResponse(cfg: ListConfig, m: Manager, e: Error)
    ensures LoadListSchema(cfg, m, Failure(e)) == Failure(SCHEMA_UNAVAILABLE)
  {
  }

  /** When the metadata has a schema, the items are not consulted. */
  lemma SchemaPreferredToItems(cfg: ListConfig, m: Manager, schema: Js, items1: Js, items2: Js)
    requires IsNonEmptyArray(schema)
    ensures var meta := Obj(map["schema" := schema]);
            LoadListSchema(cfg, m, Success(Obj(map["list_metadata" := meta, "items" := items1])))
            == LoadListSchema(cfg, m, Success(Obj(map["list_metadata" := meta, "items" := items2])))
  {
    var meta := Obj(map["schema" := schema]);
    var response1 := Success(Obj(map["list_metadata" := meta, "items" := items1]));
    var response2 := Success(Obj(map["list_metadata" := meta, "items" := items2]));
    assert Get(meta, "schema") == schema;
    assert FetchedSchema(response1) == schema;
    assert FetchedSchema(response2) == schema;
  }

  /**
    `initializeList()`: without a list id nothing is loaded and the result
    is `null` (the creation prompt is a message, left out); otherwise the
    schema is loaded and the list id returned.
  */
  function InitializeList(cfg: ListConfig, m: Manager, response: Result<Js, Error>): (r: Result<(Js, Manager), Error>)
    ensures !Truthy(m.listId) ==> r == Success((Null, m))
    ensures Truthy(m.listId) ==> (r.Success? <==> LoadListSchema(cfg, m, response).Success?)
    ensures Truthy(m.listId) && r.Success? ==> r.value == (m.listId, LoadListSchema(cfg, m, response).value)
    ensures Truthy(m.listId) && r.Failure? ==> r.error == LoadListSchema(cfg, m, response).error
  {
    if !Truthy(m.listId) then Success((Null, m))
    else
      match LoadListSchema(cfg, m, response)
      case Success(loaded) => Success((m.listId, loaded))
      case Failure(e) => Failure(e)
  }

  /**
    `createNewList()`: the `slackLists.create` outcome is `response`. A
    response without `list_id` is a `RequestProcessingError`; otherwise the
    list id is taken and the columns registered from the returned schema,
    which leaves them untouched when that schema is missing or empty. The
    sample row written afterwards swallows its own failures and is left out.
  */
  function CreateNewList(cfg: ListConfig, m: Manager, response: Result<Js, Error>): (r: Result<(Js, Manager), Error>)
    ensures response.Failure? ==> r == Failure(response.error)
    ensures response.Success? && !Truthy(Get(response.value, "list_id")) ==>
              r == Failure(RequestProcessing("List created but response missing list_id", Null, Str("createNewList")))
    ensures r.Success? ==>
              && response.Success?
              && Truthy(r.value.0) && r.value.0 == Get(response.value, "list_id")
              && r.value.1.listId == r.value.0
              && r.value.1.notificationChannelId == m.notificationChannelId
    ensures r.Success? ==>
              var schema := Or(Get(Get(response.value, "list_metadata"), "schema"), Arr([]));
              && (IsNonEmptyArray(schema) ==>
                    Valid(r.value.1)
                    && forall a :: a in COLUMN_PROPERTY_MAP ==>
                         r.value.1.columnIds[a] == ResolvedId(cfg, FromSchema, schema.items, a, Null))
              && (!IsNonEmptyArray(schema) ==> r.value.1.columnIds == m.columnIds && r.value.1.props == m.props)
  {
    match response
    case Failure(e) => Failure(e)
    case Success(result) =>
      var newListId := Get(result, "list_id");
      if !Truthy(newListId) then
        Failure(RequestProcessing("List created but response missing list_id", Null, Str("createNewList")))
      else
        var schema := Or(Get(Get(result, "list_metadata"), "schema"), Arr([]));
        var registered := RegisterColumnIds(cfg, m.(listId := newListId), schema).1;
        Success((newListId, registered))
  }

  // ----- the cells of a new request row -----

  /** The mirror property behind each cell of a new row, in the order the cells are written. */
  const SLOT_PROPERTIES: seq<string> := [
    "projectColumnId", "requestIdColumnId", "statusColumnId", "urgencyColumnId",
    "requestedByColumnId", "threatModelingTypeColumnId", "assignedToColumnId", "adminMessageTsColumnId"
  ]

  /** `REQUEST_TO_LIST_STATUS[key]`, the table being a plain object. */
  function StatusCode(cfg: ListConfig, key: string): Js
  {
    Lookup(cfg.statusCodes, key)
  }

  /** A select cell: `{column_id, select: [code]}`. */
  function SelectCell(columnId: Js, code: Js): Js
  {
    Obj(map["column_id" := columnId, "select" := Arr([code])])
  }

  /** A user cell: `{column_id, user: users}`. */
  function UserCell(columnId: Js, users: Js): Js
  {
    Obj(map["column_id" := columnId, "user" := users])
  }

  /** The column id of a cell. */
  function CellColumn(cell: Js): Js
  {
    Get(cell, "column_id")
  }

  /**
    The cell slot `k` of a new row holds, absent when its column is not
    configured (or, for the optional cells, when the request lacks the value).
  */
  function Slot(cfg: ListConfig, m: Manager, requestId: Js, data: Js, k: nat): (r: Option<Js>)
    requires k < |SLOT_PROPERTIES|
    ensures r.Some? ==> Truthy(Prop(m, SLOT_PROPERTIES[k])) && CellColumn(r.value) == Prop(m, SLOT_PROPERTIES[k])
    ensures Truthy(Prop(m, SLOT_PROPERTIES[k])) && k != 4 && k != 6 && k != 7 ==> r.Some?
  {
    var c := Prop(m, SLOT_PROPERTIES[k]);
    if !Truthy(c) then None
    else if k == 0 then Some(BuildRichTextField(c, Or(Get(data, "projectName"), Str(""))))
    else if k == 1 then Some(BuildRichTextField(c, requestId))
    else if k == 2 then Some(SelectCell(c, StatusCode(cfg, "pending")))
    else if k == 3 then Some(SelectCell(c, Or(Get(data, "urgency"), Str("unknown"))))
    else if k == 4 then
      if Truthy(Get(data, "requestedBy")) then Some(UserCell(c, Arr([Get(data, "requestedBy")]))) else None
    else if k == 5 then Some(SelectCell(c, Or(Get(data, "threatModelingType"), Str("other"))))
    else if k == 6 then
      if IsNonEmptyArray(Get(data, "assignedTo")) then Some(UserCell(c, Get(data, "assignedTo"))) else None
    else
      if Truthy(Get(data, "adminMessageTs")) then Some(BuildRichTextField(c, Get(data, "adminMessageTs"))) else None
  }

  /** All slots of a new row, in the order the cells are written. */
  function RequestSlots(cfg: ListConfig, m: Manager, requestId: Js, data: Js): (r: seq<Option<Js>>)
    ensures |r| == |SLOT_PROPERTIES|
    ensures forall k :: 0 <= k < |r| ==> r[k] == Slot(cfg, m, requestId, data, k)
  {
    seq(|SLOT_PROPERTIES|, k requires 0 <= k < |SLOT_PROPERTIES| => Slot(cfg, m, requestId, data, k))
  }

  /** The slots that produce a cell, in increasing order. */
  function WrittenSlots(cfg: ListConfig, m: Manager, requestId: Js, data: Js): (ks: seq<nat>)
    ensures forall i :: 0 <= i < |ks| ==> ks[i] < |SLOT_PROPERTIES|
    ensures forall i, j :: 0 <= i < j < |ks| ==> ks[i] < ks[j]
    ensures forall k :: 0 <= k < |SLOT_PROPERTIES| ==> (k in ks <==> Slot(cfg, m, requestId, data, k).Some?)
  {
    PresentIndices(RequestSlots(cfg, m, requestId, data))
  }

  /**
    `buildRequestFields(requestId, requestData)`: one cell per slot that
    produces one, in slot order, each naming its own configured column.
  */
  function BuildRequestFields(cfg: ListConfig, m: Manager, requestId: Js, data: Js): (r: seq<Js>)
    ensures |r| == |WrittenSlots(cfg, m, requestId, data)| <= |SLOT_PROPERTIES|
    ensures forall i :: 0 <= i < |r| ==> Slot(cfg, m, requestId, data, WrittenSlots(cfg, m, requestId, data)[i]) == Some(r[i])
    ensures forall i :: 0 <= i < |r| ==>
              var k := WrittenSlots(cfg, m, requestId, data)[i];
              Truthy(CellColumn(r[i])) && CellColumn(r[i]) == Prop(m, SLOT_PROPERTIES[k])
    ensures (forall k :: 0 <= k < |SLOT_PROPERTIES| ==> !Truthy(Prop(m, SLOT_PROPERTIES[k]))) ==> r == []
  {
    var slots := RequestSlots(cfg, m, requestId, data);
    assert (forall k :: 0 <= k < |SLOT_PROPERTIES| ==> !Truthy(Prop(m, SLOT_PROPERTIES[k]))) ==>
           forall k :: 0 <= k < |slots| ==> slots[k].None?;
    SomesOfNones(slots);
    SomesAtPresentIndices(slots);
    Somes(slots)
  }

  lemma {:induction false} SomesOfNones<T>(s: seq<Option<T>>)
    ensures (forall k :: 0 <= k < |s| ==> s[k].None?) ==> Somes(s) == []
  {
    if s != [] {
      SomesOfNones(s[1..]);
    }
  }

  /** The first cell for column `c`, as a reader of the row finds it. */
  function CellFor(cells: seq<Js>, c: Js): (r: Option<Js>)
    ensures r.Some? ==> r.value in cells && CellColumn(r.value) == c
  {
    if cells == [] then None
    else if CellColumn(cells[0]) == c then Some(cells[0])
    else CellFor(cells[1..], c)
  }

  /** The first present slot for column `c`. */
  function SlotFor(slots: seq<Option<Js>>, c: Js): Option<Js>
  {
    if slots == [] then None
    else if slots[0].Some? && CellColumn(slots[0].value) == c then slots[0]
    else SlotFor(slots[1..], c)
  }

  lemma {:induction false} CellForSomes(slots: seq<Option<Js>>, c: Js)
    ensures CellFor(Somes(slots), c) == SlotFor(slots, c)
  {
    if slots != [] {
      CellForSomes(slots[1..], c);
      if slots[0].Some? {
        assert Somes(slots) == [slots[0].value] + Somes(slots[1..]);
        assert (Somes(slots))[1..] == Somes(slots[1..]);
      } else {
        assert Somes(slots) == Somes(slots[1..]);
      }
    }
  }

  lemma {:induction false} SlotForAt(slots: seq<Option<Js>>, k: nat, c: Js)
    requires k < |slots| && slots[k].Some? && CellColumn(slots[k].value) == c
    requires forall j :: 0 <= j < k ==> slots[j].None? || CellColumn(slots[j].value) != c
    ensures SlotFor(slots, c) == slots[k]
  {
    if k > 0 {
      SlotForAt(slots[1..], k - 1, c);
    }
  }

  /** No configured column id is shared by two slots. */
  predicate DistinctSlotColumns(m: Manager)
  {
    forall i, j :: 0 <= i < j < |SLOT_PROPERTIES| && Truthy(Prop(m, SLOT_PROPERTIES[i])) ==>
      Prop(m, SLOT_PROPERTIES[i]) != Prop(m, SLOT_PROPERTIES[j])
  }

  /** With distinct column ids, the cell a reader finds for a configured column is the one its slot wrote. */
  lemma ReadBackSlot(cfg: ListConfig, m: Manager, requestId: Js, data: Js, k: nat)
    requires DistinctSlotColumns(m)
    requires k < |SLOT_PROPERTIES| && Truthy(Prop(m, SLOT_PROPERTIES[k]))
    ensures CellFor(BuildRequestFields(cfg, m, requestId, data), Prop(m, SLOT_PROPERTIES[k]))
            == Slot(cfg, m, requestId, data, k)
  {
    var slots := RequestSlots(cfg, m, requestId, data);
    var c := Prop(m, SLOT_PROPERTIES[k]);
    assert forall j :: 0 <= j < |slots| && j != k ==> slots[j].None? || CellColumn(slots[j].value) != c by {
      forall j | 0 <= j < |slots| && j != k && slots[j].Some?
        ensures CellColumn(slots[j].value) != c
      {
        assert slots[j] == Slot(cfg, m, requestId, data, j);
        assert CellColumn(slots[j].value) == Prop(m, SLOT_PROPERTIES[j]);
      }
    }
    assert slots[k] == Slot(cfg, m, requestId, data, k);
    CellForSomes(slots, c);
    if slots[k].Some? {
      SlotForAt(slots, k, c);
    } else {
      SlotForAbsent(slots, k, c);
    }
  }

  lemma {:induction false} SlotForAbsent(slots: seq<Option<Js>>, k: nat, c: Js)
    requires k < |slots| && slots[k].None?
    requires forall j :: 0 <= j < |slots| && j != k ==> slots[j].None? || CellColumn(slots[j].value) != c
    ensures SlotFor(slots, c) == None
  {
    if slots != [] {
      if k == 0 {
        SlotForNone(slots[1..], c);
      } else {
        SlotForAbsent(slots[1..], k - 1, c);
      }
    }
  }

  lemma {:induction false} SlotForNone(slots: seq<Option<Js>>, c: Js)
    requires forall j :: 0 <= j < |slots| ==> slots[j].None? || CellColumn(slots[j].value) != c
    ensures SlotFor(slots, c) == None
  {
    if slots != [] {
      SlotForNone(slots[1..], c);
    }
  }

  /** The project cell of a new row reads back as the project name ("" when it is not a string). */
  lemma ReadBackProjectCell(cfg: ListConfig, m: Manager, requestId: Js, data: Js)
    requires DistinctSlotColumns(m) && Truthy(Prop(m, "projectColumnId"))
    ensures var c := Prop(m, "projectColumnId");
            var cell := CellFor(BuildRequestFields(cfg, m, requestId, data), c);
            cell.Some? && PlainText(Get(cell.value, "rich_text")) == (if Get(data, "projectName").Str? then Get(data, "projectName").s else "")
  {
    assert SLOT_PROPERTIES[0] == "projectColumnId";
    ReadBackSlot(cfg, m, requestId, data, 0);
    var c := Prop(m, "projectColumnId");
    assert Slot(cfg, m, requestId, data, 0) == Some(BuildRichTextField(c, Or(Get(data, "projectName"), Str(""))));
  }

  /** The request-id cell of a new row reads back as the request id. */
  lemma ReadBackRequestIdCell(cfg: ListConfig, m: Manager, requestId: Js, data: Js)
    requires DistinctSlotColumns(m) && Truthy(Prop(m, "requestIdColumnId"))
    ensures var c := Prop(m, "requestIdColumnId");
            var cell := CellFor(BuildRequestFields(cfg, m, requestId, data), c);
            cell.Some? && PlainText(Get(cell.value, "rich_text")) == (if requestId.Str? then requestId.s else "")
  {
    assert SLOT_PROPERTIES[1] == "requestIdColumnId";
    ReadBackSlot(cfg, m, requestId, data, 1);
    var c := Prop(m, "requestIdColumnId");
    assert Slot(cfg, m, requestId, data, 1) == Some(BuildRichTextField(c, requestId));
  }

  /** A new row starts with the list's code for the pending status. */
  lemma ReadBackStatusCell(cfg: ListConfig, m: Manager, requestId: Js, data: Js)
    requires DistinctSlotColumns(m) && Truthy(Prop(m, "statusColumnId"))
    ensures var c := Prop(m, "statusColumnId");
            var cell := CellFor(BuildRequestFields(cfg, m, requestId, data), c);
            cell == Some(SelectCell(c, StatusCode(cfg, "pending")))
  {
    assert SLOT_PROPERTIES[2] == "statusColumnId";
    ReadBackSlot(cfg, m, requestId, data, 2);
    var c := Prop(m, "statusColumnId");
    assert Slot(cfg, m, requestId, data, 2) == Some(SelectCell(c, StatusCode(cfg, "pending")));
  }

  /** The urgency cell holds the request's urgency, or "unknown" when it has none. */
  lemma ReadBackUrgencyCell(cfg: ListConfig, m: Manager, requestId: Js, data: Js)
    requires DistinctSlotColumns(m) && Truthy(Prop(m, "urgencyColumnId"))
    ensures var c := Prop(m, "urgencyColumnId");
            var cell := CellFor(BuildRequestFields(cfg, m, requestId, data), c);
            cell == Some(SelectCell(c, if Truthy(Get(data, "urgency")) then Get(data, "urgency") else Str("unknown")))
  {
    assert SLOT_PROPERTIES[3] == "urgencyColumnId";
    ReadBackSlot(cfg, m, requestId, data, 3);
    var c := Prop(m, "urgencyColumnId");
    assert Slot(cfg, m, requestId, data, 3) == Some(SelectCell(c, Or(Get(data, "urgency"), Str("unknown"))));
  }

  lemma RequesterSlot(cfg: ListConfig, m: Manager, requestId: Js, data: Js)
    requires Truthy(Prop(m, "requestedByColumnId"))
    ensures var c := Prop(m, "requestedByColumnId");
            Slot(cfg, m, requestId, data, 4) == (if Truthy(Get(data, "requestedBy")) then Some(UserCell(c, Arr([Get(data, "requestedBy")]))) else None)
  {
    assert SLOT_PROPERTIES[4] == "requestedByColumnId";
  }

  /** The requester cell is present exactly when the request names a requester, and holds that one user. */
  lemma ReadBackRequesterCell(cfg: ListConfig, m: Manager, requestId: Js, data: Js)
    requires DistinctSlotColumns(m) && Truthy(Prop(m, "requestedByColumnId"))
    ensures var c := Prop(m, "requestedByColumnId");
            var cell := CellFor(BuildRequestFields(cfg, m, requestId, data), c);
            cell == (if Truthy(Get(data, "requestedBy")) then Some(UserCell(c, Arr([Get(data, "requestedBy")]))) else None)
  {
    assert SLOT_PROPERTIES[4] == "requestedByColumnId";
    ReadBackSlot(cfg, m, requestId, data, 4);
    RequesterSlot(cfg, m, requestId, data);
  }

  /** The type cell holds the request's threat-modelling type, or "other" when it has none. */
  lemma ReadBackTypeCell(cfg: ListConfig, m: Manager, requestId: Js, data: Js)
    requires DistinctSlotColumns(m) && Truthy(Prop(m, "threatModelingTypeColumnId"))
    ensures var c := Prop(m, "threatModelingTypeColumnId");
            var cell := CellFor(BuildRequestFields(cfg, m, requestId, data), c);
            cell == Some(SelectCell(c, if Truthy(Get(data, "threatModelingType")) then Get(data, "threatModelingType") else Str("other")))
  {
    assert SLOT_PROPERTIES[5] == "threatModelingTypeColumnId";
    ReadBackSlot(cfg, m, requestId, data, 5);
    var c := Prop(m, "threatModelingTypeColumnId");
    assert Slot(cfg, m, requestId, data, 5) == Some(SelectCell(c, Or(Get(data, "threatModelingType"), Str("other"))));
  }

  lemma AssigneeSlot(cfg: ListConfig, m: Manager, requestId: Js, data: Js)
    requires Truthy(Prop(m, "assignedToColumnId"))
    ensures var c := Prop(m, "assignedToColumnId");
            Slot(cfg, m, requestId, data, 6) == (if IsNonEmptyArray(Get(data, "assignedTo")) then Some(UserCell(c, Get(data, "assignedTo"))) else None)
  {
    assert SLOT_PROPERTIES[6] == "assignedToColumnId";
  }

  /** The assignee cell is present exactly when the request has a non-empty list of assignees, and holds that list. */
  lemma ReadBackAssigneeCell(cfg: ListConfig, m: Manager, requestId: Js, data: Js)
    requires DistinctSlotColumns(m) && Truthy(Prop(m, "assignedToColumnId"))
    ensures var c := Prop(m, "assignedToColumnId");
            var cell := CellFor(BuildRequestFields(cfg, m, requestId, data), c);
            cell == (if IsNonEmptyArray(Get(data, "assignedTo")) then Some(UserCell(c, Get(data, "assignedTo"))) else None)
  {
    assert SLOT_PROPERTIES[6] == "assignedToColumnId";
    ReadBackSlot(cfg, m, requestId, data, 6);
    AssigneeSlot(cfg, m, requestId, data);
  }

  lemma AdminMessageSlot(cfg: ListConfig, m: Manager, requestId: Js, data: Js)
    requires Truthy(Prop(m, "adminMessageTsColumnId"))
    ensures var c := Prop(m, "adminMessageTsColumnId");
            Slot(cfg, m, requestId, data, 7) == (if Truthy(Get(data, "adminMessageTs")) then Some(BuildRichTextField(c, Get(data, "adminMessageTs"))) else None)
  {
    assert SLOT_PROPERTIES[7] == "adminMessageTsColumnId";
  }

  /** The admin-message cell is present exactly when the request carries the message timestamp, and holds it as rich text. */
  lemma ReadBackAdminMessageCell(cfg: ListConfig, m: Manager, requestId: Js, data: Js)
    requires DistinctSlotColumns(m) && Truthy(Prop(m, "adminMessageTsColumnId"))
    ensures var c := Prop(m, "adminMessageTsColumnId");
            var cell := CellFor(BuildRequestFields(cfg, m, requestId, data), c);
            cell == (if Truthy(Get(data, "adminMessageTs")) then Some(BuildRichTextField(c, Get(data, "adminMessageTs"))) else None)
  {
    assert SLOT_PROPERTIES[7] == "adminMessageTsColumnId";
    ReadBackSlot(cfg, m, requestId, data, 7);
    AdminMessageSlot(cfg, m, requestId, data);
  }

  // ----- remote operations -----

  /**
    `addRequest(requestId, requestData)`. `requestIdCheck` is the outcome of
    `validateRequestId`, whose rule is not part of this model; `response` is
    the outcome of the `slackLists.items.create` call. Typed errors pass
    through; any other thrown error is wrapped in a `RequestProcessingError`.
  */
  function AddRequest(cfg: ListConfig, m: Manager, requestId: Js, data: Js,
                      requestIdCheck: Result<Js, Error>, response: Result<Js, Error>): (r: Result<Js, Error>)
    ensures requestIdCheck.Failure? ==> r == Failure(requestIdCheck.error)
    ensures requestIdCheck.Success? && !Validation.IsValidRequestData(data) ==>
              r == Failure(Validation.ValidateRequestData(data).error)
    ensures requestIdCheck.Success? && Validation.IsValidRequestData(data) && !Truthy(m.listId) ==>
              r == Failure(Configuration("List not initialized, cannot add request"))
    ensures requestIdCheck.Success? && Validation.IsValidRequestData(data) && Truthy(m.listId) ==>
              && (response.Failure? && (response.error.SlackApi? || response.error.RequestProcessing?) ==>
                    r == Failure(response.error))
              && (response.Failure? && !(response.error.SlackApi? || response.error.RequestProcessing?) ==>
                    r == Failure(RequestProcessing("Failed to add request to list: " + JsString(Message(response.error)),
                                                   requestId, Str("addRequest"))))
              && (response.Success? ==> (r.Success? <==> Truthy(Get(Get(response.value, "item"), "id"))))
              && (response.Success? && r.Success? ==> r.value == Get(Get(response.value, "item"), "id"))
              && (response.Success? && r.Failure? ==>
                    r.error == RequestProcessing("Failed to create list item: no item ID returned", requestId, Str("addRequest")))
    ensures r.Success? ==> Truthy(r.value)
    ensures requestIdCheck.Success? && r.Failure? ==>
              r.error.Validation? || r.error.Configuration? || r.error.SlackApi? || r.error.RequestProcessing?
  {
    if requestIdCheck.Failure? then Failure(requestIdCheck.error)
    else
      var dataCheck := Validation.ValidateRequestData(data);
      if dataCheck.Failure? then Failure(dataCheck.error)
      else if !Truthy(m.listId) then Failure(Configuration("List not initialized, cannot add request"))
      else
        match response
        case Failure(e) =>
          if e.SlackApi? || e.RequestProcessing? then Failure(e)
          else Failure(RequestProcessing("Failed to add request to list: " + JsString(Message(e)), requestId, Str("addRequest")))
        case Success(result) =>
          var itemId := Or(Get(Get(result, "item"), "id"), Null);
          if !Truthy(itemId) then
            Failure(RequestProcessing("Failed to create list item: no item ID returned", requestId, Str("addRequest")))
          else Success(itemId)
  }

  /** What `await this.slackAPI.call(...)` hands its caller: the response, or the error it throws. */
  function Awaited(run: Run<Js, Error>): (r: Result<Js, Error>)
    ensures run.result.Success? ==> r == Success(run.result.value)
    ensures run.result.Failure? && run.result.error.Some? ==> r == Failure(run.result.error.value)
  {
    match run.result
    case Success(v) => Success(v)
    case Failure(e) => Failure(if e.Some? then e.value else Foreign(map[]))
  }

  /**
    Through the service's `call`, every failure reaching `addRequest` is
    already a `SlackAPIError`, so it is passed on unchanged and the wrapping
    branch is never taken.
  */
  lemma AddRequestThroughCall(cfg: ListConfig, m: Manager, requestId: Js, data: Js,
                              requestIdCheck: Result<Js, Error>, outcomes: nat -> Result<Js, Error>)
    requires requestIdCheck.Success? && Validation.IsValidRequestData(data) && Truthy(m.listId)
    ensures var run := SlackApi.Call("slackLists.items.create", outcomes);
            var r := AddRequest(cfg, m, requestId, data, requestIdCheck, Awaited(run));
            && (run.result.Failure? ==> r == Failure(run.result.error.value) && r.error.SlackApi?)
            && (run.result.Success? ==> (r.Success? <==> Truthy(Get(Get(outcomes(run.attempts).value, "item"), "id"))))
  {
  }

  /** `mapStatusForList(status)`: the list code of a known status, the pending code for anything else. */
  function MapStatusForList(cfg: ListConfig, status: Js): (r: Js)
    ensures Truthy(StatusCode(cfg, JsString(status))) ==> r == StatusCode(cfg, JsString(status))
    ensures !Truthy(StatusCode(cfg, JsString(status))) ==> r == StatusCode(cfg, "pending")
  {
    Or(StatusCode(cfg, JsString(status)), StatusCode(cfg, "pending"))
  }

  /**
    With a truthy pending code every status maps to a truthy value: a code
    from the table, except for a status that names an `Object.prototype`
    property the table does not own, which maps to that inherited built-in.
  */
  lemma MapStatusForListTotal(cfg: ListConfig, status: Js)
    requires Truthy(StatusCode(cfg, "pending"))
    ensures Truthy(MapStatusForList(cfg, status))
    ensures var s := JsString(status);
            !(s in OBJECT_PROTOTYPE_NAMES && (s !in cfg.statusCodes || s == "__proto__")) ==>
              MapStatusForList(cfg, status) in cfg.statusCodes.Values
    ensures var s := JsString(status);
            s in OBJECT_PROTOTYPE_NAMES && (s !in cfg.statusCodes || s == "__proto__") ==>
              MapStatusForList(cfg, status) == InheritedValue(s)
  {
    assert "pending" !in OBJECT_PROTOTYPE_NAMES;
    var s := JsString(status);
    if s in cfg.statusCodes && s != "__proto__" && Truthy(cfg.statusCodes[s]) {
      assert MapStatusForList(cfg, status) == cfg.statusCodes[s];
    } else if !(s in OBJECT_PROTOTYPE_NAMES && (s !in cfg.statusCodes || s == "__proto__")) {
      assert MapStatusForList(cfg, status) == cfg.statusCodes["pending"];
    }
  }

  /** What an update operation returns, and the parameters of the remote call it made (`None` when it made none). */
  datatype Attempted<T> = Attempted(value: T, params: Option<Js>)

  /** The parameters of one `slackLists.items.update` call: one cell of one row. */
  function UpdateParams(listId: Js, cell: map<string, Js>): Js
  {
    Obj(map["list_id" := listId, "cells" := Arr([Obj(cell)])])
  }

  /**
    `updateRequestStatus(requestId, listItemId, newStatus)`: false, with no
    call, without a list id or status column; otherwise the mapped status is
    written to the row and the result says whether the call succeeded.
  */
  function UpdateRequestStatus(cfg: ListConfig, m: Manager, listItemId: Js, newStatus: Js,
                               response: Result<Js, Error>): (r: Attempted<bool>)
    ensures !Truthy(m.listId) || !Truthy(Prop(m, "statusColumnId")) ==> r == Attempted(false, None)
    ensures Truthy(m.listId) && Truthy(Prop(m, "statusColumnId")) ==>
              && r.value == response.Success?
              && r.params == Some(UpdateParams(m.listId, map["row_id" := listItemId,
                                                                "column_id" := Prop(m, "statusColumnId"),
                                                                "select" := Arr([MapStatusForList(cfg, newStatus)])]))
  {
    var status := Prop(m, "statusColumnId");
    if !Truthy(m.listId) || !Truthy(status) then Attempted(false, None)
    else
      var cell := map["row_id" := listItemId, "column_id" := status, "select" := Arr([MapStatusForList(cfg, newStatus)])];
      Attempted(response.Success?, Some(UpdateParams(m.listId, cell)))
  }

  /**
    `updateAssignedUsers(requestId, listItemId, userIds)`: false, with no
    call, without a list id or assignee column; otherwise the users (none
    when `userIds` is not an array) are written to the row.
  */
  function UpdateAssignedUsers(m: Manager, listItemId: Js, userIds: Js, response: Result<Js, Error>): (r: Attempted<bool>)
    ensures !Truthy(m.listId) || !Truthy(Prop(m, "assignedToColumnId")) ==> r == Attempted(false, None)
    ensures Truthy(m.listId) && Truthy(Prop(m, "assignedToColumnId")) ==>
              && r.value == response.Success?
              && r.params == Some(UpdateParams(m.listId, map["row_id" := listItemId,
                                                                "column_id" := Prop(m, "assignedToColumnId"),
                                                                "user" := if userIds.Arr? then userIds else Arr([])]))
  {
    var assignedTo := Prop(m, "assignedToColumnId");
    if !Truthy(m.listId) || !Truthy(assignedTo) then Attempted(false, None)
    else
      var users := if userIds.Arr? then userIds else Arr([]);
      Attempted(response.Success?, Some(UpdateParams(m.listId, map["row_id" := listItemId, "column_id" := assignedTo, "user" := users])))
  }

  /**
    A status update on a configured list sends one select cell holding a
    truthy code, which is a code of the status table unless the status
    names an inherited `Object.prototype` property; the update reports
    exactly whether the call succeeded.
  */
  lemma UpdateStatusSendsTableCode(cfg: ListConfig, m: Manager, listItemId: Js, status: Js, response: Result<Js, Error>)
    requires Truthy(m.listId) && Truthy(Prop(m, "statusColumnId")) && Truthy(StatusCode(cfg, "pending"))
    ensures var r := UpdateRequestStatus(cfg, m, listItemId, status, response);
            var code := MapStatusForList(cfg, status);
            && r.value == response.Success?
            && r.params.Some? && Get(r.params.value, "list_id") == m.listId
            && Get(r.params.value, "cells") == Arr([Obj(map["row_id" := listItemId, "column_id" := Prop(m, "statusColumnId"),
                                                             "select" := Arr([code])])])
            && Truthy(code)
            && (JsString(status) !in OBJECT_PROTOTYPE_NAMES ==> code in cfg.statusCodes.Values)
  {
    MapStatusForListTotal(cfg, status);
  }

  /** `getListItems()`: no call and no items without a list id; a failed call also gives no items. */
  function GetListItems(m: Manager, response: Result<Js, Error>): (r: Attempted<Js>)
    ensures !Truthy(m.listId) ==> r == Attempted(Arr([]), None)
    ensures Truthy(m.listId) ==> r.params == Some(Obj(map["list_id" := m.listId]))
    ensures Truthy(m.listId) && response.Failure? ==> r.value == Arr([])
    ensures Truthy(m.listId) && response.Success? ==>
              r.value == (if Truthy(Get(response.value, "items")) then Get(response.value, "items") else Arr([]))
  {
    if !Truthy(m.listId) then Attempted(Arr([]), None)
    else
      var items := if response.Failure? then Arr([]) else Or(Get(response.value, "items"), Arr([]));
      Attempted(items, Some(Obj(map["list_id" := m.listId])))
  }

  // ----- setting the list id by hand -----

  /** The keys `setListId` accepts and the alias each sets, in the order they are applied. */
  const LEGACY_KEYS: seq<(string, string)> := [
    ("project", "projectName"), ("projectName", "projectName"), ("requestId", "requestId"),
    ("status", "status"), ("urgency", "urgency"), ("assignedTo", "assignedTo"),
    ("requestedBy", "requestedBy"), ("threatModelingType", "threatModelingType"),
    ("adminMessageTs", "adminMessageTs")
  ]

  /** The legacy keys applied in order: each truthy value sets its alias. */
  function ApplyLegacy(m: Manager, given: map<string, Js>, keys: seq<(string, string)>): (r: Manager)
    ensures Valid(m) ==> Valid(r)
    ensures r.columnIds.Keys == m.columnIds.Keys
    ensures r.notificationChannelId == m.notificationChannelId && r.listId == m.listId
  {
    if keys == [] then m
    else
      var before := ApplyLegacy(m, given, keys[..|keys| - 1]);
      var (key, alias) := keys[|keys| - 1];
      if key in given && Truthy(given[key]) then SetColumnId(before, alias, given[key]) else before
  }

  /** The id `setListId` leaves for alias `a`: the value of the last truthy legacy key naming it, else the old id. */
  function LegacyId(given: map<string, Js>, keys: seq<(string, string)>, a: string, before: Js): Js
  {
    if keys == [] then before
    else
      var (key, alias) := keys[|keys| - 1];
      if alias == a && key in given && Truthy(given[key]) then given[key]
      else LegacyId(given, keys[..|keys| - 1], a, before)
  }

  lemma {:induction false} ApplyLegacyResolves(m: Manager, given: map<string, Js>, keys: seq<(string, string)>, a: string)
    requires a in m.columnIds
    ensures ApplyLegacy(m, given, keys).columnIds[a] == LegacyId(given, keys, a, m.columnIds[a])
  {
    if keys != [] {
      ApplyLegacyResolves(m, given, keys[..|keys| - 1], a);
    }
  }

  lemma ApplyLegacyResolvesAll(m: Manager, given: map<string, Js>, keys: seq<(string, string)>)
    ensures forall a :: a in m.columnIds ==>
              ApplyLegacy(m, given, keys).columnIds[a] == LegacyId(given, keys, a, m.columnIds[a])
  {
    forall a | a in m.columnIds
      ensures ApplyLegacy(m, given, keys).columnIds[a] == LegacyId(given, keys, a, m.columnIds[a])
    {
      ApplyLegacyResolves(m, given, keys, a);
    }
  }

  /** Keys after position `n` that name other aliases do not matter for alias `a`. */
  lemma {:induction false} LegacyIdSkips(given: map<string, Js>, keys: seq<(string, string)>, n: nat, a: string, before: Js)
    requires n <= |keys|
    requires forall j :: n <= j < |keys| ==> keys[j].1 != a
    ensures LegacyId(given, keys, a, before) == LegacyId(given, keys[..n], a, before)
    decreases |keys| - n
  {
    if n < |keys| {
      var init := keys[..|keys| - 1];
      LegacyIdSkips(given, init, n, a, before);
      assert init[..n] == keys[..n];
    } else {
      assert keys[..n] == keys;
    }
  }

  /**
    `setListId(listId, columnIds = null)`: the list id is replaced; when a
    column object is given, each truthy legacy entry sets its alias and the
    others keep their ids.
  */
  function SetListId(m: Manager, listId: Js, columnIds: Js): (r: Manager)
    ensures r.listId == listId && r.notificationChannelId == m.notificationChannelId
    ensures Valid(m) ==> Valid(r)
    ensures !columnIds.Obj? ==> r == m.(listId := listId)
    ensures columnIds.Obj? && Valid(m) ==>
              forall a :: a in COLUMN_PROPERTY_MAP ==>
                r.columnIds[a] == LegacyId(columnIds.fields, LEGACY_KEYS, a, m.columnIds[a])
  {
    var m1 := m.(listId := listId);
    if !columnIds.Obj? then m1
    else
      ApplyLegacyResolvesAll(m1, columnIds.fields, LEGACY_KEYS);
      ApplyLegacy(m1, columnIds.fields, LEGACY_KEYS)
  }

  /** Of the two spellings of the project column, `projectName` wins when both are given. */
  lemma SetListIdPrefersProjectName(m: Manager, listId: Js, given: map<string, Js>)
    requires Valid(m)
    ensures var r := SetListId(m, listId, Obj(given));
            && ("projectName" in given && Truthy(given["projectName"]) ==> r.columnIds["projectName"] == given["projectName"])
            && (!("projectName" in given && Truthy(given["projectName"])) && "project" in given && Truthy(given["project"]) ==>
                  r.columnIds["projectName"] == given["project"])
            && (!("projectName" in given && Truthy(given["projectName"])) && !("project" in given && Truthy(given["project"])) ==>
                  r.columnIds["projectName"] == m.columnIds["projectName"])
  {
    var keys := LEGACY_KEYS;
    assert "projectName" in COLUMN_PROPERTY_MAP;
    assert forall j :: 2 <= j < |keys| ==> keys[j].1 != "projectName" by {
      assert |"projectName"| == 11 && "projectName"[0] == 'p';
      assert |keys[2].1| == 9 && |keys[3].1| == 6 && |keys[4].1| == 7 && |keys[5].1| == 10;
      assert |keys[6].1| == 11 && keys[6].1[0] == 'r';
      assert |keys[7].1| == 18 && |keys[8].1| == 14;
    }
    LegacyIdSkips(given, keys, 2, "projectName", m.columnIds["projectName"]);
    var before := m.columnIds["projectName"];
    var k2 := keys[..2];
    var k1 := k2[..1];
    assert k2[1] == ("projectName", "projectName") && k1 == [("project", "projectName")] && k1[..0] == [];
    assert LegacyId(given, k1, "projectName", before)
        == if "project" in given && Truthy(given["project"]) then given["project"] else before;
    assert LegacyId(given, k2, "projectName", before)
        == if "projectName" in given && Truthy(given["projectName"]) then given["projectName"]
           else LegacyId(given, k1, "projectName", before);
  }
}

=== FILE: request_cache.dfy ===
/**
  `ThreatModelingStore`: the in-memory cache of request data kept while a
  request is processed. The cache is a map from request id to a record
  (a plain object); the timestamp the store would take from the clock is a
  parameter `now`.
*/
module RequestCache {
  import opened Results
  import opened JsValue
  import opened Errors

  type Record = map<string, Js>

  datatype Store = Store(requestCache: map<Js, Record>)

  /** `new ThreatModelingStore()`. */
  const EMPTY_STORE: Store := Store(map[])

  /** The keys an update writes: those whose value is not `undefined`. */
  predicate Writes(updates: Record, k: string)
  {
    k in updates && updates[k] != Undefined
  }

  /** `{...existing}` overwritten by every update whose value is not `undefined`. */
  function Merge(existing: Record, updates: Record): (r: Record)
    ensures forall k :: k in r <==> k in existing || Writes(updates, k)
    ensures forall k :: Writes(updates, k) ==> r[k] == updates[k]
    ensures forall k :: k in existing && !Writes(updates, k) ==> r[k] == existing[k]
  {
    map k | k in existing.Keys + updates.Keys && (k in existing || Writes(updates, k)) ::
      if Writes(updates, k) then updates[k] else existing[k]
  }

  /** Applying the same updates twice is applying them once. */
  lemma MergeIdempotent(existing: Record, updates: Record)
    ensures Merge(Merge(existing, updates), updates) == Merge(existing, updates)
  {
  }

  /** Updates that are all `undefined` leave a record as it is. */
  lemma MergeUndefinedIsIdentity(existing: Record, updates: Record)
    requires forall k :: k in updates ==> updates[k] == Undefined
    ensures Merge(existing, updates) == existing
  {
  }

  /** `this.requestCache.get(requestId) || {}`: a request's record, empty when none is cached. */
  function RecordOf(store: Store, requestId: Js): Record
  {
    if requestId in store.requestCache then store.requestCache[requestId] else map[]
  }

  /** `_updateCache(requestId, updates = {})`. */
  function UpdateCache(store: Store, requestId: Js, updates: Record): (r: Store)
    ensures requestId in r.requestCache
    ensures r.requestCache[requestId] == Merge(RecordOf(store, requestId), updates)
    ensures forall id :: id != requestId ==> (id in r.requestCache <==> id in store.requestCache)
    ensures forall id :: id != requestId && id in store.requestCache ==> r.requestCache[id] == store.requestCache[id]
  {
    Store(store.requestCache[requestId := Merge(RecordOf(store, requestId), updates)])
  }

  /** The `TypeError` a property read from `undefined` or `null` throws. */
  const READ_FROM_NOTHING: Error := Foreign(map["name" := Str("TypeError")])

  /** The updates `cacheRequestData` writes, with the defaults it fills in. */
  function CachedFields(data: Js, now: string): (u: Record)
    ensures u.Keys == {"systemDescription", "threatModelingType", "priority", "additionalInfo",
                       "requestedBy", "requestedAt", "teamMembers"}
  {
    map[
      "systemDescription" := Or(Get(data, "systemDescription"), Str("")),
      "threatModelingType" := Or(Get(data, "threatModelingType"), Str("")),
      "priority" := Or(Get(data, "priority"), Str("")),
      "additionalInfo" := Or(Get(data, "additionalInfo"), Str("")),
      "requestedBy" := Get(data, "requestedBy"),
      "requestedAt" := Or(Get(data, "requestedAt"), Str(now)),
      "teamMembers" := if Get(data, "teamMembers").Arr? then Get(data, "teamMembers") else Arr([])
    ]
  }

  /** A record after `cacheRequestData` has merged `data` into it. */
  function CachedRecord(existing: Record, data: Js, now: string): (rec: Record)
    ensures forall k :: k in existing ==> k in rec
    ensures forall k :: k in existing && k !in CachedFields(data, now) ==> rec[k] == existing[k]
    ensures "systemDescription" in rec && rec["systemDescription"] == Or(Get(data, "systemDescription"), Str(""))
    ensures "threatModelingType" in rec && rec["threatModelingType"] == Or(Get(data, "threatModelingType"), Str(""))
    ensures "priority" in rec && rec["priority"] == Or(Get(data, "priority"), Str(""))
    ensures "additionalInfo" in rec && rec["additionalInfo"] == Or(Get(data, "additionalInfo"), Str(""))
    ensures "requestedAt" in rec && rec["requestedAt"] == Or(Get(data, "requestedAt"), Str(now))
    ensures "teamMembers" in rec && rec["teamMembers"].Arr?
    ensures Get(data, "teamMembers").Arr? ==> rec["teamMembers"] == Get(data, "teamMembers")
    ensures Get(data, "requestedBy") != Undefined ==> "requestedBy" in rec && rec["requestedBy"] == Get(data, "requestedBy")
    ensures Get(data, "requestedBy") == Undefined ==>
              ("requestedBy" in rec <==> "requestedBy" in existing)
              && ("requestedBy" in existing ==> rec["requestedBy"] == existing["requestedBy"])
  {
    var u := CachedFields(data, now);
    assert u["systemDescription"] == Or(Get(data, "systemDescription"), Str(""));
    assert u["threatModelingType"] == Or(Get(data, "threatModelingType"), Str(""));
    assert u["priority"] == Or(Get(data, "priority"), Str(""));
    assert u["additionalInfo"] == Or(Get(data, "additionalInfo"), Str(""));
    assert u["requestedAt"] == Or(Get(data, "requestedAt"), Str(now));
    assert u["requestedBy"] == Get(data, "requestedBy");
    assert u["teamMembers"].Arr?;
    assert Writes(u, "systemDescription") && Writes(u, "threatModelingType") && Writes(u, "priority");
    assert Writes(u, "additionalInfo") && Writes(u, "requestedAt") && Writes(u, "teamMembers");
    assert Writes(u, "requestedBy") <==> Get(data, "requestedBy") != Undefined;
    Merge(existing, u)
  }

  /**
    `cacheRequestData(requestId, data)`: the defaulted fields are written over
    whatever the request already has (see `CachedRecord`); reading a field of
    `undefined` or `null` data throws.
  */
  function CacheRequestData(store: Store, requestId: Js, data: Js, now: string): (r: Result<Store, Error>)
    ensures data.Undefined? || data.Null? ==> r == Failure(READ_FROM_NOTHING)
    ensures !(data.Undefined? || data.Null?) ==>
              r.Success? && requestId in r.value.requestCache
              && r.value.requestCache[requestId] == CachedRecord(RecordOf(store, requestId), data, now)
    ensures r.Success? ==>
              && (forall id :: id != requestId ==> (id in r.value.requestCache <==> id in store.requestCache))
              && (forall id :: id != requestId && id in store.requestCache ==> r.value.requestCache[id] == store.requestCache[id])
  {
    if data.Undefined? || data.Null? then Failure(READ_FROM_NOTHING)
    else Success(UpdateCache(store, requestId, CachedFields(data, now)))
  }

  /** `getCachedRequestData(requestId)`: the record, or `null` (here `None`). */
  function GetCachedRequestData(store: Store, requestId: Js): (r: Option<Record>)
    ensures r.Some? <==> requestId in store.requestCache
    ensures r.Some? ==> r.value == store.requestCache[requestId]
  {
    if requestId in store.requestCache then Some(store.requestCache[requestId]) else None
  }

  /** A record after `updateTrelloCardUrl` has merged the URL and its timestamp into it. */
  function TrelloRecord(existing: Record, url: Js, now: string): (rec: Record)
    ensures "trelloCardCreatedAt" in rec && rec["trelloCardCreatedAt"] == Str(now)
    ensures url != Undefined ==> "trelloCardUrl" in rec && rec["trelloCardUrl"] == url
    ensures url == Undefined ==>
              ("trelloCardUrl" in rec <==> "trelloCardUrl" in existing)
              && ("trelloCardUrl" in existing ==> rec["trelloCardUrl"] == existing["trelloCardUrl"])
    ensures forall k :: k in existing ==> k in rec
    ensures forall k :: k in existing && k != "trelloCardUrl" && k != "trelloCardCreatedAt" ==> rec[k] == existing[k]
  {
    var u := map["trelloCardUrl" := url, "trelloCardCreatedAt" := Str(now)];
    assert Writes(u, "trelloCardCreatedAt");
    assert Writes(u, "trelloCardUrl") <==> url != Undefined;
    Merge(existing, u)
  }

  /**
    `updateTrelloCardUrl(requestId, trelloCardUrl)`: false, and nothing
    changes, when nothing is cached for the request; otherwise true, with the
    URL and its timestamp merged into the record (see `TrelloRecord`).
  */
  function UpdateTrelloCardUrl(store: Store, requestId: Js, url: Js, now: string): (r: (bool, Store))
    ensures r.0 <==> requestId in store.requestCache
    ensures !r.0 ==> r.1 == store
    ensures r.0 ==> requestId in r.1.requestCache
                    && r.1.requestCache[requestId] == TrelloRecord(store.requestCache[requestId], url, now)
    ensures r.0 ==> forall id :: id != requestId ==> (id in r.1.requestCache <==> id in store.requestCache)
    ensures r.0 ==> forall id :: id != requestId && id in store.requestCache ==> r.1.requestCache[id] == store.requestCache[id]
  {
    if requestId !in store.requestCache then (false, store)
    else (true, Store(store.requestCache[requestId := TrelloRecord(store.requestCache[requestId], url, now)]))
  }

  /** `clearRequestData(requestId)`. */
  function ClearRequestData(store: Store, requestId: Js): (r: Store)
    ensures requestId !in r.requestCache
    ensures forall id :: id != requestId ==> (id in r.requestCache <==> id in store.requestCache)
    ensures forall id :: id != requestId && id in store.requestCache ==> r.requestCache[id] == store.requestCache[id]
  {
    Store(store.requestCache - {requestId})
  }

  /** `close()`: the cache is emptied. */
  function Close(store: Store): (r: Store)
    ensures forall id :: GetCachedRequestData(r, id) == None
  {
    EMPTY_STORE
  }

  /** `healthCheck()`: the store is in memory, so it always passes. */
  function HealthCheck(store: Store): (ok: bool)
    ensures ok
  {
    true
  }

  /**
    What was cached can be read back: the record is the old one with the
    defaulted fields merged in, so every field `cacheRequestData` writes
    reads back with its default filled in.
  */
  lemma CachedDataReadsBack(store: Store, requestId: Js, data: Js, now: string)
    requires !(data.Undefined? || data.Null?)
    ensures var r := CacheRequestData(store, requestId, data, now);
            && r.Success?
            && var got := GetCachedRequestData(r.value, requestId);
            && got == Some(CachedRecord(RecordOf(store, requestId), data, now))
            && got.value["systemDescription"] == Or(Get(data, "systemDescription"), Str(""))
            && got.value["threatModelingType"] == Or(Get(data, "threatModelingType"), Str(""))
            && got.value["priority"] == Or(Get(data, "priority"), Str(""))
            && got.value["additionalInfo"] == Or(Get(data, "additionalInfo"), Str(""))
            && got.value["requestedAt"] == Or(Get(data, "requestedAt"), Str(now))
            && got.value["teamMembers"] == (if Get(data, "teamMembers").Arr? then Get(data, "teamMembers") else Arr([]))
            && (Get(data, "requestedBy") != Undefined ==> got.value["requestedBy"] == Get(data, "requestedBy"))
  {
    var rec := CachedRecord(RecordOf(store, requestId), data, now);
    var u := CachedFields(data, now);
    assert u["teamMembers"] == (if Get(data, "teamMembers").Arr? then Get(data, "teamMembers") else Arr([]));
    assert Writes(u, "teamMembers");
    assert rec["teamMembers"] == u["teamMembers"];
  }

  /** After a request is cleared there is nothing to attach a card URL to. */
  lemma NoTrelloUrlAfterClear(store: Store, requestId: Js, url: Js, now: string)
    ensures UpdateTrelloCardUrl(ClearRequestData(store, requestId), requestId, url, now)
            == (false, ClearRequestData(store, requestId))
  {
  }

  /** Caching the same data again at the same time changes nothing. */
  lemma CacheRequestDataIdempotent(store: Store, requestId: Js, data: Js, now: string)
    requires CacheRequestData(store, requestId, data, now).Success?
    ensures var once := CacheRequestData(store, requestId, data, now).value;
            CacheRequestData(once, requestId, data, now) == Success(once)
  {
    var u := CachedFields(data, now);
    var once := CacheRequestData(store, requestId, data, now).value;
    var rec := Merge(RecordOf(store, requestId), u);
    assert once.requestCache[requestId] == rec;
    assert RecordOf(once, requestId) == rec;
    MergeIdempotent(RecordOf(store, requestId), u);
    assert once.requestCache[requestId := Merge(rec, u)] == once.requestCache;
  }

  /** A card URL attached to a request survives the request being cached again. */
  lemma TrelloUrlSurvivesRecaching(store: Store, requestId: Js, url: Js, now: string, data: Js, later: string)
    requires requestId in store.requestCache && url != Undefined
    requires !(data.Undefined? || data.Null?)
    ensures var withUrl := UpdateTrelloCardUrl(store, requestId, url, now).1;
            var r := CacheRequestData(withUrl, requestId, data, later);
            r.Success? && r.value.requestCache[requestId]["trelloCardUrl"] == url
  {
    var withUrl := UpdateTrelloCardUrl(store, requestId, url, now).1;
    assert RecordOf(withUrl, requestId)["trelloCardUrl"] == url;
    assert "trelloCardUrl" !in CachedFields(data, later);
  }
}

=== FILE: results.dfy ===
/** Optional values and success/failure outcomes shared by every module. */
module Results {

  /** A value that may be absent; `None` plays the part of JavaScript's `null` return. */
  datatype Option<+T> = None | Some(value: T)

  /** The outcome of an operation that either returns a value or throws an error. */
  datatype Result<+T, +E> = Success(value: T) | Failure(error: E)

  /** The present elements of a sequence of optional values, in order. */
  function Somes<T>(s: seq<Option<T>>): (r: seq<T>)
    ensures |r| <= |s|
  {
    if s == [] then []
    else (if s[0].Some? then [s[0].value] else []) + Somes(s[1..])
  }

  /** The positions of the present elements, in increasing order. */
  function PresentIndices<T>(s: seq<Option<T>>): (ks: seq<nat>)
    ensures forall i :: 0 <= i < |ks| ==> ks[i] < |s| && s[ks[i]].Some?
    ensures forall i, j :: 0 <= i < j < |ks| ==> ks[i] < ks[j]
    ensures forall k :: 0 <= k < |s| && s[k].Some? ==> k in ks
  {
    if s == [] then []
    else
      var init := PresentIndices(s[..|s| - 1]);
      init + (if s[|s| - 1].Some? then [|s| - 1] else [])
  }

  lemma {:induction false} SomesAppend<T>(a: seq<Option<T>>, b: seq<Option<T>>)
    ensures Somes(a + b) == Somes(a) + Somes(b)
  {
    if a == [] {
      assert a + b == b;
    } else {
      assert (a + b)[0] == a[0];
      assert (a + b)[1..] == a[1..] + b;
      SomesAppend(a[1..], b);
      calc {
        Somes(a + b);
        (if a[0].Some? then [a[0].value] else []) + Somes(a[1..] + b);
        (if a[0].Some? then [a[0].value] else []) + (Somes(a[1..]) + Somes(b));
      }
    }
  }

  /** The i-th present element is the element at the i-th present position. */
  lemma {:induction false} SomesAtPresentIndices<T>(s: seq<Option<T>>)
    ensures |Somes(s)| == |PresentIndices(s)|
    ensures forall i :: 0 <= i < |Somes(s)| ==> Somes(s)[i] == s[PresentIndices(s)[i]].value
  {
    if s != [] {
      var init := s[..|s| - 1];
      assert s == init + [s[|s| - 1]];
      SomesAppend(init, [s[|s| - 1]]);
      SomesAtPresentIndices(init);
      assert Somes([s[|s| - 1]]) == (if s[|s| - 1].Some? then [s[|s| - 1].value] else []);
    }
  }
}

=== FILE: retry.dfy ===
/**
  `ErrorHandler.retry` and the predefined `RetryConfigs`.

  The operation is given as `op`, where `op(k)` is the outcome of its k-th
  invocation (k counts from 1): the value it resolved with or the error it
  threw. A run records the outcome of `retry`, how many times the operation
  was invoked and the waits, in milliseconds, slept between invocations.
  When `maxAttempts` is below 1 the loop never runs and `retry` throws its
  still-undefined `lastError`, modelled as `Failure(None)`.
*/
module Retry {
  import opened Results
  import opened JsValue
  import opened Errors

  datatype Run<T, E> = Run(result: Result<T, Option<E>>, attempts: nat, waits: seq<real>)

  /** `d` multiplied `k` times by `b`, the value of `currentDelay` after `k` rounds of `currentDelay *= backoff`. */
  function Scaled(d: real, b: real, k: nat): real
    decreases k
  {
    if k == 0 then d else Scaled(d * b, b, k - 1)
  }

  /** The loop from attempt `attempt` on, with `currentDelay` the wait before the next one. */
  function RetryFrom<T, E>(op: nat -> Result<T, E>, maxAttempts: int, backoff: real,
                           shouldRetry: (E, nat) -> bool, attempt: nat, currentDelay: real): (run: Run<T, E>)
    requires 1 <= attempt <= maxAttempts
    ensures attempt <= run.attempts <= maxAttempts
    ensures forall k :: attempt <= k < run.attempts ==> op(k).Failure? && shouldRetry(op(k).error, k)
    ensures run.result.Success? ==> op(run.attempts) == Success(run.result.value)
    ensures run.result.Failure? ==>
              && op(run.attempts).Failure?
              && run.result.error == Some(op(run.attempts).error)
              && (run.attempts == maxAttempts || !shouldRetry(op(run.attempts).error, run.attempts))
    ensures |run.waits| == run.attempts - attempt
    ensures forall j :: 0 <= j < |run.waits| ==> run.waits[j] == Scaled(currentDelay, backoff, j)
    decreases maxAttempts - attempt
  {
    match op(attempt)
    case Success(v) => Run(Success(v), attempt, [])
    case Failure(e) =>
      if attempt == maxAttempts || !shouldRetry(e, attempt) then
        Run(Failure(Some(e)), attempt, [])
      else
        var rest := RetryFrom(op, maxAttempts, backoff, shouldRetry, attempt + 1, currentDelay * backoff);
        Run(rest.result, rest.attempts, [currentDelay] + rest.waits)
  }

  /**
    `ErrorHandler.retry(operation, {maxAttempts, delay, backoff, shouldRetry})`:
    the first successful outcome is returned; an error is thrown on as soon as
    `shouldRetry` declines it or the last attempt has failed; the wait after
    the k-th failed attempt is `delay * backoff^(k-1)`.
  */
  function Retry<T, E>(op: nat -> Result<T, E>, maxAttempts: int, delay: real, backoff: real,
                       shouldRetry: (E, nat) -> bool): (run: Run<T, E>)
    ensures maxAttempts < 1 ==> run == Run(Failure(None), 0, [])
    ensures maxAttempts >= 1 ==> 1 <= run.attempts <= maxAttempts
    ensures forall k :: 1 <= k < run.attempts ==> op(k).Failure? && shouldRetry(op(k).error, k)
    ensures run.result.Success? ==> op(run.attempts) == Success(run.result.value)
    ensures maxAttempts >= 1 && run.result.Failure? ==>
              && op(run.attempts).Failure?
              && run.result.error == Some(op(run.attempts).error)
              && (run.attempts == maxAttempts || !shouldRetry(op(run.attempts).error, run.attempts))
    ensures maxAttempts >= 1 ==> |run.waits| == run.attempts - 1
    ensures forall j :: 0 <= j < |run.waits| ==> run.waits[j] == Scaled(delay, backoff, j)
  {
    if maxAttempts < 1 then Run(Failure(None), 0, [])
    else RetryFrom(op, maxAttempts, backoff, shouldRetry, 1, delay)
  }

  /**
    A run is decided by the outcomes alone: if the first `n - 1` invocations
    fail with errors `shouldRetry` accepts and the n-th succeeds, `retry`
    invokes the operation exactly `n` times and returns the n-th value.
  */
  lemma RetryReturnsFirstSuccess<T, E>(op: nat -> Result<T, E>, maxAttempts: int, delay: real,
                                       backoff: real, shouldRetry: (E, nat) -> bool, n: nat)
    requires 1 <= n <= maxAttempts
    requires forall k :: 1 <= k < n ==> op(k).Failure? && shouldRetry(op(k).error, k)
    requires op(n).Success?
    ensures Retry(op, maxAttempts, delay, backoff, shouldRetry).result == Success(op(n).value)
    ensures Retry(op, maxAttempts, delay, backoff, shouldRetry).attempts == n
  {
    var run := Retry(op, maxAttempts, delay, backoff, shouldRetry);
  }

  /** An error `shouldRetry` declines on the first attempt is thrown without a second invocation. */
  lemma RetryStopsOnDeclinedError<T, E>(op: nat -> Result<T, E>, maxAttempts: int, delay: real,
                                        backoff: real, shouldRetry: (E, nat) -> bool)
    requires maxAttempts >= 1
    requires op(1).Failure? && !shouldRetry(op(1).error, 1)
    ensures Retry(op, maxAttempts, delay, backoff, shouldRetry) == Run(Failure(Some(op(1).error)), 1, [])
  {
  }

  /** The retry policies of `RetryConfigs`, plus the default that retries everything. */
  datatype Policy = SlackApiPolicy | StoragePolicy | NetworkPolicy | AlwaysPolicy

  datatype RetryConfig = RetryConfig(maxAttempts: int, delay: real, backoff: real, policy: Policy)

  const SLACK_API_CONFIG: RetryConfig := RetryConfig(3, 1000.0, 2.0, SlackApiPolicy)
  const STORAGE_CONFIG: RetryConfig := RetryConfig(2, 500.0, 1.5, StoragePolicy)
  const NETWORK_CONFIG: RetryConfig := RetryConfig(3, 2000.0, 2.0, NetworkPolicy)
  /** The options `retry` falls back to when given none. */
  const DEFAULT_CONFIG: RetryConfig := RetryConfig(3, 1000.0, 1.5, AlwaysPolicy)

  /** The Slack error codes the Slack API policy treats as transient. */
  const RETRYABLE_SLACK_ERRORS: set<string> := {
    "rate_limited", "ratelimited", "internal_error", "network_error",
    "timeout", "service_unavailable", "gateway_timeout", "server_error"
  }

  predicate IsRetryableSlackError(e: Error)
  {
    e.SlackApi? && e.slackError.Str? && e.slackError.s in RETRYABLE_SLACK_ERRORS
  }

  /** The `shouldRetry(error, attempt)` callback of each configuration. */
  function ShouldRetry(policy: Policy, e: Error, attempt: nat): (r: bool)
    ensures policy.SlackApiPolicy? ==>
              (r <==> e.SlackApi? && exists code :: code in RETRYABLE_SLACK_ERRORS && e.slackError == Str(code))
    ensures policy.StoragePolicy? ==> (r <==> e.Storage? && attempt <= 1)
    ensures policy.NetworkPolicy? && attempt < 3 ==> r
    ensures policy.NetworkPolicy? && attempt >= 3 ==> (r <==> Code(e) in {Str("NETWORK_ERROR"), Str("TIMEOUT")})
    ensures policy.AlwaysPolicy? ==> r
  {
    match policy
    case SlackApiPolicy => IsRetryableSlackError(e)
    case StoragePolicy => e.Storage? && attempt < 2
    case NetworkPolicy => Code(e) == Str("NETWORK_ERROR") || Code(e) == Str("TIMEOUT") || attempt < 3
    case AlwaysPolicy => true
  }

  function RetryWith<T>(op: nat -> Result<T, Error>, config: RetryConfig): Run<T, Error>
  {
    Retry(op, config.maxAttempts, config.delay, config.backoff, (e: Error, k: nat) => ShouldRetry(config.policy, e, k))
  }

  /** With the Slack API configuration the operation runs at most three times, waiting 1000 ms and then 2000 ms. */
  lemma SlackApiSchedule<T>(op: nat -> Result<T, Error>)
    ensures RetryWith(op, SLACK_API_CONFIG).attempts <= 3
    ensures RetryWith(op, SLACK_API_CONFIG).waits <= [1000.0, 2000.0]
  {
    var run := RetryWith(op, SLACK_API_CONFIG);
    if |run.waits| == 2 {
      assert run.waits[1] == Scaled(1000.0, 2.0, 1) == 2000.0;
    }
  }

  /** The storage configuration retries once, and only a storage error. */
  lemma StorageRetriesOnlyStorageErrorsOnce<T>(op: nat -> Result<T, Error>)
    ensures RetryWith(op, STORAGE_CONFIG).attempts <= 2
    ensures RetryWith(op, STORAGE_CONFIG).attempts == 2 ==> op(1).Failure? && op(1).error.Storage?
    ensures RetryWith(op, STORAGE_CONFIG).waits <= [500.0]
  {
  }

  /**
    Under the network configuration `attempt < 3` holds on every attempt that
    can still be retried, so the error codes it names never decide anything:
    every failure is retried until the third attempt.
  */
  lemma NetworkRetriesEveryFailure<T>(op: nat -> Result<T, Error>)
    ensures RetryWith(op, NETWORK_CONFIG).result.Failure? ==> RetryWith(op, NETWORK_CONFIG).attempts == 3
  {
  }
}

=== FILE: rich_text.dfy ===
/**
  The Slack rich-text value the list cells carry, built from plain text and
  read back as plain text.
*/
module RichText {
  import opened JsValue

  /** `createRichText(text = '')`: one block, one section, one text node carrying `text`. */
  function CreateRichText(text: Js): (r: Js)
    ensures r.Arr? && |r.items| == 1
    ensures Get(r.items[0], "type") == Str("rich_text")
  {
    var t := if text.Undefined? then Str("") else text;
    var node := Obj(map["type" := Str("text"), "text" := t]);
    var section := Obj(map["type" := Str("rich_text_section"), "elements" := Arr([node])]);
    Arr([Obj(map["type" := Str("rich_text"), "elements" := Arr([section])])])
  }

  /** The text a node contributes: its `text` when that is a string. */
  function NodeText(node: Js): string
  {
    if Truthy(node) && Get(node, "text").Str? then Get(node, "text").s else ""
  }

  function NodesText(nodes: seq<Js>): string
  {
    if nodes == [] then "" else NodeText(nodes[0]) + NodesText(nodes[1..])
  }

  /** The text of a section element; one without an `elements` array contributes nothing. */
  function ElementText(element: Js): string
  {
    if Truthy(element) && Get(element, "elements").Arr? then NodesText(Get(element, "elements").items) else ""
  }

  function ElementsText(elements: seq<Js>): string
  {
    if elements == [] then "" else ElementText(elements[0]) + ElementsText(elements[1..])
  }

  /** The text of a block; one without an `elements` array contributes nothing. */
  function BlockText(block: Js): string
  {
    if Truthy(block) && Get(block, "elements").Arr? then ElementsText(Get(block, "elements").items) else ""
  }

  function BlocksText(blocks: seq<Js>): (r: string)
    ensures blocks == [] ==> r == ""
  {
    if blocks == [] then "" else BlockText(blocks[0]) + BlocksText(blocks[1..])
  }

  /**
    `richTextToPlainText(richText = [])`: the strings of all text nodes, in
    document order, concatenated; anything that is not an array reads as "".
  */
  function PlainText(richText: Js): (r: string)
    ensures !richText.Arr? ==> r == ""
  {
    if richText.Arr? then BlocksText(richText.items) else ""
  }

  /** Reading back a created value gives the text it was created from (non-strings read as ""). */
  lemma PlainTextOfCreated(text: Js)
    ensures PlainText(CreateRichText(text)) == (if text.Str? then text.s else "")
  {
    var r := CreateRichText(text);
    var block := r.items[0];
    var section := Get(block, "elements").items[0];
    var node := Get(section, "elements").items[0];
    assert NodesText(Get(section, "elements").items) == NodeText(node);
    assert ElementsText(Get(block, "elements").items) == ElementText(section);
    assert BlocksText(r.items) == BlockText(block);
  }

  /** The text of consecutive blocks is the concatenation of their texts. */
  lemma {:induction false} BlocksTextAppend(a: seq<Js>, b: seq<Js>)
    ensures BlocksText(a + b) == BlocksText(a) + BlocksText(b)
  {
    if a == [] {
      assert a + b == b;
    } else {
      assert (a + b)[1..] == a[1..] + b;
      BlocksTextAppend(a[1..], b);
    }
  }

  lemma {:induction false} ElementsTextAppend(a: seq<Js>, b: seq<Js>)
    ensures ElementsText(a + b) == ElementsText(a) + ElementsText(b)
  {
    if a == [] {
      assert a + b == b;
    } else {
      assert (a + b)[1..] == a[1..] + b;
      ElementsTextAppend(a[1..], b);
    }
  }

  lemma {:induction false} NodesTextAppend(a: seq<Js>, b: seq<Js>)
    ensures NodesText(a + b) == NodesText(a) + NodesText(b)
  {
    if a == [] {
      assert a + b == b;
    } else {
      assert (a + b)[1..] == a[1..] + b;
      NodesTextAppend(a[1..], b);
    }
  }

  /** Replacing one block by another of the same text leaves the text of the whole unchanged. */
  lemma BlocksTextReplace(a: seq<Js>, x: Js, y: Js, b: seq<Js>)
    requires BlockText(x) == BlockText(y)
    ensures BlocksText(a + [x] + b) == BlocksText(a + [y] + b)
  {
    BlocksTextAppend(a + [x], b);
    BlocksTextAppend(a, [x]);
    BlocksTextAppend(a + [y], b);
    BlocksTextAppend(a, [y]);
  }

  /** An element between others that contributes nothing can be dropped. */
  lemma ElementsTextSkip(a: seq<Js>, e: Js, b: seq<Js>)
    requires ElementText(e) == ""
    ensures ElementsText(a + [e] + b) == ElementsText(a + b)
  {
    ElementsTextAppend(a + [e], b);
    ElementsTextAppend(a, [e]);
    ElementsTextAppend(a, b);
  }

  /** Replacing one element by another of the same text leaves the text of the block unchanged. */
  lemma ElementsTextReplace(a: seq<Js>, x: Js, y: Js, b: seq<Js>)
    requires ElementText(x) == ElementText(y)
    ensures ElementsText(a + [x] + b) == ElementsText(a + [y] + b)
  {
    ElementsTextAppend(a + [x], b);
    ElementsTextAppend(a, [x]);
    ElementsTextAppend(a + [y], b);
    ElementsTextAppend(a, [y]);
  }

  /** A node between others that contributes nothing can be dropped. */
  lemma NodesTextSkip(a: seq<Js>, n: Js, b: seq<Js>)
    requires NodeText(n) == ""
    ensures NodesText(a + [n] + b) == NodesText(a + b)
  {
    NodesTextAppend(a + [n], b);
    NodesTextAppend(a, [n]);
    NodesTextAppend(a, b);
  }

  /** A block whose `elements` is not an array, or a falsy block, contributes nothing wherever it stands. */
  lemma SkipsMalformedBlock(a: seq<Js>, block: Js, b: seq<Js>)
    requires !(Truthy(block) && Get(block, "elements").Arr?)
    ensures PlainText(Arr(a + [block] + b)) == PlainText(Arr(a + b))
  {
    BlocksTextAppend(a + [block], b);
    BlocksTextAppend(a, [block]);
    BlocksTextAppend(a, b);
    assert BlocksText([block]) == "";
  }

  /** The block `fields` with the given sequence as its elements. */
  function WithElements(fields: map<string, Js>, elements: seq<Js>): (r: Js)
    ensures Truthy(r) && Get(r, "elements") == Arr(elements)
  {
    Obj(fields["elements" := Arr(elements)])
  }

  /** A falsy element, or one whose `elements` is not an array, contributes nothing to its block. */
  lemma SkipsMalformedElement(a: seq<Js>, fields: map<string, Js>, ea: seq<Js>, e: Js, eb: seq<Js>, b: seq<Js>)
    requires !(Truthy(e) && Get(e, "elements").Arr?)
    ensures PlainText(Arr(a + [WithElements(fields, ea + [e] + eb)] + b))
         == PlainText(Arr(a + [WithElements(fields, ea + eb)] + b))
  {
    ElementsTextSkip(ea, e, eb);
    BlocksTextReplace(a, WithElements(fields, ea + [e] + eb), WithElements(fields, ea + eb), b);
  }

  /** A falsy node, or one whose `text` is not a string, contributes nothing to its element. */
  lemma SkipsNonStringNode(
    a: seq<Js>, fields: map<string, Js>, ea: seq<Js>, efields: map<string, Js>,
    na: seq<Js>, n: Js, nb: seq<Js>, eb: seq<Js>, b: seq<Js>)
    requires !(Truthy(n) && Get(n, "text").Str?)
    ensures PlainText(Arr(a + [WithElements(fields, ea + [WithElements(efields, na + [n] + nb)] + eb)] + b))
         == PlainText(Arr(a + [WithElements(fields, ea + [WithElements(efields, na + nb)] + eb)] + b))
  {
    NodesTextSkip(na, n, nb);
    var x := WithElements(efields, na + [n] + nb);
    var y := WithElements(efields, na + nb);
    ElementsTextReplace(ea, x, y, eb);
    var before := WithElements(fields, ea + [x] + eb);
    var after := WithElements(fields, ea + [y] + eb);
    assert BlockText(before) == BlockText(after);
    BlocksTextReplace(a, before, after, b);
  }

  /** The blocks of several created values, one after the other. */
  function CreatedBlocks(texts: seq<string>): (r: seq<Js>)
    ensures |r| == |texts|
  {
    if texts == [] then [] else CreatedBlocks(texts[..|texts| - 1]) + CreateRichText(Str(texts[|texts| - 1])).items
  }

  function Concat(texts: seq<string>): string
  {
    if texts == [] then "" else Concat(texts[..|texts| - 1]) + texts[|texts| - 1]
  }

  /** Blocks created from several texts read back as the texts concatenated. */
  lemma {:induction false} PlainTextOfCreatedBlocks(texts: seq<string>)
    ensures PlainText(Arr(CreatedBlocks(texts))) == Concat(texts)
  {
    if texts != [] {
      var init := texts[..|texts| - 1];
      var last := Str(texts[|texts| - 1]);
      PlainTextOfCreatedBlocks(init);
      BlocksTextAppend(CreatedBlocks(init), CreateRichText(last).items);
      PlainTextOfCreated(last);
    }
  }

  /** `buildRichTextField(columnId, text = '')`: a rich-text cell for one column. */
  function BuildRichTextField(columnId: Js, text: Js): (r: Js)
    ensures r.Obj? && r.fields.Keys == {"column_id", "rich_text"}
    ensures Get(r, "column_id") == columnId
    ensures PlainText(Get(r, "rich_text")) == (if text.Str? then text.s else "")
  {
    PlainTextOfCreated(text);
    Obj(map["column_id" := columnId, "rich_text" := CreateRichText(text)])
  }
}

=== FILE: slack_api.dfy ===
/**
  `SlackAPIService.call`: one platform call retried under the Slack API
  policy, with every failure turned into a `SlackAPIError` whose Slack error
  code decides whether it is retried; and the user-list argument of
  `inviteToConversation`.

  The platform client is not modelled: `outcomes(k)` is what `client.apiCall`
  resolved with (a response) or threw on the k-th invocation.
*/
module SlackApi {
  import opened Results
  import opened Text
  import opened JsValue
  import opened Errors
  import opened Retry

  /** `response.ok === false` or no response at all. */
  predicate IsFailedResponse(response: Js)
  {
    !Truthy(response) || Get(response, "ok") == Bool(false)
  }

  /** The code of a failed response: `response.error`, or 'unknown_error' when there is none. */
  function ResponseErrorCode(response: Js): Js
  {
    if Truthy(response) && Truthy(Get(response, "error")) then Get(response, "error") else Str("unknown_error")
  }

  /** `error.data && error.data.error`, up to truthiness (only its truthiness and truthy value matter). */
  function DataErrorCode(e: Error): Js
  {
    if Truthy(Data(e)) then Get(Data(e), "error") else Undefined
  }

  /** The code `call` assigns to a thrown error that is not already a `SlackAPIError`. */
  function PlatformErrorCode(e: Error): (code: Js)
    ensures Truthy(DataErrorCode(e)) ==> code == DataErrorCode(e)
    ensures !Truthy(DataErrorCode(e)) && Code(e).Str? && Code(e).s != "" ==> code == Code(e)
    ensures !Truthy(DataErrorCode(e)) && !(Code(e).Str? && Code(e).s != "") ==>
              code == (if Message(e).Str? && ContainsIgnoreCase(Message(e).s, "unknown_method")
                       then Str("unknown_method") else Str("network_error"))
  {
    var fromCode := if Code(e).Str? then Code(e) else Null;
    var fromMessage :=
      if Message(e).Str? && ContainsIgnoreCase(Message(e).s, "unknown_method") then Str("unknown_method") else Null;
    Or(Or(Or(DataErrorCode(e), fromCode), fromMessage), Str("network_error"))
  }

  /** The operation `call` hands to `retry`, for one invocation of the client. */
  function Attempt(apiMethod: string, outcome: Result<Js, Error>): (r: Result<Js, Error>)
    ensures outcome.Success? && !IsFailedResponse(outcome.value) ==> r == outcome
    ensures outcome.Success? && IsFailedResponse(outcome.value) ==>
              r.Failure? && r.error.SlackApi? && r.error.slackError == ResponseErrorCode(outcome.value)
              && r.error.apiMethod == Str(apiMethod)
    ensures outcome.Failure? && outcome.error.SlackApi? ==> r == outcome
    ensures outcome.Failure? && !outcome.error.SlackApi? ==>
              r.Failure? && r.error.SlackApi? && r.error.slackError == PlatformErrorCode(outcome.error)
              && r.error.apiMethod == Str(apiMethod)
  {
    match outcome
    case Success(response) =>
      if IsFailedResponse(response) then
        var code := ResponseErrorCode(response);
        Failure(SlackApi("Slack API call failed: " + apiMethod + " - " + JsString(code), Str(apiMethod), code))
      else Success(response)
    case Failure(e) =>
      if e.SlackApi? then Failure(e)
      else
        var fromCode := if Code(e).Str? then Code(e) else Null;
        var fromMessage :=
          if Message(e).Str? && ContainsIgnoreCase(Message(e).s, "unknown_method") then Str("unknown_method") else Null;
        var platform := Or(Or(DataErrorCode(e), fromCode), fromMessage);
        var prefix := if Truthy(platform) then "Slack API error" else "Network error";
        Failure(SlackApi(prefix + " calling " + apiMethod + ": " + JsString(Message(e)), Str(apiMethod), PlatformErrorCode(e)))
  }

  /** `SlackAPIService.call(method, params)`. */
  function Call(apiMethod: string, outcomes: nat -> Result<Js, Error>): (run: Run<Js, Error>)
    ensures 1 <= run.attempts <= 3
    ensures run.waits <= [1000.0, 2000.0]
    ensures run.result.Failure? ==> run.result.error.Some? && run.result.error.value.SlackApi?
    ensures run.result.Success? ==> outcomes(run.attempts) == Success(run.result.value) && !IsFailedResponse(run.result.value)
    ensures run.result.Failure? && run.attempts < 3 ==> !IsRetryableSlackError(run.result.error.value)
    ensures forall k :: 1 <= k < run.attempts ==>
              Attempt(apiMethod, outcomes(k)).Failure? && IsRetryableSlackError(Attempt(apiMethod, outcomes(k)).error)
    ensures run.result.Failure? ==>
              Attempt(apiMethod, outcomes(run.attempts)).Failure?
              && run.result.error == Some(Attempt(apiMethod, outcomes(run.attempts)).error)
  {
    var op := (k: nat) => Attempt(apiMethod, outcomes(k));
    var run := RetryWith(op, SLACK_API_CONFIG);
    SlackApiSchedule(op);
    AttemptFailsAsSlackApiError(apiMethod, outcomes(run.attempts));
    run
  }

  /** Every failure of an attempt is a `SlackAPIError`. */
  lemma AttemptFailsAsSlackApiError(apiMethod: string, outcome: Result<Js, Error>)
    ensures Attempt(apiMethod, outcome).Failure? ==> Attempt(apiMethod, outcome).error.SlackApi?
  {
  }

  /**
    A first invocation that fails with a code outside the transient ones
    ends the call at once, with that failure and no wait.
  */
  lemma CallStopsOnPermanentFailure(apiMethod: string, outcomes: nat -> Result<Js, Error>)
    requires Attempt(apiMethod, outcomes(1)).Failure?
    requires !IsRetryableSlackError(Attempt(apiMethod, outcomes(1)).error)
    ensures Call(apiMethod, outcomes) == Run(Failure(Some(Attempt(apiMethod, outcomes(1)).error)), 1, [])
  {
    var op := (k: nat) => Attempt(apiMethod, outcomes(k));
    RetryStopsOnDeclinedError(op, 3, 1000.0, 2.0, (e: Error, k: nat) => ShouldRetry(SlackApiPolicy, e, k));
  }

  /**
    A call whose first two invocations fail with a transient code and whose
    third gets a good response returns that response.
  */
  lemma CallRecoversFromTransientFailures(apiMethod: string, outcomes: nat -> Result<Js, Error>)
    requires forall k :: 1 <= k < 3 ==> Attempt(apiMethod, outcomes(k)).Failure?
    requires forall k :: 1 <= k < 3 ==> IsRetryableSlackError(Attempt(apiMethod, outcomes(k)).error)
    requires outcomes(3).Success? && !IsFailedResponse(outcomes(3).value)
    ensures Call(apiMethod, outcomes).result == Success(outcomes(3).value)
    ensures Call(apiMethod, outcomes).attempts == 3
  {
    var op := (k: nat) => Attempt(apiMethod, outcomes(k));
    RetryReturnsFirstSuccess(op, 3, 1000.0, 2.0, (e: Error, k: nat) => ShouldRetry(SlackApiPolicy, e, k), 3);
  }

  /**
    How the codes `call` invents are treated: a thrown error carrying no
    platform code becomes 'network_error' and is retried; a failed response
    without a code ('unknown_error') and an unknown method are not retried,
    so the call gives up after one invocation.
  */
  lemma InventedCodesRetryPolicy(apiMethod: string, outcomes: nat -> Result<Js, Error>, message: string)
    ensures (IsRetryableSlackError(Attempt(apiMethod, Failure(Foreign(map["message" := Str(message)]))).error)
             <==> !ContainsIgnoreCase(message, "unknown_method"))
    ensures outcomes(1) == Success(Obj(map["ok" := Bool(false)])) ==> Call(apiMethod, outcomes).attempts == 1
  {
    var e := Foreign(map["message" := Str(message)]);
    assert Data(e) == Undefined && Code(e) == Undefined && Message(e) == Str(message);
    if outcomes(1) == Success(Obj(map["ok" := Bool(false)])) {
      var op := (k: nat) => Attempt(apiMethod, outcomes(k));
      assert op(1).error.slackError == Str("unknown_error");
      RetryStopsOnDeclinedError(op, 3, 1000.0, 2.0, (e: Error, k: nat) => ShouldRetry(SlackApiPolicy, e, k));
    }
  }

  /** `Array.isArray(users) ? users.join(',') : users` from `inviteToConversation`. */
  function InviteUsersParam(users: Js): (r: Js)
    ensures !users.Arr? ==> r == users
    ensures users.Arr? && (forall i :: 0 <= i < |users.items| ==> users.items[i].Str?) ==>
              r == Str(Join(seq(|users.items|, i requires 0 <= i < |users.items| => users.items[i].s), ','))
  {
    if users.Arr? then
      var xs := users.items;
      assert (forall i :: 0 <= i < |xs| ==> xs[i].Str?) ==>
        seq(|xs|, i requires 0 <= i < |xs| => if xs[i].Undefined? || xs[i].Null? then "" else JsString(xs[i]))
        == seq(|xs|, i requires 0 <= i < |xs| => xs[i].s);
      Str(JsString(users))
    else users
  }

  /** The joined user list splits back into the user ids when none of them contains a comma. */
  lemma InviteUsersSplitsBack(ids: seq<string>)
    requires |ids| >= 1
    requires forall i :: 0 <= i < |ids| ==> ',' !in ids[i]
    ensures var users := Arr(seq(|ids|, i requires 0 <= i < |ids| => Str(ids[i])));
            InviteUsersParam(users).Str? && Split(InviteUsersParam(users).s, ',') == ids
  {
    var users := Arr(seq(|ids|, i requires 0 <= i < |ids| => Str(ids[i])));
    assert seq(|users.items|, i requires 0 <= i < |users.items| => users.items[i].s) == ids;
    SplitJoin(ids, ',');
  }
}

=== FILE: text.dfy ===
/**
  Character classes and string operations with the meaning JavaScript gives
  them: `trim`, `split(',')`, `join(',')`, decimal rendering of integers and
  an ASCII case-insensitive substring test (a regular expression with the
  `i` flag and no `u` flag folds only ASCII letters onto ASCII letters).
*/
module Text {

  predicate IsDigit(c: char) { '0' <= c <= '9' }
  predicate IsUpper(c: char) { 'A' <= c <= 'Z' }
  predicate IsLower(c: char) { 'a' <= c <= 'z' }

  /** The class `[A-Z0-9]` under the `i` flag: ASCII letters of either case and digits. */
  predicate IsAlnum(c: char) { IsDigit(c) || IsUpper(c) || IsLower(c) }

  /** ASCII lower-casing; every other character is left as it is. */
  function ToLower(c: char): (r: char)
    ensures IsUpper(c) ==> IsLower(r)
    ensures !IsUpper(c) ==> r == c
  {
    if IsUpper(c) then (c as int + 32) as char else c
  }

  function Lower(s: string): (r: string)
    ensures |r| == |s|
    ensures forall i :: 0 <= i < |s| ==> r[i] == ToLower(s[i])
  {
    seq(|s|, i requires 0 <= i < |s| => ToLower(s[i]))
  }

  /** ECMAScript WhiteSpace and LineTerminator code points, the set `trim` and `parseInt` skip. */
  predicate IsSpace(c: char)
  {
    c == '\t' || c == '\n' || c == '\U{B}' || c == '\U{C}' || c == '\r' || c == ' '
    || c == '\U{A0}' || c == '\U{1680}' || ('\U{2000}' <= c <= '\U{200A}')
    || c == '\U{2028}' || c == '\U{2029}' || c == '\U{202F}' || c == '\U{205F}'
    || c == '\U{3000}' || c == '\U{FEFF}'
  }

  /** Neither the first nor the last character is white space. */
  predicate IsTrimmed(s: string)
  {
    s == [] || (!IsSpace(s[0]) && !IsSpace(s[|s| - 1]))
  }

  predicate AllSpace(s: string)
  {
    forall i :: 0 <= i < |s| ==> IsSpace(s[i])
  }

  /** `r` occurs in `s` at offset `i` with nothing but white space before and after it. */
  predicate PaddedAt(s: string, i: int, r: string)
  {
    0 <= i && i + |r| <= |s| && s[i..i + |r|] == r && AllSpace(s[..i]) && AllSpace(s[i + |r|..])
  }

  function TrimStart(s: string): (r: string)
    ensures r == [] || !IsSpace(r[0])
    ensures |r| <= |s| && r == s[|s| - |r|..]
    ensures AllSpace(s[..|s| - |r|])
    ensures s != [] && !IsSpace(s[0]) ==> r == s
  {
    if s == [] || !IsSpace(s[0]) then s
    else
      var r := TrimStart(s[1..]);
      assert s[..|s| - |r|] == [s[0]] + s[1..][..|s| - 1 - |r|];
      r
  }

  function TrimEnd(s: string): (r: string)
    ensures r == [] || !IsSpace(r[|r| - 1])
    ensures |r| <= |s| && r == s[..|r|]
    ensures AllSpace(s[|r|..])
    ensures s != [] && !IsSpace(s[|s| - 1]) ==> r == s
  {
    if s == [] || !IsSpace(s[|s| - 1]) then s
    else
      var r := TrimEnd(s[..|s| - 1]);
      assert s[|r|..] == s[..|s| - 1][|r|..] + [s[|s| - 1]];
      r
  }

  /** `String.prototype.trim`: the text between the leading and the trailing white space. */
  function Trim(s: string): (r: string)
    ensures IsTrimmed(r)
    ensures exists i :: PaddedAt(s, i, r)
    ensures IsTrimmed(s) ==> r == s
  {
    var t := TrimStart(s);
    assert t != [] ==> s[|s| - |t|..][|t| - 1] == s[|s| - 1];
    var r := TrimEnd(t);
    PaddedWithin(s, t, r);
    r
  }

  /** A part `r` of a suffix `t` of `s`, with only white space around each, is padded in `s`. */
  lemma PaddedWithin(s: string, t: string, r: string)
    requires |t| <= |s| && t == s[|s| - |t|..] && AllSpace(s[..|s| - |t|])
    requires |r| <= |t| && r == t[..|r|] && AllSpace(t[|r|..])
    ensures PaddedAt(s, |s| - |t|, r)
  {
  }

  /** Leading white space is skipped up to the first other character. */
  lemma {:induction false} TrimStartSkipsSpace(ws: string, rest: string)
    requires AllSpace(ws)
    requires rest != [] && !IsSpace(rest[0])
    ensures TrimStart(ws + rest) == rest
  {
    if ws != [] {
      assert (ws + rest)[1..] == ws[1..] + rest;
      TrimStartSkipsSpace(ws[1..], rest);
    } else {
      assert ws + rest == rest;
    }
  }

  /** Trailing white space is dropped back to the last other character. */
  lemma {:induction false} TrimEndSkipsSpace(rest: string, ws: string)
    requires AllSpace(ws)
    requires rest != [] && !IsSpace(rest[|rest| - 1])
    ensures TrimEnd(rest + ws) == rest
  {
    if ws != [] {
      assert (rest + ws)[..|rest + ws| - 1] == rest + ws[..|ws| - 1];
      TrimEndSkipsSpace(rest, ws[..|ws| - 1]);
    } else {
      assert rest + ws == rest;
    }
  }

  /** A trimmed text between white space is what `trim` gives back: the result `Trim` promises is the only one. */
  lemma TrimPadded(before: string, x: string, after: string)
    requires AllSpace(before) && AllSpace(after)
    requires IsTrimmed(x)
    ensures Trim(before + x + after) == x
  {
    var s := before + x + after;
    if x == [] {
      assert AllSpace(s) by {
        assert s == before + after;
      }
      assert TrimStart(s) == [];
    } else {
      assert s == before + (x + after);
      TrimStartSkipsSpace(before, x + after);
      TrimEndSkipsSpace(x, after);
    }
  }

  /** `s.split(sep)` for a one-character separator: the pieces between separators. */
  function Split(s: string, sep: char): (r: seq<string>)
    ensures |r| >= 1
    ensures forall i :: 0 <= i < |r| ==> sep !in r[i]
  {
    if s == [] then [""]
    else if s[0] == sep then [""] + Split(s[1..], sep)
    else
      var rest := Split(s[1..], sep);
      [[s[0]] + rest[0]] + rest[1..]
  }

  /** `xs.join(sep)` for strings. */
  function Join(xs: seq<string>, sep: char): string
  {
    if xs == [] then ""
    else if |xs| == 1 then xs[0]
    else xs[0] + [sep] + Join(xs[1..], sep)
  }

  lemma {:induction false} SplitWithoutSeparator(a: string, sep: char)
    requires sep !in a
    ensures Split(a, sep) == [a]
  {
    if a != [] {
      SplitWithoutSeparator(a[1..], sep);
      assert [a[0]] + a[1..] == a;
    }
  }

  lemma {:induction false} SplitAfterPiece(a: string, b: string, sep: char)
    requires sep !in a
    ensures Split(a + [sep] + b, sep) == [a] + Split(b, sep)
  {
    if a == [] {
      assert a + [sep] + b == [sep] + b;
      assert ([sep] + b)[1..] == b;
    } else {
      var s := a + [sep] + b;
      assert s[0] == a[0];
      assert s[1..] == a[1..] + [sep] + b;
      SplitAfterPiece(a[1..], b, sep);
      assert [a[0]] + a[1..] == a;
    }
  }

  /** Splitting a join of separator-free pieces gives the pieces back. */
  lemma {:induction false} SplitJoin(xs: seq<string>, sep: char)
    requires |xs| >= 1
    requires forall i :: 0 <= i < |xs| ==> sep !in xs[i]
    ensures Split(Join(xs, sep), sep) == xs
  {
    if |xs| == 1 {
      SplitWithoutSeparator(xs[0], sep);
    } else {
      SplitJoin(xs[1..], sep);
      SplitAfterPiece(xs[0], Join(xs[1..], sep), sep);
      assert [xs[0]] + xs[1..] == xs;
    }
  }

  function DigitChar(d: nat): (c: char)
    requires d < 10
    ensures IsDigit(c)
  {
    ('0' as int + d) as char
  }

  function DigitOf(c: char): (d: nat)
    requires IsDigit(c)
    ensures d < 10
  {
    c as int - '0' as int
  }

  /** The value of a string of decimal digits. */
  function DigitsValue(s: string): nat
    requires forall i :: 0 <= i < |s| ==> IsDigit(s[i])
  {
    if s == [] then 0
    else DigitsValue(s[..|s| - 1]) * 10 + DigitOf(s[|s| - 1])
  }

  /** Decimal rendering of a natural number, as `String(n)` gives it. */
  function NatToString(n: nat): (r: string)
    ensures |r| >= 1
    ensures forall i :: 0 <= i < |r| ==> IsDigit(r[i])
  {
    if n < 10 then [DigitChar(n)]
    else NatToString(n / 10) + [DigitChar(n % 10)]
  }

  /** Decimal rendering of an integer, with a leading '-' when negative. */
  function IntToString(n: int): string
  {
    if n < 0 then "-" + NatToString(-n) else NatToString(n)
  }

  /** Reading back a rendered natural number gives the number. */
  lemma {:induction false} NatToStringValue(n: nat)
    ensures DigitsValue(NatToString(n)) == n
  {
    if n >= 10 {
      var s := NatToString(n);
      assert s[..|s| - 1] == NatToString(n / 10);
      NatToStringValue(n / 10);
    }
  }

  predicate StartsWith(s: string, p: string)
  {
    |p| <= |s| && s[..|p|] == p
  }

  /** `p` occurs in `s` starting at index `i`. */
  predicate OccursAt(s: string, p: string, i: int)
  {
    0 <= i <= |s| - |p| && s[i..i + |p|] == p
  }

  /** `p` occurs in `s` as a contiguous piece. */
  function Contains(s: string, p: string): (b: bool)
    ensures b <==> exists i :: OccursAt(s, p, i)
  {
    if StartsWith(s, p) then
      assert OccursAt(s, p, 0);
      true
    else if s == [] then
      assert forall i :: !OccursAt(s, p, i);
      false
    else
      var b := Contains(s[1..], p);
      assert forall j :: OccursAt(s[1..], p, j) <==> OccursAt(s, p, j + 1) by {
        forall j ensures OccursAt(s[1..], p, j) <==> OccursAt(s, p, j + 1) {
          if 0 <= j <= |s| - 1 - |p| {
            assert s[1..][j..j + |p|] == s[j + 1..j + 1 + |p|];
          }
        }
      }
      assert !OccursAt(s, p, 0);
      assert (exists i :: OccursAt(s, p, i)) ==> exists j :: OccursAt(s[1..], p, j) by {
        if exists i :: OccursAt(s, p, i) {
          var i :| OccursAt(s, p, i);
          assert OccursAt(s[1..], p, i - 1);
        }
      }
      b
  }

  /** The test `/p/i.test(s)` for a pattern made of literal characters. */
  predicate ContainsIgnoreCase(s: string, p: string)
  {
    Contains(Lower(s), Lower(p))
  }
}

=== FILE: validation.dfy ===
/**
  Input validation: Slack user and channel identifiers, arrays of user ids,
  the request payload, the error-swallowing wrapper, and the project-name
  sanitiser that turns a free-text name into a channel-name fragment.
*/
module Validation {
  import opened Results
  import opened Text
  import opened JsValue
  import opened Errors

  /** The regular expression `^[A-Z0-9]{9,11}$` with the `i` flag. */
  predicate IsUserIdText(s: string)
  {
    9 <= |s| <= 11 && forall i :: 0 <= i < |s| ==> IsAlnum(s[i])
  }

  /** The regular expression `^[C][A-Z0-9]{8,10}$` with the `i` flag. */
  predicate IsChannelIdText(s: string)
  {
    9 <= |s| <= 11 && (s[0] == 'C' || s[0] == 'c') && forall i :: 1 <= i < |s| ==> IsAlnum(s[i])
  }

  predicate IsValidUserId(v: Js)
  {
    v.Str? && IsUserIdText(v.s)
  }

  function FormatError(fieldName: string, v: Js, kind: string): (r: Result<Js, Error>)
    ensures r.Failure? && r.error == Validation(fieldName + " must be " + kind, Str(fieldName), v)
  {
    Failure(Validation(fieldName + " must be " + kind, Str(fieldName), v))
  }

  /** `validateUserId(userId, fieldName)`: the id itself, or a `ValidationError` about `fieldName`. */
  function ValidateUserId(v: Js, fieldName: string): (r: Result<Js, Error>)
    ensures r.Success? <==> IsValidUserId(v)
    ensures r.Success? ==> r.value == v
    ensures !IsNonEmptyString(v) ==> r == FormatError(fieldName, v, "a non-empty string")
    ensures IsNonEmptyString(v) && !IsUserIdText(v.s) ==> r == FormatError(fieldName, v, "a valid Slack user ID format")
  {
    if !IsNonEmptyString(v) then FormatError(fieldName, v, "a non-empty string")
    else if !IsUserIdText(v.s) then FormatError(fieldName, v, "a valid Slack user ID format")
    else Success(v)
  }

  /** `validateChannelId(channelId, fieldName)`. */
  function ValidateChannelId(v: Js, fieldName: string): (r: Result<Js, Error>)
    ensures r.Success? <==> v.Str? && IsChannelIdText(v.s)
    ensures r.Success? ==> r.value == v
    ensures !IsNonEmptyString(v) ==> r == FormatError(fieldName, v, "a non-empty string")
    ensures IsNonEmptyString(v) && !IsChannelIdText(v.s) ==> r == FormatError(fieldName, v, "a valid Slack channel ID format")
  {
    if !IsNonEmptyString(v) then FormatError(fieldName, v, "a non-empty string")
    else if !IsChannelIdText(v.s) then FormatError(fieldName, v, "a valid Slack channel ID format")
    else Success(v)
  }

  /** The field name `validateUserIdArray` reports for element `i`: `fieldName[i]`. */
  function IndexedField(fieldName: string, i: nat): string
  {
    fieldName + "[" + NatToString(i) + "]"
  }

  /** Elements from index `k` on are checked in order; the first invalid one decides the error. */
  function ValidateUserIdsFrom(xs: seq<Js>, fieldName: string, k: nat): (r: Result<Js, Error>)
    requires k <= |xs|
    ensures r.Success? <==> forall i :: k <= i < |xs| ==> IsValidUserId(xs[i])
    ensures r.Failure? ==> exists i :: k <= i < |xs| && !IsValidUserId(xs[i])
                                     && (forall j :: k <= j < i ==> IsValidUserId(xs[j]))
                                     && r == ValidateUserId(xs[i], IndexedField(fieldName, i))
    decreases |xs| - k
  {
    if k == |xs| then Success(Arr(xs))
    else
      var r := ValidateUserId(xs[k], IndexedField(fieldName, k));
      if r.Failure? then r else ValidateUserIdsFrom(xs, fieldName, k + 1)
  }

  /** `validateUserIdArray(userIds, fieldName, allowEmpty)`. */
  function ValidateUserIdArray(v: Js, fieldName: string, allowEmpty: bool): (r: Result<Js, Error>)
    ensures r.Success? <==> v.Arr? && (allowEmpty || |v.items| > 0)
                            && forall i :: 0 <= i < |v.items| ==> IsValidUserId(v.items[i])
    ensures r.Success? ==> r.value == v
    ensures !v.Arr? ==> r == FormatError(fieldName, v, "an array")
    ensures v.Arr? && !allowEmpty && |v.items| == 0 ==>
              r == Failure(Validation(fieldName + " cannot be empty", Str(fieldName), v))
    ensures v.Arr? && (allowEmpty || |v.items| > 0) && r.Failure? ==>
              exists i :: 0 <= i < |v.items| && !IsValidUserId(v.items[i])
                          && (forall j :: 0 <= j < i ==> IsValidUserId(v.items[j]))
                          && r == ValidateUserId(v.items[i], IndexedField(fieldName, i))
  {
    if !v.Arr? then FormatError(fieldName, v, "an array")
    else if !allowEmpty && |v.items| == 0 then
      Failure(Validation(fieldName + " cannot be empty", Str(fieldName), v))
    else
      var r := ValidateUserIdsFrom(v.items, fieldName, 0);
      if r.Failure? then r else Success(v)
  }

  /** `typeof v === 'object'` for a truthy value. */
  predicate IsObject(v: Js)
  {
    v.Obj? || v.Arr?
  }

  /** What `validateRequestData` accepts. */
  predicate IsValidRequestData(v: Js)
  {
    && IsObject(v)
    && IsNonEmptyString(Get(v, "projectName"))
    && IsValidUserId(Get(v, "requestedBy"))
    && (Truthy(Get(v, "teamMembers")) ==>
          Get(v, "teamMembers").Arr?
          && forall i :: 0 <= i < |Get(v, "teamMembers").items| ==> IsValidUserId(Get(v, "teamMembers").items[i]))
  }

  /** `validateRequestData(requestData)`: required fields first, then the user ids. */
  function ValidateRequestData(v: Js): (r: Result<Js, Error>)
    ensures r.Success? <==> IsValidRequestData(v)
    ensures r.Success? ==> r.value == v
    ensures r.Failure? ==> r.error.Validation?
    ensures !IsObject(v) ==> r.error.field == Str("requestData")
    ensures IsObject(v) && !IsNonEmptyString(Get(v, "projectName")) ==> r.error.field == Str("projectName")
    ensures IsObject(v) && IsNonEmptyString(Get(v, "projectName")) && !IsValidUserId(Get(v, "requestedBy")) ==>
              r.error.field == Str("requestedBy")
    ensures IsObject(v) && IsNonEmptyString(Get(v, "projectName")) && IsValidUserId(Get(v, "requestedBy"))
            && !IsValidRequestData(v) ==>
              r == ValidateUserIdArray(Get(v, "teamMembers"), "teamMembers", true)
  {
    if !IsObject(v) then Failure(Validation("Request data must be an object", Str("requestData"), v))
    else if !IsNonEmptyString(Get(v, "projectName")) then
      Failure(Validation("projectName is required and must be a non-empty string", Str("projectName"), Get(v, "projectName")))
    else if !IsNonEmptyString(Get(v, "requestedBy")) then
      Failure(Validation("requestedBy is required and must be a non-empty string", Str("requestedBy"), Get(v, "requestedBy")))
    else
      var byUser := ValidateUserId(Get(v, "requestedBy"), "requestedBy");
      if byUser.Failure? then byUser
      else if Truthy(Get(v, "teamMembers")) then
        var team := ValidateUserIdArray(Get(v, "teamMembers"), "teamMembers", true);
        if team.Failure? then team else Success(v)
      else Success(v)
  }

  /**
    `safeValidate(validationFn, value, ...args)`: the validator's result, or
    `null` (here `None`) when it throws; the logging is left out.
  */
  function SafeValidate<T>(validate: Js -> Result<T, Error>, v: Js): (r: Option<T>)
    ensures r.Some? <==> validate(v).Success?
    ensures r.Some? ==> r.value == validate(v).value
  {
    match validate(v)
    case Success(x) => Some(x)
    case Failure(_) => None
  }

  /** Wrapped around `validateUserId`, the value survives exactly when it is a user id. */
  lemma SafeValidateUserId(v: Js, fieldName: string)
    ensures SafeValidate((x: Js) => ValidateUserId(x, fieldName), v) == (if IsValidUserId(v) then Some(v) else None)
  {
  }

  // ----- sanitizeProjectName -----

  /** The characters the sanitiser keeps: `[a-z0-9-]`. */
  predicate IsSlugChar(c: char)
  {
    IsLower(c) || IsDigit(c) || c == '-'
  }

  predicate AllSlugChars(s: string)
  {
    forall i :: 0 <= i < |s| ==> IsSlugChar(s[i])
  }

  predicate NoDoubleHyphen(s: string)
  {
    forall i :: 0 <= i < |s| - 1 ==> !(s[i] == '-' && s[i + 1] == '-')
  }

  /** `.replace(/[^a-z0-9-]/g, '-')`. */
  function ReplaceInvalid(s: string): (r: string)
    ensures |r| == |s|
    ensures AllSlugChars(r)
    ensures forall i :: 0 <= i < |s| ==> r[i] == (if IsSlugChar(s[i]) then s[i] else '-')
  {
    seq(|s|, i requires 0 <= i < |s| => if IsSlugChar(s[i]) then s[i] else '-')
  }

  /** `.replace(/-+/g, '-')`: every run of hyphens becomes one. */
  function CollapseHyphens(s: string): (r: string)
    ensures NoDoubleHyphen(r)
    ensures AllSlugChars(s) ==> AllSlugChars(r)
    ensures s != [] ==> r != [] && r[0] == s[0]
    ensures NoDoubleHyphen(s) ==> r == s
  {
    if |s| <= 1 then s
    else if s[0] == '-' && s[1] == '-' then CollapseHyphens(s[1..])
    else
      var rest := CollapseHyphens(s[1..]);
      assert NoDoubleHyphen(s) ==> NoDoubleHyphen(s[1..]);
      assert [s[0]] + s[1..] == s;
      [s[0]] + rest
  }

  /** A piece of a string: one character other than '-', or a maximal run of `count` hyphens. */
  datatype Piece = Char(c: char) | Hyphens(count: nat)

  /** The string cut into its pieces, in order. */
  function Pieces(s: string): (ps: seq<Piece>)
  {
    if s == [] then []
    else if s[0] != '-' then [Char(s[0])] + Pieces(s[1..])
    else
      var rest := Pieces(s[1..]);
      if rest != [] && rest[0].Hyphens? then [Hyphens(rest[0].count + 1)] + rest[1..]
      else [Hyphens(1)] + rest
  }

  /** `count` hyphens. */
  function HyphenRun(count: nat): (r: string)
    ensures |r| == count && forall i :: 0 <= i < count ==> r[i] == '-'
  {
    if count == 0 then [] else "-" + HyphenRun(count - 1)
  }

  function PieceText(p: Piece): string
  {
    match p
    case Char(c) => [c]
    case Hyphens(n) => HyphenRun(n)
  }

  /** The text the pieces spell. */
  function Spell(ps: seq<Piece>): string
  {
    if ps == [] then [] else PieceText(ps[0]) + Spell(ps[1..])
  }

  lemma SpellCons(p: Piece, ps: seq<Piece>)
    ensures Spell([p] + ps) == PieceText(p) + Spell(ps)
  {
    assert ([p] + ps)[1..] == ps;
  }

  /** A string is spelled by its pieces, so the pieces determine it. */
  lemma {:induction false} SpellPieces(s: string)
    ensures Spell(Pieces(s)) == s
  {
    if s != [] {
      SpellPieces(s[1..]);
      var rest := Pieces(s[1..]);
      if s[0] != '-' {
        SpellCons(Char(s[0]), rest);
      } else if rest != [] && rest[0].Hyphens? {
        var n := rest[0].count;
        SpellCons(Hyphens(n + 1), rest[1..]);
        SpellCons(rest[0], rest[1..]);
        assert rest == [rest[0]] + rest[1..];
        assert HyphenRun(n + 1) == "-" + HyphenRun(n);
      } else {
        SpellCons(Hyphens(1), rest);
        assert HyphenRun(1) == "-";
      }
      assert s == [s[0]] + s[1..];
    }
  }

  /** The same pieces with every run of hyphens cut to a single hyphen. */
  function SingleHyphens(ps: seq<Piece>): (r: seq<Piece>)
    ensures |r| == |ps|
  {
    if ps == [] then []
    else [if ps[0].Hyphens? then Hyphens(1) else ps[0]] + SingleHyphens(ps[1..])
  }

  /**
    Collapsing keeps every other character in order and makes each run of
    hyphens exactly one hyphen; since pieces spell their string, this fixes
    the result completely.
  */
  lemma CollapseHyphensSpelled(s: string)
    ensures CollapseHyphens(s) == Spell(SingleHyphens(Pieces(s)))
  {
    CollapseHyphensPieces(s);
    SpellPieces(CollapseHyphens(s));
  }

  lemma {:induction false} CollapseHyphensPieces(s: string)
    ensures Pieces(CollapseHyphens(s)) == SingleHyphens(Pieces(s))
  {
    if |s| == 1 {
      if s[0] == '-' {
        assert s[1..] == [];
      }
    } else if |s| > 1 {
      CollapseHyphensPieces(s[1..]);
      var r := CollapseHyphens(s);
      if s[0] == '-' && s[1] == '-' {
        assert s[1..][0] == '-';
        assert Pieces(s[1..])[0].Hyphens?;
      } else if s[0] != '-' {
        assert r == [s[0]] + CollapseHyphens(s[1..]);
        assert r[1..] == CollapseHyphens(s[1..]);
      } else {
        assert r == [s[0]] + CollapseHyphens(s[1..]);
        assert r[1..] == CollapseHyphens(s[1..]);
        assert CollapseHyphens(s[1..])[0] == s[1];
      }
    }
  }

  /** `.replace(/^-|-$/g, '')`: drop one leading and one trailing hyphen. */
  function StripEdgeHyphens(s: string): (r: string)
    ensures AllSlugChars(s) ==> AllSlugChars(r)
    ensures NoDoubleHyphen(s) ==> NoDoubleHyphen(r) && (r == [] || (r[0] != '-' && r[|r| - 1] != '-'))
    ensures (s == [] || (s[0] != '-' && s[|s| - 1] != '-')) ==> r == s
    ensures s == "-" ==> r == []
    ensures |s| >= 2 && s[0] == '-' && s[|s| - 1] == '-' ==> r == s[1..|s| - 1]
    ensures s != [] && s[0] == '-' && s[|s| - 1] != '-' ==> r == s[1..]
    ensures s != [] && s[0] != '-' && s[|s| - 1] == '-' ==> r == s[..|s| - 1]
  {
    var a := if |s| > 0 && s[0] == '-' then s[1..] else s;
    if |a| > 0 && a[|a| - 1] == '-' then a[..|a| - 1] else a
  }

  /** `.substring(0, 40)`. */
  function Take40(s: string): (r: string)
    ensures |r| == if |s| <= 40 then |s| else 40
    ensures |s| <= 40 ==> r == s
    ensures r == s[..|r|]
    ensures s != [] ==> r != []
  {
    if |s| <= 40 then s else s[..40]
  }

  const FALLBACK_PROJECT_NAME: string := "prosjekt"

  /** The pipeline as written: lower-case, replace, collapse, strip the edges, then cut to 40. */
  function SanitizeText(s: string): string
  {
    var cut := Take40(StripEdgeHyphens(CollapseHyphens(ReplaceInvalid(Lower(s)))));
    if cut == [] then FALLBACK_PROJECT_NAME else cut
  }

  /** A usable channel-name fragment: non-empty, `[a-z0-9-]` only, no "--", no leading '-', at most 40 long. */
  predicate IsSlug(r: string)
  {
    r != [] && |r| <= 40 && AllSlugChars(r) && NoDoubleHyphen(r) && r[0] != '-'
  }

  /** `sanitizeProjectName(projectName)`. */
  function SanitizeProjectName(v: Js): (r: string)
    ensures IsSlug(r)
    ensures !IsNonEmptyString(v) ==> r == FALLBACK_PROJECT_NAME
  {
    if !IsNonEmptyString(v) then FALLBACK_PROJECT_NAME
    else
      var c := CollapseHyphens(ReplaceInvalid(Lower(v.s)));
      var t := StripEdgeHyphens(c);
      var cut := Take40(t);
      assert cut != [] ==> cut[0] == t[0];
      assert forall i :: 0 <= i < |cut| ==> cut[i] == t[i];
      SanitizeText(v.s)
  }

  /** A slug that does not end in '-' is left as it is by the sanitiser. */
  lemma {:induction false} SanitizeFixesSlugs(r: string)
    requires IsSlug(r) && r[|r| - 1] != '-'
    ensures SanitizeProjectName(Str(r)) == r
  {
    assert Lower(r) == r;
    assert ReplaceInvalid(r) == r;
  }

  /**
    The cut to 40 characters comes after the trailing hyphen is stripped, so
    it can expose a new trailing hyphen: 39 letters, a space and one more
    letter sanitise to the 39 letters followed by '-'.
  */
  lemma TrailingHyphenAfterCut()
    ensures var name := seq(39, _ => 'a') + " b";
            var r := SanitizeProjectName(Str(name));
            r == seq(39, _ => 'a') + "-" && r[|r| - 1] == '-'
  {
    var a := seq(39, _ => 'a');
    var name := a + " b";
    assert Lower(name) == name;
    var replaced := ReplaceInvalid(name);
    assert replaced == a + "-b";
    assert NoDoubleHyphen(replaced);
    assert StripEdgeHyphens(replaced) == replaced;
    assert Take40(replaced) == a + "-";
  }

  /** The sanitiser is not idempotent on such names: a second pass drops the exposed hyphen. */
  lemma SanitizeNotIdempotent()
    ensures var r := SanitizeProjectName(Str(seq(39, _ => 'a') + " b"));
            SanitizeProjectName(Str(r)) != r
  {
    TrailingHyphenAfterCut();
    var a := seq(39, _ => 'a');
    var r := a + "-";
    assert Lower(r) == r;
    assert ReplaceInvalid(r) == r;
    assert NoDoubleHyphen(r);
    assert StripEdgeHyphens(r) == a;
  }

  /**
    The sanitiser with the evidently intended order: after the cut to 40
    characters, a trailing hyphen the cut exposed is dropped as well.
  */
  function SanitizeProjectNameTrimmed(v: Js): (r: string)
    ensures IsSlug(r) && r[|r| - 1] != '-'
    ensures !IsNonEmptyString(v) ==> r == FALLBACK_PROJECT_NAME
    ensures var w := SanitizeProjectName(v); w[|w| - 1] != '-' ==> r == w
  {
    var w := SanitizeProjectName(v);
    if w[|w| - 1] == '-' then
      DropTrailingHyphen(w);
      w[..|w| - 1]
    else w
  }

  /** Dropping a trailing hyphen from a slug leaves a slug that ends in a letter or digit. */
  lemma DropTrailingHyphen(w: string)
    requires IsSlug(w) && w[|w| - 1] == '-'
    ensures |w| >= 2 && IsSlug(w[..|w| - 1]) && w[|w| - 2] != '-'
  {
    var p := w[..|w| - 1];
    assert |w| >= 2;
    assert w[|w| - 2] != '-';
    assert forall i :: 0 <= i < |p| ==> p[i] == w[i];
  }

  /** The corrected sanitiser is idempotent: its output is already a channel-name fragment. */
  lemma SanitizeTrimmedIdempotent(v: Js)
    ensures var r := SanitizeProjectNameTrimmed(v); SanitizeProjectNameTrimmed(Str(r)) == r
  {
    var r := SanitizeProjectNameTrimmed(v);
    SanitizeFixesSlugs(r);
  }
}
